=== FILE: README.md ===
# usertestwebapp — a Dafny model of its wallet ledger and request handlers

usertestwebapp is a marketplace where developers post app-testing tasks and
pay testers from a prepaid wallet. This project models its core in Dafny and
proves properties of the model.

**The wallet ledger (`src/lib/db/index.ts`).**
- `Ledger` holds the transaction rows and the sums over them. It has the
  settlement of matured holds, the credit row with its pending/completed
  decision, and the paged history. It also holds the two invariants the
  store keeps:
  - *reconciled*: a wallet's balance is the sum of its completed rows;
  - *solvent*: no balance is negative and every pending hold is
    non-negative.
- `Records` holds the other table rows and the pure decisions of the same
  file:
  - the task-row payload, the pending-review listing, trust promotion and
    the name sync;
  - the claim guard of `updateStatusOnSubmit`;
  - the re-opening done by `cancelForDebug`.
- `Db.Store` is a class whose fields are the tables. Its methods are the
  store operations (`getOrCreate`, `reserve`, `credit`, `deposit`,
  `creditTester`, `debitForPayout`, `settle`, `getBalance`, and the task and
  profile updates). Each method states its whole new state and preserves
  both invariants.

**The request handlers and pages.**
- `TaskActions`: the `createTask` server action.
- `PayoutRoute`: the payout request.
- `WebhookRoute`: the Stripe webhook.
- `TransactionsRoute`: the transactions listing.
- `AccountLink`: the Connect account link.
- `AuthCallback`: the sign-in callback.
- `StripeReturn`: the Stripe return page.
- `NewTaskPage`: the new-task form, a class whose fields are the page's
  state.

**The helper libraries.**
- `Format`: the display-label helpers.
- `Pagination`: the pagination strip.
- `Storage`: the storage path helpers and file validation.
- `VideoAnalysis`: JSON extraction and repair of a model reply, the result
  defaults and the video-URL check.
- `VideoSubmit`: the submit route and its validity rule.
- `VideoInsights`: the insights parser.

**How the outside world appears.**
- Database, Stripe and LLM calls become parameters: a function value, a
  `Result`, or a flag saying whether the call succeeds.
- The clock is an integer `now` in milliseconds.
- A JavaScript number is `JsNumber`: either `NaN` or an integer.
- A JSON value is `Json`.

**Where the code and the usual description of the system differ.** The
model follows the code.
- Reservation and task creation are separate writes. When the task insert
  fails, the reservation stays (`TaskActions.CreateTask`).
- `reserve` and `debitForPayout` call `getOrCreate` before their balance
  guard. A refused call can therefore still create an empty wallet.
- Trust promotion can lower a level. A stored level that the completed
  count does not earn is replaced by the earned one once the count reaches
  5 (`Records.InconsistentLevelIsLowered`). The level is therefore not
  "never demoted".
- The reservation is `budget × maxTesters × 100` cents. The platform fee
  shown on the new-task page is not reserved
  (`NewTaskPage.SubmissionAcceptedByAction`).
- `Number(p?.completed_tasks_count) ?? 0` never takes its default, because
  `Number` never yields `null` or `undefined`. A stored `null` count still
  counts as 0, because `Number(null)` is 0. That is what `Records.Promoted`
  states.

## Model

| member | source | states |
|---|---|---|
| Ledger.PostRow | src/lib/db/index.ts:453-468 | posting a row keeps the set of wallets, leaves every other wallet alone, and moves the row's wallet by its amount only when the row is completed |
| Ledger.SettledWallets | src/lib/db/index.ts:415-427 | settling keeps the set of wallets, leaves every other wallet alone, and raises the user's balance by exactly the matured total |
| Ledger.SumAppend | src/lib/db/index.ts:415-416 | appending a row adds its amount to a sum exactly when the row is selected |
| Ledger.SumOfNone | src/lib/db/index.ts:442-443 | a sum over rows none of which is selected is 0 |
| Ledger.SumNonNegative | src/lib/db/index.ts:442-443 | a sum over selected rows that are all non-negative is non-negative |
| Ledger.HoldsPartition | src/lib/db/index.ts:404-446 | a user's pending holds split exactly into the matured ones (`available_at <= now`) and the still-held ones (`available_at > now`) |
| Ledger.SettleRows | src/lib/db/index.ts:407-418 | settling keeps the row count and turns exactly the user's matured pending releases into completed rows, one row at a time |
| Ledger.SettleAddsMatured | src/lib/db/index.ts:415-427 | after settling, the user's completed sum has grown by exactly the matured total that `settle` adds to the balance |
| Ledger.SettleKeepsOthers | src/lib/db/index.ts:407-418 | settling one user leaves every other user's completed sum unchanged |
| Ledger.SettleKeepsHeld | src/lib/db/index.ts:407-418 | settling leaves the still-held total unchanged |
| Ledger.SettleLeavesNoMatured | src/lib/db/index.ts:407-418 | after settling, no matured pending release of the user is left |
| Ledger.SettleWithoutMatured | src/lib/db/index.ts:415 | with nothing matured, settling changes no row |
| Ledger.SettleIdempotent | src/lib/db/index.ts:404-429 | settling twice at the same time is the same as settling once |
| Ledger.SettleNothingMatured | src/lib/db/index.ts:415 | with nothing matured, neither the rows nor the wallets change (the early return) |
| Ledger.PostPreservesReconciled | src/lib/db/index.ts:453-468 | inserting a row and moving the balance by the row's amount (only for a completed row) keeps every balance equal to its completed sum |
| Ledger.PostPreservesSolvent | src/lib/db/index.ts:448-528 | a post that leaves the balance non-negative, and a pending row that is non-negative, keep the store solvent |
| Ledger.NoWalletNoRows | src/lib/db/index.ts:387-402 | in a reconciled store, a user without a wallet has no rows and a zero sum |
| Ledger.CreatePreservesReconciled | src/lib/db/index.ts:387-402 | creating a zero wallet for a user without one keeps the store reconciled |
| Ledger.SettlePreservesReconciled | src/lib/db/index.ts:404-429 | settling keeps every balance equal to its completed sum |
| Ledger.SettlePreservesSolvent | src/lib/db/index.ts:404-429 | settling keeps the store solvent |
| Ledger.WithWallet | src/lib/db/index.ts:387-402 | get-or-create: the user gets a wallet, its old balance or 0, and every other wallet is unchanged |
| Ledger.WithWalletPreservesReconciled | src/lib/db/index.ts:387-402 | get-or-create keeps the store reconciled |
| Ledger.WithWalletPreservesSolvent | src/lib/db/index.ts:387-402 | get-or-create keeps the store solvent |
| Ledger.WithWalletThenSet | src/lib/db/index.ts:448-470 | setting the balance after get-or-create is the same as setting it directly |
| Ledger.CreditRow | src/lib/db/index.ts:480-488 | the credit row carries the user, type and amount; it is pending exactly for a `test_release` whose release date lies in the future; `available_at` defaults to now |
| Ledger.PendingCreditIsHeld | src/lib/db/index.ts:480-488 | a pending credit counts as held, not matured, at the time it is written |
| Ledger.HoldMaturesAtReleaseDate | src/lib/db/index.ts:413-414 | a pending release matures at a later time exactly when its release date has been reached |
| Ledger.RowsOf | src/lib/db/index.ts:537 | the user's rows: at most all rows, only the user's, and every row of the user |
| Ledger.History | src/lib/db/index.ts:538 | the history is the user's rows, newest first |
| Ledger.FindByUser | src/lib/db/index.ts:532-542 | the page exists exactly for a non-negative limit and offset; it holds `limit` rows, or the rows left after `offset` when fewer remain, or none past the end; row k is the user's row at position offset+k of the history |
| Db.Store.constructor | src/lib/db/index.ts:387-402 | an empty store is reconciled and solvent |
| Db.Store.GetOrCreate | src/lib/db/index.ts:387-402 | the wallet exists afterwards with its old balance (0 when new); nothing else changes |
| Db.Store.Post | src/lib/db/index.ts:453-468 | appends the row and moves the balance only for a completed row; keeps the invariants |
| Db.Store.Reserve | src/lib/db/index.ts:448-470 | fails with "Insufficient funds" exactly when the balance is below the amount, having still created the wallet; otherwise a completed `test_reserve` row of the negated amount and a matching debit |
| Db.Store.Credit | src/lib/db/index.ts:476-498 | appends the credit row; moves the balance only when the row is not pending; keeps solvency for a non-negative amount |
| Db.Store.Deposit | src/lib/db/index.ts:472-474 | a completed deposit row and the balance raised by the amount |
| Db.Store.CreditTester | src/lib/db/index.ts:500-502 | a release dated in the future is a pending hold with no balance change; otherwise a completed release and the balance raised |
| Db.Store.DebitForPayout | src/lib/db/index.ts:505-528 | fails with "Insufficient balance" exactly when the balance is below the amount; otherwise a completed `payout` row of the negated amount and a matching debit; keeps solvency |
| Db.Store.Settle | src/lib/db/index.ts:404-429 | the rows and wallets become those of settlement; keeps both invariants |
| Db.Store.GetBalance | src/lib/db/index.ts:431-446 | settles, then returns the completed sum and the still-held sum; together they equal the old balance plus all of the user's holds |
| Db.Store.UpdateStatusOnSubmit | src/lib/db/index.ts:153-173 | succeeds exactly when the task exists and is unassigned or assigned to the same tester; otherwise "Task already claimed" and nothing changes |
| Db.Store.CreateTask | src/lib/db/index.ts:6-60 | inserts the task payload under its id, failing without change when the id is taken |
| Db.Store.IncrementCompletedAndPromoteTrust | src/lib/db/index.ts:341-361 | the profile's count is raised by one and its trust set by promotion; a missing profile is left alone |
| Db.Store.UpdateStripeCustomerId | src/lib/db/index.ts:328-338 | only the customer id and update time of an existing profile change |
| Db.Store.SyncFromAuthMetadata | src/lib/db/index.ts:364-383 | an empty update writes nothing; otherwise the name update is applied to the existing profile |
| Db.Store.CancelForDebug | src/lib/db/index.ts:260-290 | refused outside development and for a submission that is not the tester's; otherwise the submission is deleted and the task re-opened only when no other submission refers to it |
| Records.FirstPredefined | src/lib/db/index.ts:34-43 | the first of the given types that is a predefined type, none exactly when there is none |
| Records.Instructions | src/lib/db/index.ts:24-30 | non-empty instructions as given; given empty instructions are none; missing instructions become the steps joined by newlines, and none without steps |
| Records.IfTruthy | src/lib/db/index.ts:44-49 | an optional column is written only when truthy |
| Records.IfNonEmpty | src/lib/db/index.ts:50-51 | an optional list column is written only when non-empty |
| Records.TaskPayload | src/lib/db/index.ts:27-51 | a new task is `posted`, unassigned and unclaimed; it keeps the developer, URL, budget and tester count, takes the given id or the generated one; the explicit task type, else the first predefined one of a non-empty `taskTypes`; title, difficulty, platform and about only when truthy, task types, requirements and steps only when non-empty; no empty optional column |
| Records.PendingCount | src/lib/db/index.ts:106-114 | the count is positive exactly when some submission of the task is pending |
| Records.PendingReviews | src/lib/db/index.ts:95-123 | exactly the developer's submitted or claimed tasks with pending submissions, each with a positive tester count |
| Records.PendingReviewsAppend | src/lib/db/index.ts:95-123 | the entries keep the order of the task rows: the listing of `a + b` is the listing of `a` followed by that of `b` |
| Records.PromotedTrust | src/lib/db/index.ts:348-351 | 20 completed earn `trusted`, 5 `regular`; below 5 the stored level (default `new`) is kept |
| Records.PromotionNeverDemotes | src/lib/db/index.ts:348-351 | from a consistent level, one more completed task never lowers the level and stays consistent |
| Records.PromotionMonotone | src/lib/db/index.ts:348-351 | a larger count never yields a lower level |
| Records.InconsistentLevelIsLowered | src/lib/db/index.ts:348-351 | a stored `trusted` with a count of 6 becomes `regular` |
| Records.FirstWord | src/lib/db/index.ts:370 | the part of the full name before the first space, a prefix without a space |
| Records.AfterFirstWord | src/lib/db/index.ts:372-374 | the rest after the first space; first word, space and rest give back the name |
| Records.NameUpdateOf | src/lib/db/index.ts:364-380 | given and family names win; otherwise the full name (`full_name ?? name`) gives the trimmed first word as first name and, when it holds a space, the trimmed rest as last name; the e-mail is written only when truthy; no field is ever set to an empty string |
| Records.FullNameSplits | src/lib/db/index.ts:366-374 | a trimmed "first last" full name splits into those two names |
| Records.FirstWordOfJoined | src/lib/db/index.ts:370-374 | splitting "first rest" at its first space gives back both parts |
| Records.Promoted | src/lib/db/index.ts:348-358 | the count is raised by one, the level promoted, and nothing else but the update time changes |
| Records.ApplyNameUpdate | src/lib/db/index.ts:375-382 | only the names and e-mail present in the update change |
| Records.ClaimForSubmit | src/lib/db/index.ts:153-173 | the claim succeeds exactly for an unassigned task or one held by the same tester; the task becomes `submitted` and held by the tester; nothing else but the update time changes |
| Records.ClaimIsExclusive | src/lib/db/index.ts:162-163 | after one tester's claim, another tester's claim fails |
| Records.ClaimIsRepeatable | src/lib/db/index.ts:162-163 | the same tester can claim again |
| Records.Reopened | src/lib/db/index.ts:279-287 | the task becomes `posted`, unassigned and unclaimed; nothing else but the update time changes |
| Records.ReopenedIsClaimable | src/lib/db/index.ts:279-287 | any tester can claim a re-opened task |
| TaskActions.ReserveCents | src/app/dev/tasks/new/actions.ts:40-41 | `budget × testers × 100` cents, testers defaulting to 1; a whole number of dollars, non-negative for non-negative inputs |
| TaskActions.ReservationMetadata | src/app/dev/tasks/new/actions.ts:44 | the reserve row carries exactly the task id and the title, "Test" by default |
| TaskActions.TaskMatchesReservation | src/app/dev/tasks/new/actions.ts:42-68 | the created task has the id named in the reservation, the developer, the tester count reserved for, and is `posted` |
| TaskActions.CreateTask | src/app/dev/tasks/new/actions.ts:31-68 | redirects without a user and rejects too little detail, in both cases writing nothing; reserves, failing on insufficient funds with only the wallet `getOrCreate` leaves, then creates the task; a failed insert leaves the reservation in place |
| PayoutRoute.PayoutAmount | src/app/api/stripe/connect/request-payout/route.ts:29-30 | `Number(body?.amount_cents ?? 0)`: 0 without a body, without the field or for null; the number itself when numeric; a string read by `Number`; 1 or 0 for a boolean; NaN for an object |
| PayoutRoute.NonNumericAmountPassesGuards | src/app/api/stripe/connect/request-payout/route.ts:30-38 | a non-numeric amount becomes NaN, and NaN passes both the minimum check and the balance check |
| PayoutRoute.ValidPayoutAmountRefinesGuard | src/app/api/stripe/connect/request-payout/route.ts:31-36 | the corrected guard accepts only numbers of at least 100 cents; it agrees with the written guard on numbers and refuses NaN |
| PayoutRoute.RequestPayout | src/app/api/stripe/connect/request-payout/route.ts:13-55 | as written: 401 without a user, 500 without a profile, 400 without an account or for a number below the minimum, each with the wallets unchanged; a NaN amount passes the checks, creates the wallet and ends in 500 with no transfer; otherwise a short balance is a 400 and a sufficient one is debited before the transfer, whose failure answers 500 with the debit kept; keeps solvency |
| PayoutRoute.RequestPayoutAsIntended | src/app/api/stripe/connect/request-payout/route.ts:13-55 | with the corrected check, NaN is refused with the minimum's 400 and writes nothing; every transfer is of at least 100 cents and follows its debit |
| PayoutRoute.PayOut | src/app/api/stripe/connect/request-payout/route.ts:38-47 | a short balance is a 400 with no row and no transfer; otherwise one payout row, the balance lowered by the amount, the transfer of that amount to the account, and 200 or 500 by the transfer's outcome |
| WebhookRoute.DepositMetadata | src/app/api/stripe/webhook/route.ts:32-35 | the deposit row carries exactly the session id and the payment intent (null when absent) |
| WebhookRoute.HandleWebhook | src/app/api/stripe/webhook/route.ts:13-49 | 400 without a signature or secret and on a bad signature; other events are only acknowledged; a checkout without a user or with an amount that is not positive answers 400 without a deposit; otherwise one deposit of the amount, then the customer id stored |
| TransactionsRoute.ParamNumber | src/app/api/wallet/transactions/route.ts:14-15 | a missing parameter reads as 0 |
| TransactionsRoute.Limit | src/app/api/wallet/transactions/route.ts:14 | a truthy number capped at 100, otherwise 20 |
| TransactionsRoute.Offset | src/app/api/wallet/transactions/route.ts:15 | a truthy number, otherwise 0 |
| TransactionsRoute.Defaults | src/app/api/wallet/transactions/route.ts:14-15 | a missing, zero or non-numeric parameter gives limit 20 and offset 0 |
| TransactionsRoute.DecimalLimit | src/app/api/wallet/transactions/route.ts:14 | a positive decimal limit is taken as written, up to 100 |
| TransactionsRoute.ListTransactions | src/app/api/wallet/transactions/route.ts:8-22 | 401 exactly without a user; 500 exactly for a negative limit or offset; otherwise a page of at most 100 of the user's rows in history order, as many as the normalised limit allows from the normalised offset |
| Format.BucketsAreFloors | src/lib/utils/format.ts:5-8 | the minute, hour and day counts are the floors of the elapsed time |
| Format.FormatTimeAgo | src/lib/utils/format.ts:2-15 | "just now" under a minute, then minutes, hours and days ago, and the date from a week on |
| Format.PlatformDisplayLabel | src/lib/utils/format.ts:18-22 | both mobile platforms read "Mobile", "web" and a missing platform "Web", anything else as given |
| Format.PlatformLabelIdempotent | src/lib/utils/format.ts:18-22 | labelling a label changes nothing |
| Format.DifficultyDisplayLabel | src/lib/utils/format.ts:25-31 | always Easy, Medium or Hard; Easy and Hard exactly for "easy" and "hard" in any case |
| Format.DifficultyIgnoresCase | src/lib/utils/format.ts:27 | values equal up to case get the same label |
| Format.DifficultyLabelIdempotent | src/lib/utils/format.ts:25-31 | labelling a label changes nothing |
| Format.TaskTypeDisplayLabel | src/lib/utils/format.ts:34-44 | the known types get their label, others are shown as given, a missing type is "Other" |
| Format.TaskTypeLabelsDistinct | src/lib/utils/format.ts:34-44 | distinct known types get distinct labels, none of which is itself a type key |
| Format.TaskStatusLabel | src/lib/utils/format.ts:47-56 | the five statuses get their labels; anything else is shown as given |
| Format.TaskStatusLabelsDistinct | src/lib/utils/format.ts:47-56 | distinct statuses get distinct labels |
| Pagination.ItemFor | src/components/ui/Pagination.tsx:22-53 | a page gets a button exactly when it is the first, the last or within one of the current page, highlighted exactly when current; an ellipsis exactly two away without a button |
| Pagination.Items | src/components/ui/Pagination.tsx:22-53 | the strip has one item per page, each as above |
| Pagination.WindowAtMostThree | src/components/ui/Pagination.tsx:25-29 | at most three buttons lie within one of the current page |
| Pagination.ButtonsWithinSlots | src/components/ui/Pagination.tsx:25-29 | the buttons are at most the first, the last and the window |
| Pagination.AtMostFiveButtons | src/components/ui/Pagination.tsx:22-53 | the strip never shows more than five page buttons |
| Pagination.HighlightIsCurrent | src/components/ui/Pagination.tsx:35-39 | exactly the current page's button is highlighted |
| Pagination.PrevButton | src/components/ui/Pagination.tsx:16-17 | disabled exactly on page 1; goes one page back |
| Pagination.NextButton | src/components/ui/Pagination.tsx:59-60 | disabled exactly on the last page; goes one page on |
| Pagination.InnerPageNavigates | src/components/ui/Pagination.tsx:16-17 | on an inner page both buttons are enabled and stay within the pages |
| Pagination.MiddleWindow | src/components/ui/Pagination.tsx:48-50 | far from both ends, ellipses sit two pages either side of the current page |
| Storage.Sanitize | src/lib/storage/index.ts:20 | same length in code points; safe characters kept, every other one replaced by `_` |
| Storage.SanitizedIsSafe | src/lib/storage/index.ts:20 | a sanitized name has only safe characters and `_` |
| Storage.SafeNameUnchanged | src/lib/storage/index.ts:20 | a safe name is kept as it is |
| Storage.SanitizeIdempotent | src/lib/storage/index.ts:20 | sanitizing twice is sanitizing once |
| Storage.UploadPath | src/lib/storage/index.ts:21 | `submissions/<timestamp>-<sanitized name>` |
| Storage.GetUrl | src/lib/storage/index.ts:65-70 | the base URL, the public-object prefix, then the path |
| Storage.SecondPiece | src/lib/storage/index.ts:80-83 | `split(sep)[1]`: present exactly when the separator occurs, and free of it |
| Storage.DeletePath | src/lib/storage/index.ts:80-83 | a path without the marker is used as given; an extracted path is non-empty and free of the marker |
| Storage.DeleteInvertsGetUrl | src/lib/storage/index.ts:65-83 | deleting by the public URL of a non-empty path without the marker names that path |
| Storage.DeleteOfEmptyPathKeepsUrl | src/lib/storage/index.ts:80-83 | the URL of an empty path falls back to the whole URL |
| Storage.UploadedVideoDeletes | src/lib/storage/index.ts:20-83 | deleting by the public URL of an uploaded video names its upload path |
| Storage.ValidateFile | src/lib/storage/index.ts:100-111 | valid exactly for an allowed type of at most 100 MiB; the type error comes first |
| Storage.SizeLimitInclusive | src/lib/storage/index.ts:102-110 | exactly 100 MiB passes, one byte more fails |
| VideoAnalysis.SkipSpaces | src/lib/ai/video-analysis.ts:156-158 | the first non-space position from `i`, skipping only spaces |
| VideoAnalysis.LabelBeforeClose | src/lib/ai/video-analysis.ts:156-158 | an optional `json` label after the opening fence ends before the closing fence |
| VideoAnalysis.CodeBlock | src/lib/ai/video-analysis.ts:156-158 | a fenced block is found exactly when two fences occur |
| VideoAnalysis.BraceSpan | src/lib/ai/video-analysis.ts:163-165 | found exactly when a `{` precedes a `}`; it opens with `{` and closes with `}` |
| VideoAnalysis.ExtractJson | src/lib/ai/video-analysis.ts:154-181 | the loop-based extraction meets its specification: code block, then brace span, then repaired truncated fence |
| VideoAnalysis.ExtractSpec | src/lib/ai/video-analysis.ts:154-181 | a code block wins; without one, a brace span; nothing is extracted exactly when there is no pair of fences, no `{` before a `}` and no fence followed by `{`; anything extracted without a code block starts with `{` |
| VideoAnalysis.TruncatedExtraction | src/lib/ai/video-analysis.ts:166-181 | a truncated fenced reply yields text that starts with the reply from its first `{` on (`indexOf('{')`), with balanced braces |
| VideoAnalysis.CloseQuoteAsWritten | src/lib/ai/video-analysis.ts:172-175 | as written: a quote is appended whenever the text holds any quote |
| VideoAnalysis.CloseQuote | src/lib/ai/video-analysis.ts:172-175 | corrected: the quote count becomes even |
| VideoAnalysis.CloseAll | src/lib/ai/video-analysis.ts:176-178 | closing keeps the text as a prefix and appends only `}` |
| VideoAnalysis.CloseAllBalances | src/lib/ai/video-analysis.ts:176-178 | the appended braces leave at least as many `}` as `{`, exactly as many when there were not more, and keep the `{` and quote counts |
| VideoAnalysis.Repaired | src/lib/ai/video-analysis.ts:170-180 | the repair as written only appends quotes and braces to the text |
| VideoAnalysis.RepairedAsIntended | src/lib/ai/video-analysis.ts:170-180 | corrected: the same repair with the quote step that closes only an open string; it also only appends quotes and braces |
| VideoAnalysis.ClosingBraces | src/lib/ai/video-analysis.ts:176-178 | appending n braces adds n closing braces and nothing else |
| VideoAnalysis.RepairedBalances | src/lib/ai/video-analysis.ts:170-180 | corrected: a repaired text has at least as many `}` as `{` and an even number of quotes |
| VideoAnalysis.RepairedOpensString | src/lib/ai/video-analysis.ts:170-180 | as written: the braces are closed, but a text with an even, non-zero number of quotes comes out with an odd number |
| VideoAnalysis.Repair | src/lib/ai/video-analysis.ts:170-180 | the written quote step and the brace loop compute the repair as written |
| VideoAnalysis.CloseBraces | src/lib/ai/video-analysis.ts:176-178 | the loop appends exactly the missing closing braces |
| VideoAnalysis.RepairClosesObject | src/lib/ai/video-analysis.ts:170-180 | as written, text without `}` is repaired to exactly balanced braces |
| VideoAnalysis.NotEndingWithBrace | src/lib/ai/video-analysis.ts:170 | text without `}` does not end with one after trimming |
| VideoAnalysis.QuoteStepExample | src/lib/ai/video-analysis.ts:172-178 | as written, the reply cut off as `{"a":1` is repaired to `{"a":1"}` |
| VideoAnalysis.IntendedRepairExample | src/lib/ai/video-analysis.ts:172-178 | corrected, the same reply is repaired to `{"a":1}` |
| VideoAnalysis.CutOffFencedReplyUnclosed | src/lib/ai/video-analysis.ts:156-165 | the reply ```` ```json\n{"a":1 ```` has no closed code block and no brace span |
| VideoAnalysis.CutOffFencedReplyOpens | src/lib/ai/video-analysis.ts:166 | its fence and label are followed by `{` |
| VideoAnalysis.CutOffFencedReplyStart | src/lib/ai/video-analysis.ts:168-169 | its first `{` starts the cut-off object `{"a":1` |
| VideoAnalysis.CutOffFencedReplyExtraction | src/lib/ai/video-analysis.ts:154-181 | as written, that reply is extracted as `{"a":1"}`, which is not JSON |
| VideoAnalysis.ParseFailure | src/lib/ai/video-analysis.ts:187-193 | the error names the Gemini parse failure, quotes the first 200 characters of the reply and ends in `...` |
| VideoAnalysis.ResultOf | src/lib/ai/video-analysis.ts:210-220 | null parses to an error; otherwise the provider is kept, every present non-null field keeps its value, and each missing or null field takes its default |
| VideoAnalysis.DefaultedFieldsPresent | src/lib/ai/video-analysis.ts:210-220 | every field of a result is present after defaulting |
| VideoAnalysis.GeminiResult | src/lib/ai/video-analysis.ts:183-220 | no extractable JSON (or an empty block) is a parse failure; otherwise a parse error is wrapped as "Invalid JSON from Gemini" and a parsed value is defaulted with the Gemini provider |
| VideoAnalysis.OpenAiResult | src/lib/ai/video-analysis.ts:280-300 | no brace span is a parse failure; otherwise a parse error is passed through unchanged and a parsed span gives its defaulted result with the OpenAI provider |
| VideoAnalysis.ProviderOf | src/lib/ai/video-analysis.ts:49-53 | Gemini when its key is set, else OpenAI when its key is set, else none |
| VideoAnalysis.ContainsAny | src/lib/ai/video-analysis.ts:325 | some needle occurs |
| VideoAnalysis.EndsWithAny | src/lib/ai/video-analysis.ts:330-334 | some suffix ends the text |
| VideoAnalysis.IsVideoUrlCompatible | src/lib/ai/video-analysis.ts:307-340 | an unparsable URL is refused; a known host or a video file extension is accepted |
| VideoAnalysis.YouTubeHostCompatible | src/lib/ai/video-analysis.ts:313-325 | any YouTube subdomain is accepted |
| VideoAnalysis.KnownDomainCompatible | src/lib/ai/video-analysis.ts:313-325 | a host containing a known domain in any case is accepted |
| VideoAnalysis.Mp4PathCompatible | src/lib/ai/video-analysis.ts:330-334 | any path ending in `.mp4` is accepted |
| VideoSubmit.IsCritical | src/app/api/video-analysis/submit/route.ts:102-104 | critical exactly when the lower-cased issue contains one of the four phrases or "off", at most one character, then "topic" |
| VideoSubmit.HasCritical | src/app/api/video-analysis/submit/route.ts:102-104 | some issue is critical |
| VideoSubmit.DetermineValidity | src/app/api/video-analysis/submit/route.ts:88-112 | valid exactly without a critical issue and with relevance ≥ 60, effort ≥ 50 and quality ≥ 40 |
| VideoSubmit.ValidityMonotoneInScores | src/app/api/video-analysis/submit/route.ts:106-111 | raising scores never invalidates |
| VideoSubmit.ValidityAntitoneInIssues | src/app/api/video-analysis/submit/route.ts:102-104 | more issues never validate what fewer did not |
| VideoSubmit.NaNScoreFails | src/app/api/video-analysis/submit/route.ts:106-111 | a NaN score fails the thresholds |
| VideoSubmit.CriticalIgnoresCase | src/app/api/video-analysis/submit/route.ts:102-104 | criticality does not depend on case |
| VideoSubmit.FakeIsCritical | src/app/api/video-analysis/submit/route.ts:102-104 | an issue mentioning "fake" is critical |
| VideoSubmit.StepsListOf | src/app/api/video-analysis/submit/route.ts:32-34 | the steps joined as a list; "None" without steps or instructions |
| VideoSubmit.RequirementsListOf | src/app/api/video-analysis/submit/route.ts:36-38 | the requirements joined as a list, or "None" |
| VideoSubmit.TemplateOpensWithTarget | src/app/api/video-analysis/submit/route.ts:40-51 | the trimmed template opens with the target heading |
| VideoSubmit.TaskDescription | src/app/api/video-analysis/submit/route.ts:40-51 | every task description opens with the target heading |
| VideoSubmit.AnalysisRequestOf | src/app/api/video-analysis/submit/route.ts:9-61 | the video URL as given, 180 s by default, and the task's description only when a task id is given and found |
| VideoSubmit.ValidityOf | src/app/api/video-analysis/submit/route.ts:64 | an error exactly when the issues are not an array |
| VideoSubmit.Submit | src/app/api/video-analysis/submit/route.ts:5-85 | an unreadable or null body is a 500; a missing video URL a 400; with a video URL, a failed analysis or non-array issues is a 500 with its message, and otherwise a 200 carrying the analysis and its validity |
| VideoInsights.OrNotSpecified | src/lib/ai/video-insights-analysis.ts:47-55 | a missing, null or empty value reads "Not specified"; a non-empty string is kept |
| VideoInsights.FocusAreasOf | src/lib/ai/video-insights-analysis.ts:50-52 | the focus areas joined, or "Not specified" when none |
| VideoInsights.PromptContextOf | src/lib/ai/video-insights-analysis.ts:47-55 | each missing context field reads "Not specified" |
| VideoInsights.EmptyContextNotSpecified | src/lib/ai/video-insights-analysis.ts:47-55 | an empty context leaves every field unspecified |
| VideoInsights.GivenContextKept | src/lib/ai/video-insights-analysis.ts:47-55 | given non-empty fields are kept |
| VideoInsights.SeverityOf | src/lib/ai/video-insights-analysis.ts:266-268 | a known severity is kept; anything else is "medium" |
| VideoInsights.SeverityRoundTrip | src/lib/ai/video-insights-analysis.ts:45 | reading a severity's name gives back the severity |
| VideoInsights.TextField | src/lib/ai/video-insights-analysis.ts:264-274 | a string field as given; missing or null reads as empty |
| VideoInsights.NormalizeFinding | src/lib/ai/video-insights-analysis.ts:262-275 | the timestamp as a number defaulting to 0, the severity normalised; a non-object is all defaults |
| VideoInsights.KeptEntries | src/lib/ai/video-insights-analysis.ts:262 | exactly the entries that are objects, in order |
| VideoInsights.KeptEntriesAppend | src/lib/ai/video-insights-analysis.ts:262 | filtering distributes over concatenation |
| VideoInsights.KeptEntriesIdempotent | src/lib/ai/video-insights-analysis.ts:262 | filtering twice is filtering once |
| VideoInsights.FindingsOf | src/lib/ai/video-insights-analysis.ts:260-275 | null is an error; no findings array gives none; otherwise one finding per kept entry |
| VideoInsights.InsightsJson | src/lib/ai/video-insights-analysis.ts:238-245 | a non-empty code block, else a brace span, else nothing; an empty code block gives nothing |
| VideoInsights.InsightsFailure | src/lib/ai/video-insights-analysis.ts:247-250 | the error opens with the insights parse failure, quotes the first 200 characters of the raw reply and ends in `...` |
| VideoInsights.ParseInsights | src/lib/ai/video-insights-analysis.ts:234-282 | no JSON or unparsable JSON is an error; a result keeps the provider |
| VideoInsights.AnalyzeInsights | src/lib/ai/video-insights-analysis.ts:130-150 | no provider key is an error; the result comes from the chosen provider |
| NewTaskPage.RecommendedBudget | src/app/dev/tasks/new/page.tsx:131-136 | the four duration bands and their budget ranges, each with min ≤ recommended ≤ max |
| NewTaskPage.RecommendedBudgetMonotone | src/app/dev/tasks/new/page.tsx:131-136 | a longer task never gets a lower budget |
| NewTaskPage.FeeCents | src/app/dev/tasks/new/page.tsx:127 | the fee is 20% of budget × testers |
| NewTaskPage.TotalCostCents | src/app/dev/tasks/new/page.tsx:128 | the total is the cost plus the fee, 120% of the cost |
| NewTaskPage.ClampTesters | src/app/dev/tasks/new/page.tsx:527 | always between 1 and 100; 1 for a falsy input |
| NewTaskPage.ClampTestersIdempotent | src/app/dev/tasks/new/page.tsx:527 | clamping twice is clamping once |
| NewTaskPage.UpdateItem | src/app/dev/tasks/new/page.tsx:58-62 | only the edited item changes |
| NewTaskPage.AddItem | src/app/dev/tasks/new/page.tsx:63 | an empty item is appended |
| NewTaskPage.RemoveItem | src/app/dev/tasks/new/page.tsx:64 | the item at the index is dropped and the rest keep their order |
| NewTaskPage.RemoveUndoesAdd | src/app/dev/tasks/new/page.tsx:63-64 | removing the added item restores the list |
| NewTaskPage.RemoveForgetsUpdate | src/app/dev/tasks/new/page.tsx:58-64 | removing an edited item forgets the edit |
| NewTaskPage.AppendFresh | src/app/dev/tasks/new/page.tsx:293-296 | appending an absent value keeps the list free of duplicates |
| NewTaskPage.PrependFresh | src/app/dev/tasks/new/page.tsx:293-296 | prepending an absent value keeps the list free of duplicates |
| NewTaskPage.RemoveAll | src/app/dev/tasks/new/page.tsx:353 | exactly the other values remain, shorter when the value was present |
| NewTaskPage.NonBlank | src/app/dev/tasks/new/page.tsx:149 | exactly the non-empty values remain |
| NewTaskPage.NormalizeKeyword | src/app/dev/tasks/new/page.tsx:316-319 | the keyword has no spaces or capitals; empty exactly for an all-space input |
| NewTaskPage.UnderscoreSpaces | src/app/dev/tasks/new/page.tsx:317 | runs of spaces become `_`; no space is left |
| NewTaskPage.NormalizeKeywordIdempotent | src/app/dev/tasks/new/page.tsx:316-319 | normalising twice is normalising once |
| NewTaskPage.TrimmedNonBlank | src/app/dev/tasks/new/page.tsx:144-148 | the trimmed non-empty lines |
| NewTaskPage.TrimmedNonBlankEmpty | src/app/dev/tasks/new/page.tsx:144-148 | none remain exactly when every line is blank |
| NewTaskPage.FindLabel | src/app/dev/tasks/new/page.tsx:162 | the label of a listed value, and none for an unlisted one |
| NewTaskPage.DisplayTitle | src/app/dev/tasks/new/page.tsx:162-163 | the trimmed title, else "Test" and the first type's label, else "Test Task" |
| NewTaskPage.SubmitError | src/app/dev/tasks/new/page.tsx:144-158 | each validation message exactly in its case and order; none exactly for a complete form |
| NewTaskPage.SubmissionOf | src/app/dev/tasks/new/page.tsx:160-184 | the cleaned steps, types, URL and tester count; optional text only when non-blank |
| NewTaskPage.SubmissionAcceptedByAction | src/app/dev/tasks/new/page.tsx:140-184 | a form that passes the page's checks passes the action's check, and the reserve is the total minus the fee |
| NewTaskPage.NewTaskForm.constructor | src/app/dev/tasks/new/page.tsx:107-125 | the form's initial state |
| NewTaskPage.NewTaskForm.ToggleTaskType | src/app/dev/tasks/new/page.tsx:293-296 | the type is removed when present, added otherwise; types stay free of duplicates |
| NewTaskPage.NewTaskForm.RemoveTaskType | src/app/dev/tasks/new/page.tsx:353 | the type is removed; nothing else changes |
| NewTaskPage.NewTaskForm.AddCustomKeyword | src/app/dev/tasks/new/page.tsx:316-319 | a new non-empty keyword is appended and the input cleared; otherwise nothing changes |
| NewTaskPage.NewTaskForm.SetMaxTesters | src/app/dev/tasks/new/page.tsx:527 | the tester count becomes the clamped input |
| NewTaskPage.NewTaskForm.EditSteps | src/app/dev/tasks/new/page.tsx:58-64 | the steps list is edited; nothing else changes |
| NewTaskPage.NewTaskForm.EditRequirements | src/app/dev/tasks/new/page.tsx:58-64 | the requirements list is edited; nothing else changes |
| NewTaskPage.NewTaskForm.Submit | src/app/dev/tasks/new/page.tsx:140-192 | an invalid form shows its error and sends nothing; otherwise the submission is sent, an action failure is shown, success navigates, and submitting ends either way |
| AccountLink.ReturnPathOf | src/app/api/stripe/connect/account-link/route.ts:30-31 | the given string path, else the earnings page; a non-string path is an error |
| AccountLink.OriginOf | src/app/api/stripe/connect/account-link/route.ts:33 | the origin header, else the forwarded host, else the local origin |
| AccountLink.DowngradeScheme | src/app/api/stripe/connect/account-link/route.ts:36 | only a leading "https:" becomes "http:" |
| AccountLink.WithScheme | src/app/api/stripe/connect/account-link/route.ts:34 | "https://" is added unless the origin starts with "http" |
| AccountLink.BaseUrl | src/app/api/stripe/connect/account-link/route.ts:34-37 | always starts with "http"; a non-localhost origin gets https unless it has a scheme; a localhost origin keeps its host and is served over plain http |
| AccountLink.SchemeKeepsLocalhost | src/app/api/stripe/connect/account-link/route.ts:34-35 | adding the scheme neither adds nor removes "localhost" |
| AccountLink.DowngradeKeepsLocalhost | src/app/api/stripe/connect/account-link/route.ts:35-36 | the downgrade neither adds nor removes "localhost" |
| AccountLink.BasePath | src/app/api/stripe/connect/account-link/route.ts:38 | the path, with a leading `/` added when missing |
| AccountLink.ReturnUrl | src/app/api/stripe/connect/account-link/route.ts:39 | the base URL followed by the path |
| AccountLink.RefreshUrl | src/app/api/stripe/connect/account-link/route.ts:40 | the return URL with `refresh=1` added by `&` after an existing query, else by `?` |
| AccountLink.RefreshUrlHasQuery | src/app/api/stripe/connect/account-link/route.ts:40 | the refresh URL always carries a query |
| AccountLink.RequestFor | src/app/api/stripe/connect/account-link/route.ts:33-46 | the link request names the account; its return URL starts with the base URL built from the request's origin and ends with the return path; its refresh URL extends the return URL and ends with `refresh=1` |
| AccountLink.CreateAccountLink | src/app/api/stripe/connect/account-link/route.ts:10-53 | 401 without a user, 500 without a profile, 400 without an account, 500 for a non-string return path or a failed link creation; a created link is answered with 200 and its URL, and a 200 only so |
| AuthCallback.SafeNext | src/app/auth/callback/route.ts:39 | the next path when it starts with `/`, else `/` |
| AuthCallback.SafeNextIdempotent | src/app/auth/callback/route.ts:39 | a safe path stays as it is |
| AuthCallback.RoleOf | src/app/auth/callback/route.ts:10 | the role given, else "tester" |
| AuthCallback.SyncConditionCharacterised | src/app/auth/callback/route.ts:33-36 | the sync depends on the first non-null of full name, name and e-mail being non-empty |
| AuthCallback.EmptyFullNameHidesEmail | src/app/auth/callback/route.ts:34 | an empty full name stops the sync even when an e-mail is present |
| AuthCallback.RedirectTarget | src/app/auth/callback/route.ts:39-49 | the origin in development or without a forwarded host, else https and the forwarded host; always followed by the safe path |
| AuthCallback.Callback | src/app/auth/callback/route.ts:6-50 | without a code or on a failed exchange, the error page and no write; otherwise the role write exactly for "developer" and a user, the sync exactly when the metadata names someone; no redirect exactly when that sync throws (src/lib/db/index.ts:382), else the redirect target |
| AuthCallback.OnlyDeveloperWritesRole | src/app/auth/callback/route.ts:26-31 | only the role "developer" writes the role |
| AuthCallback.RedirectEndsInLocalPath | src/app/auth/callback/route.ts:12-49 | every redirect goes to the error page or ends in a local path |
| StripeReturn.NextTarget | src/app/auth/stripe-return/page.tsx:8-10 | the next path when it starts with `/`, else the payments page |
| StripeReturn.NextTargetIdempotent | src/app/auth/stripe-return/page.tsx:8-10 | a target stays as it is when fed back |
| Js.ToNumber | src/app/api/stripe/connect/request-payout/route.ts:30 | `Number(v)`: null is 0, a number itself, a boolean 1 or 0, a string read by `Number`, undefined and objects NaN |
| Js.StringToNumber | src/app/api/wallet/transactions/route.ts:14-15 | a blank string is 0, trimmed decimal digits are their value; a number is read only from digits with at most a leading sign, and a negative one only after `-` |
| StripeReturn.NextTargetFromQuery | src/app/auth/stripe-return/page.tsx:8-10 | any target other than the default came from the query |

## Left out

- Database, Stripe, Supabase auth and LLM vendor calls are not modelled. Their outcomes are parameters (for the sign-in callback, whether `syncFromAuthMetadata` throws), or are held in the modelled store.
- Concurrency and atomicity are not modelled. Each store method runs as one step, so the race between two testers' claims appears only as the claim guard.
- Floating point is not modelled: `Math.round`, `toFixed`, fractional budgets and fractional tester input. Amounts are whole cents.
- `getBalance` reads the clock twice; the model uses one `now`.
- UI rendering is not modelled. The page's plain text setters have no members. The company fields are passed by the page to the action and by the action to `tasks.create`, which does not write them; they are left out of the form state.
- Prompt wording, YouTube `fileData` and the assembly of the vendors' reply text are not modelled (`src/lib/ai/video-analysis.ts` 144-148, and the matching part of the insights module).
- `JSON.parse` and `new URL` are parameters: their results are given, not computed.
- Lower-casing covers ASCII letters only.
- Object-prototype keys of JSON objects are not modelled.
- Storage upload and delete I/O, `getVideoDuration` and the `analyzedAt` time stamp are not modelled.
- The mapping from trust level to hold days, and the approve and reject actions, are not part of this model. `creditTester` takes its release date as given.
- PendingReviews: its own contract states which entries appear, not their order; the order of the task rows is stated by `Records.PendingReviewsAppend`.
- PayoutAmount: an array value goes through `Js.ToNumber` unstated by its own contract; strings are read by `Js.StringToNumber`, with the limits below.
- StringToNumber: reads only optionally signed decimal digits. JavaScript's `Number` also reads exponents ("1e2" is 100), hexadecimal, binary and octal literals ("0x10", "0b11", "0o7"), decimal points ("1.0" and "5." are 1 and 5) and "Infinity"; the model gives NaN for these. Fractions and infinities have no `JsNumber` to land on.
- The debug `fetch` calls to a local log collector and the `console.error` calls in the two AI modules are not modelled: they are effects that do not change any result.
- Strings are sequences of code points, while JavaScript's `length`, `slice` and non-`u` regular expressions count UTF-16 units. The members below differ for characters outside the Basic Multilingual Plane.
- CreateTask: the detail check `instructions.length >= 50` counts code points in `TaskActions.HasEnoughDetail`, so 25 "😀" (50 UTF-16 units) pass the source's check and fail the model's.
- ParseFailure: quotes the first 200 code points of the reply, where `slice(0, 200)` takes 200 UTF-16 units.
- InsightsFailure: quotes the first 200 code points of the reply, where `slice(0, 200)` takes 200 UTF-16 units.
- FormatTimeAgo: takes the elapsed time as a whole number. An unparsable date string gives a NaN elapsed time in the source, which fails every comparison and shows `toLocaleDateString()` ("Invalid Date"); the model has no NaN input for it.
- Sanitize: replaces per code point. The source's regular expression has no `u` flag, so it replaces each UTF-16 unit: a character outside the Basic Multilingual Plane such as "😀" becomes `__` in the source and `_` in the model.
- CloseQuote: the corrected quote step counts every `"`, including an escaped `\"` inside a string, so a cut-off string holding an escaped quote is judged closed when it is open.
- RequestPayout: on a NaN amount, the rows `debitForPayout` writes with a null amount and balance are not modelled, because the source does not check the insert's and update's errors and the table constraints that decide their fate are not part of the source. The model keeps the created wallet, writes no row, and answers 500 as the refused transfer makes the handler do.

## Findings

| source | as written | input that shows it | evidently intended | confidence | as-written member | corrected member |
|---|---|---|---|---|---|---|
| src/app/api/stripe/connect/request-payout/route.ts:29-36 | `Number(body?.amount_cents ?? 0)` is NaN for a non-numeric amount. `NaN < 100` is false, so the minimum check passes, and so does the balance check. | body `{"amount_cents":"abc"}` | refuse any amount that is not a number of at least 100 cents | not executed | PayoutRoute.NonNumericAmountPassesGuards | PayoutRoute.RequestPayoutAsIntended |
| src/lib/ai/video-analysis.ts:172-175 | `/"[^"]*$/` matches whenever the text holds any quote, so a quote is appended even when the quotes are balanced. The appended quote opens a string that swallows the closing braces. | reply ```` ```json\n{"a":1 ````, extracted as `{"a":1` and repaired to `{"a":1"}` | append a quote only when the number of quotes is odd | not executed | VideoAnalysis.CutOffFencedReplyExtraction | VideoAnalysis.RepairedBalances |

=== FILE: account_link.dfy ===
/**
 * The `POST` handler of `src/app/api/stripe/connect/account-link/route.ts`:
 * the no-account guard and the construction of the onboarding return and
 * refresh URLs from the request's headers and body.
 */
module AccountLink {
  import opened Common
  import opened Strings
  import opened Js
  import opened Http
  import opened Ledger
  import opened Records
  import opened PayoutRoute

  const DefaultReturnPath: string := "/tester/earnings"
  const DefaultOrigin: string := "http://localhost:3000"
  const NoAccountMessage: string := "No payout account. Create one first via create-account."
  const FailureMessage: string := "Failed to create account link"

  /**
   * `body?.return_path ?? '/tester/earnings'`: an unreadable body counts as
   * `{}`. A `return_path` that is not a string has no `startsWith`, so the
   * handler fails on it.
   */
  function ReturnPathOf(body: Option<Json>): (r: Result<string, string>)
    ensures body.None? ==> r == Ok(DefaultReturnPath)
    ensures body.Some? && Field(body.value, "return_path").Some? && Field(body.value, "return_path").value.JStr? ==>
              r == Ok(Field(body.value, "return_path").value.s)
    ensures body.Some? && (Field(body.value, "return_path").None? || Field(body.value, "return_path") == Some(JNull)) ==>
              r == Ok(DefaultReturnPath)
    ensures r.Err? <==> body.Some? && Field(body.value, "return_path").Some?
                        && !Field(body.value, "return_path").value.JNull? && !Field(body.value, "return_path").value.JStr?
  {
    var b := body.OrElse(JObj(map[]));
    match Nullish(Field(b, "return_path"), JStr(DefaultReturnPath))
    case JStr(s) => Ok(s)
    case _ => Err(FailureMessage)
  }

  /** The `origin` header, else `x-forwarded-host`, else the local development origin (`??`: only absence gives way). */
  function OriginOf(origin: Option<string>, forwardedHost: Option<string>): (r: string)
    ensures origin.Some? ==> r == origin.value
    ensures origin.None? && forwardedHost.Some? ==> r == forwardedHost.value
    ensures origin.None? && forwardedHost.None? ==> r == DefaultOrigin
  {
    if origin.Some? then origin.value else forwardedHost.OrElse(DefaultOrigin)
  }

  /** `replace(/^https:/, 'http:')`: only a leading "https:" is rewritten. */
  function DowngradeScheme(s: string): (r: string)
    ensures StartsWith(s, "https:") ==> r == "http:" + s[6..]
    ensures !StartsWith(s, "https:") ==> r == s
    ensures !StartsWith(r, "https:")
    ensures StartsWith(s, "http") ==> StartsWith(r, "http")
  {
    if StartsWith(s, "https:") then
      var r := "http:" + s[6..];
      assert r[4] == ':';
      r
    else s
  }

  /** `origin`, with "https://" put in front unless it already starts with "http". */
  function WithScheme(origin: string): (r: string)
    ensures StartsWith(r, "http")
    ensures StartsWith(origin, "http") ==> r == origin
    ensures !StartsWith(origin, "http") ==> r == "https://" + origin
  {
    if StartsWith(origin, "http") then origin
    else
      assert ("https://" + origin)[..4] == "http";
      "https://" + origin
  }

  /**
   * The base URL: the origin with a scheme; a base naming "localhost" is
   * then served over plain http. The host part is never lost.
   */
  function BaseUrl(origin: string): (r: string)
    ensures StartsWith(r, "http")
    ensures !Contains(origin, "localhost") ==> r == WithScheme(origin)
    ensures Contains(r, "localhost") <==> Contains(origin, "localhost")
    ensures Contains(r, "localhost") ==> !StartsWith(r, "https:")
    ensures Contains(origin, "localhost") ==>
              r == (if StartsWith(origin, "https:") then "http:" + origin[6..]
                    else if StartsWith(origin, "http") then origin
                    else "http://" + origin)
  {
    var base := WithScheme(origin);
    SchemeKeepsLocalhost(origin);
    DowngradeKeepsLocalhost(base);
    if Contains(base, "localhost") then DowngradeScheme(base) else base
  }

  /** An occurrence of `p` cannot start inside a prefix lacking `p`'s first character. */
  lemma DropPrefix(a: string, rest: string, p: string)
    requires |p| > 0 && forall k | 0 <= k < |a| :: a[k] != p[0]
    ensures Contains(a + rest, p) ==> Contains(rest, p)
  {
    if Contains(a + rest, p) {
      var i :| OccursAt(a + rest, p, i);
      assert (a + rest)[i] == p[0];
      assert i >= |a|;
      assert OccursAt(rest, p, i - |a|) by {
        assert rest[i - |a|..i - |a| + |p|] == (a + rest)[i..i + |p|];
      }
    }
  }

  lemma AddPrefix(a: string, rest: string, p: string)
    ensures Contains(rest, p) ==> Contains(a + rest, p)
  {
    if Contains(rest, p) {
      var j :| OccursAt(rest, p, j);
      assert OccursAt(a + rest, p, j + |a|) by {
        assert (a + rest)[j + |a|..j + |a| + |p|] == rest[j..j + |p|];
      }
    }
  }

  /** Putting "https://" in front neither adds nor removes "localhost". */
  lemma SchemeKeepsLocalhost(origin: string)
    ensures Contains("https://" + origin, "localhost") <==> Contains(origin, "localhost")
  {
    DropPrefix("https://", origin, "localhost");
    AddPrefix("https://", origin, "localhost");
  }

  /** The rewrite to plain http keeps the host: "localhost" cannot start inside the scheme. */
  lemma DowngradeKeepsLocalhost(s: string)
    ensures Contains(DowngradeScheme(s), "localhost") <==> Contains(s, "localhost")
  {
    if StartsWith(s, "https:") {
      var rest := s[6..];
      assert s == "https:" + rest;
      DropPrefix("https:", rest, "localhost");
      AddPrefix("https:", rest, "localhost");
      DropPrefix("http:", rest, "localhost");
      AddPrefix("http:", rest, "localhost");
    }
  }

  /** The return path with a leading '/' added when it has none. */
  function BasePath(returnPath: string): (r: string)
    ensures StartsWith(r, "/")
    ensures StartsWith(returnPath, "/") ==> r == returnPath
    ensures !StartsWith(returnPath, "/") ==> r == "/" + returnPath
    ensures EndsWith(r, returnPath)
  {
    if StartsWith(returnPath, "/") then returnPath else "/" + returnPath
  }

  /** The URL the onboarding returns to: base URL, then path. */
  function ReturnUrl(baseUrl: string, basePath: string): (r: string)
    ensures StartsWith(r, baseUrl) && EndsWith(r, basePath) && |r| == |baseUrl| + |basePath|
  {
    baseUrl + basePath
  }

  /** The URL the onboarding refreshes to: the return URL with `refresh=1` added as a further or first query parameter. */
  function RefreshUrl(baseUrl: string, basePath: string): (r: string)
    ensures |r| == |baseUrl| + |basePath| + 10
    ensures StartsWith(r, ReturnUrl(baseUrl, basePath)) && EndsWith(r, "refresh=1")
    ensures Contains(basePath, "?") ==> r[|baseUrl| + |basePath|] == '&'
    ensures !Contains(basePath, "?") ==> r[|baseUrl| + |basePath|] == '?'
  {
    var ret := ReturnUrl(baseUrl, basePath);
    var r := ret + (if Contains(basePath, "?") then "&" else "?") + "refresh=1";
    assert r[..|ret|] == ret;
    r
  }

  /** The refresh URL always carries a query: its path has a '?' either way. */
  lemma RefreshUrlHasQuery(baseUrl: string, basePath: string)
    ensures Contains(RefreshUrl(baseUrl, basePath)[|baseUrl|..], "?")
  {
    var r := RefreshUrl(baseUrl, basePath);
    var tail := r[|baseUrl|..];
    if Contains(basePath, "?") {
      var i :| OccursAt(basePath, "?", i);
      assert tail[..|basePath|] == basePath by {
        assert r[..|baseUrl| + |basePath|] == baseUrl + basePath;
      }
      assert OccursAt(tail, "?", i) by {
        assert tail[i] == basePath[i];
      }
    } else {
      assert OccursAt(tail, "?", |basePath|) by {
        assert tail[|basePath|] == r[|baseUrl| + |basePath|];
      }
    }
  }

  /** The arguments of `stripe.accountLinks.create`. */
  datatype LinkRequest = LinkRequest(account: string, refreshUrl: string, returnUrl: string)

  /** The link request for `account`: both URLs are built from the same base URL and path. */
  function RequestFor(account: string, returnPath: string, origin: Option<string>, forwardedHost: Option<string>): (r: LinkRequest)
    ensures r.account == account
    ensures StartsWith(r.refreshUrl, r.returnUrl) && EndsWith(r.refreshUrl, "refresh=1")
    ensures StartsWith(r.returnUrl, "http") && EndsWith(r.returnUrl, returnPath)
    ensures StartsWith(r.returnUrl, BaseUrl(OriginOf(origin, forwardedHost)))
  {
    var baseUrl := BaseUrl(OriginOf(origin, forwardedHost));
    var basePath := BasePath(returnPath);
    EndsWithAppend(baseUrl, basePath, returnPath);
    LinkRequest(account, RefreshUrl(baseUrl, basePath), ReturnUrl(baseUrl, basePath))
  }

  /**
   * The handler: 401 without a user, 500 when the profile lookup fails,
   * 400 without a connected account (before the body is read or any link
   * created), 500 on an unusable `return_path` or a failed link creation;
   * otherwise the link. `createLink` stands for the Stripe call.
   */
  function CreateAccountLink(
    user: Option<UserId>, profiles: map<UserId, Profile>, body: Option<Json>,
    origin: Option<string>, forwardedHost: Option<string>,
    createLink: LinkRequest -> Result<string, string>): (r: Response)
    ensures user.None? ==> r == Error(401, "Unauthorized")
    ensures user.Some? && user.value !in profiles ==> r == Error(500, FailureMessage)
    ensures user.Some? && user.value in profiles && PayoutAccount(profiles, user.value).None? ==>
              r == Error(400, NoAccountMessage)
    ensures user.Some? && PayoutAccount(profiles, user.value).Some? && ReturnPathOf(body).Err? ==>
              r == Error(500, FailureMessage)
    ensures user.Some? && PayoutAccount(profiles, user.value).Some? && ReturnPathOf(body).Ok? ==>
              var req := RequestFor(PayoutAccount(profiles, user.value).value, ReturnPathOf(body).value, origin, forwardedHost);
              (createLink(req).Ok? ==> r == Response(200, JObj(map["url" := JStr(createLink(req).value)])))
              && (createLink(req).Err? ==> r == Error(500, FailureMessage))
    ensures r.status == 200 ==> user.Some? && PayoutAccount(profiles, user.value).Some? && ReturnPathOf(body).Ok?
  {
    if user.None? then Error(401, "Unauthorized")
    else if user.value !in profiles then Error(500, FailureMessage)
    else
      match PayoutAccount(profiles, user.value)
      case None => Error(400, NoAccountMessage)
      case Some(account) =>
        match ReturnPathOf(body)
        case Err(_) => Error(500, FailureMessage)
        case Ok(returnPath) =>
          match createLink(RequestFor(account, returnPath, origin, forwardedHost))
          case Err(_) => Error(500, FailureMessage)
          case Ok(url) => Response(200, JObj(map["url" := JStr(url)]))
  }
}

=== FILE: auth_callback.dfy ===
/**
 * The `GET` handler of `src/app/auth/callback/route.ts`: where a sign-in
 * callback redirects to, and which profile writes it asks for (the role
 * update and the metadata sync, themselves left to the store).
 */
module AuthCallback {
  import opened Common
  import opened Strings
  import opened Js
  import opened Ledger

  const ErrorPath: string := "/auth/auth-code-error"

  /** The user a successful code exchange yields: its id and its OAuth metadata. */
  datatype AuthUser = AuthUser(id: UserId, metadata: Option<Json>)

  /**
   * What the callback does: where it redirects (none when the handler
   * throws, which the framework answers with a 500), and whether it writes
   * the developer role or syncs the metadata.
   */
  datatype CallbackOutcome = CallbackOutcome(redirect: Option<string>, writesDeveloperRole: bool, syncsMetadata: bool)

  /** `next ?? '/'`, kept only when it starts with '/'. */
  function SafeNext(next: Option<string>): (r: string)
    ensures StartsWith(r, "/")
    ensures next.Some? && StartsWith(next.value, "/") ==> r == next.value
    ensures !(next.Some? && StartsWith(next.value, "/")) ==> r == "/"
  {
    var n := next.OrElse("/");
    if StartsWith(n, "/") then n else "/"
  }

  /** A safe target stays as it is when it is fed back. */
  lemma SafeNextIdempotent(next: Option<string>)
    ensures SafeNext(Some(SafeNext(next))) == SafeNext(next)
  {
  }

  /** `role ?? 'tester'`: only the exact "developer" asks for a role write. */
  function RoleOf(role: Option<string>): (r: string)
    ensures role.None? ==> r == "tester"
    ensures role.Some? ==> r == role.value
  {
    role.OrElse("tester")
  }

  /** `a ?? b` on possibly missing values: `a` unless it is missing or `null`. */
  function NullishOpt(a: Option<Json>, b: Option<Json>): (r: Option<Json>)
    ensures a.Some? && !a.value.JNull? ==> r == a
    ensures a.None? || a == Some(JNull) ==> r == b
  {
    if a.Some? && !a.value.JNull? then a else b
  }

  /** `meta && (meta.full_name ?? meta.name ?? meta.email)`. */
  predicate MetadataNamesSomeone(meta: Option<Json>) {
    meta.Some? && JsonTruthy(meta.value)
    && var pick := NullishOpt(Field(meta.value, "full_name"), NullishOpt(Field(meta.value, "name"), Field(meta.value, "email")));
       pick.Some? && JsonTruthy(pick.value)
  }

  /** The sync runs for any metadata carrying a non-empty full name, name or email, first in that order that is not null. */
  lemma SyncConditionCharacterised(fields: map<string, Json>)
    ensures "full_name" in fields && fields["full_name"] != JNull ==>
              (MetadataNamesSomeone(Some(JObj(fields))) <==> JsonTruthy(fields["full_name"]))
    ensures "full_name" !in fields && "name" !in fields && "email" !in fields ==> !MetadataNamesSomeone(Some(JObj(fields)))
    ensures ("full_name" !in fields || fields["full_name"] == JNull) && ("name" !in fields || fields["name"] == JNull)
            && "email" in fields ==>
              (MetadataNamesSomeone(Some(JObj(fields))) <==> JsonTruthy(fields["email"]))
  {
  }

  /**
   * An empty `full_name` is not null, so `??` stops there: it hides an
   * e-mail address that is present, and the sync does not run.
   */
  lemma EmptyFullNameHidesEmail(email: string)
    ensures !MetadataNamesSomeone(Some(JObj(map["full_name" := JStr(""), "email" := JStr(email)])))
  {
  }

  /**
   * The redirect after a successful exchange: in development the request's
   * origin; otherwise the forwarded host over https when that header is
   * set and non-empty, else the origin; always followed by the safe path.
   */
  function RedirectTarget(origin: string, next: Option<string>, isDevelopment: bool, forwardedHost: Option<string>): (r: string)
    ensures EndsWith(r, SafeNext(next))
    ensures isDevelopment || !Truthy(forwardedHost) ==> r == origin + SafeNext(next)
    ensures !isDevelopment && Truthy(forwardedHost) ==> r == "https://" + forwardedHost.value + SafeNext(next)
  {
    var path := SafeNext(next);
    var host := if !isDevelopment && Truthy(forwardedHost) then "https://" + forwardedHost.value else origin;
    assert (host + path)[|host + path| - |path|..] == path;
    host + path
  }

  /**
   * The callback: a missing or empty code, or a failed exchange, redirects
   * to the error page with no profile write; otherwise the developer role
   * is written only when asked for, the metadata synced only when it names
   * someone, and the user redirected to the safe target. `exchange` stands
   * for `exchangeCodeForSession`; its user may be absent. `syncThrows`
   * stands for `syncFromAuthMetadata` throwing on a failed profile update:
   * a sync that throws ends the handler before any redirect. The role
   * update's own error is not checked by the handler.
   */
  function Callback(
    origin: string, code: Option<string>, next: Option<string>, role: Option<string>,
    isDevelopment: bool, forwardedHost: Option<string>,
    exchange: string -> Result<Option<AuthUser>, string>, syncThrows: bool): (r: CallbackOutcome)
    ensures !Truthy(code) ==> r == CallbackOutcome(Some(origin + ErrorPath), false, false)
    ensures Truthy(code) && exchange(code.value).Err? ==> r == CallbackOutcome(Some(origin + ErrorPath), false, false)
    ensures r.redirect.None? <==> r.syncsMetadata && syncThrows
    ensures Truthy(code) && exchange(code.value).Ok? && r.redirect.Some? ==>
              r.redirect.value == RedirectTarget(origin, next, isDevelopment, forwardedHost)
    ensures r.writesDeveloperRole <==>
              Truthy(code) && exchange(code.value).Ok? && exchange(code.value).value.Some? && RoleOf(role) == "developer"
    ensures r.syncsMetadata <==>
              Truthy(code) && exchange(code.value).Ok? && exchange(code.value).value.Some?
              && MetadataNamesSomeone(exchange(code.value).value.value.metadata)
  {
    if !Truthy(code) then CallbackOutcome(Some(origin + ErrorPath), false, false)
    else
      match exchange(code.value)
      case Err(_) => CallbackOutcome(Some(origin + ErrorPath), false, false)
      case Ok(user) =>
        var syncs := user.Some? && MetadataNamesSomeone(user.value.metadata);
        CallbackOutcome(
          if syncs && syncThrows then None else Some(RedirectTarget(origin, next, isDevelopment, forwardedHost)),
          user.Some? && RoleOf(role) == "developer",
          syncs)
  }

  /** A role other than exactly "developer" (a missing one included) never writes the role. */
  lemma OnlyDeveloperWritesRole(
    origin: string, code: Option<string>, next: Option<string>, role: Option<string>,
    isDevelopment: bool, forwardedHost: Option<string>,
    exchange: string -> Result<Option<AuthUser>, string>, syncThrows: bool)
    requires role != Some("developer")
    ensures !Callback(origin, code, next, role, isDevelopment, forwardedHost, exchange, syncThrows).writesDeveloperRole
  {
  }

  /** Every redirect stays on a path of the application: the error page, or a target ending in a path starting with '/'. */
  lemma RedirectEndsInLocalPath(
    origin: string, code: Option<string>, next: Option<string>, role: Option<string>,
    isDevelopment: bool, forwardedHost: Option<string>,
    exchange: string -> Result<Option<AuthUser>, string>, syncThrows: bool)
    ensures var r := Callback(origin, code, next, role, isDevelopment, forwardedHost, exchange, syncThrows).redirect;
            r.Some? ==> r.value == origin + ErrorPath || EndsWith(r.value, SafeNext(next))
  {
  }
}

=== FILE: common.dfy ===
/** Small value wrappers shared by every module of the model. */
module Common {

  /** A value that may be absent: JavaScript's `null` / `undefined`. */
  datatype Option<+T> = None | Some(value: T) {

    /** `x ?? d`: the value when present, the default otherwise. */
    function OrElse(d: T): T {
      match this
      case Some(v) => v
      case None => d
    }
  }

  /** Success or a typed failure: the errors a handler or store operation throws. */
  datatype Outcome<+E> = Pass | Fail(error: E)

  /** A value or a typed failure. */
  datatype Result<+T, +E> = Ok(value: T) | Err(error: E)
}

=== FILE: db.dfy ===
/**
 * The data-access object `db` of `src/lib/db/index.ts` over an in-memory
 * copy of its tables: `wallets` (user to `balance_cents`), the
 * `wallet_transactions` log, `tasks`, `profiles` and `submissions`. Every
 * operation that moves money inserts one log row and updates at most one
 * balance, which keeps the store reconciled (each balance is the sum of its
 * user's completed rows) and, from non-negative amounts, solvent.
 */
module Db {
  import opened Common
  import opened Ledger
  import opened Records
  import opened Js

  class Store {
    var wallets: map<UserId, int>
    var txs: seq<Tx>
    var tasks: map<string, Task>
    var profiles: map<UserId, Profile>
    var submissions: map<string, Submission>

    /** The store invariant: the ledger is reconciled. */
    ghost predicate Valid()
      reads this
    {
      Reconciled(wallets, txs)
    }

    /** No negative balance and no negative pending row. */
    ghost predicate IsSolvent()
      reads this
    {
      Solvent(wallets, txs)
    }

    /** `Number(wallet.balance_cents)`, with 0 for a user who has no wallet yet. */
    function Balance(u: UserId): int
      reads this
    {
      if u in wallets then wallets[u] else 0
    }

    /** Empty tables. */
    constructor ()
      ensures Valid() && IsSolvent()
      ensures wallets == map[] && txs == [] && tasks == map[] && profiles == map[] && submissions == map[]
    {
      wallets := map[];
      txs := [];
      tasks := map[];
      profiles := map[];
      submissions := map[];
    }

    /** `wallets.getOrCreate`: the user's wallet, inserted with a zero balance when missing. */
    method GetOrCreate(u: UserId) returns (balanceCents: int)
      requires Valid()
      modifies this
      ensures Valid()
      ensures wallets == WithWallet(old(wallets), u) && balanceCents == old(Balance(u))
      ensures old(IsSolvent()) ==> IsSolvent()
      ensures txs == old(txs) && tasks == old(tasks) && profiles == old(profiles) && submissions == old(submissions)
    {
      WithWalletPreservesReconciled(wallets, txs, u);
      if IsSolvent() {
        WithWalletPreservesSolvent(wallets, txs, u);
      }
      wallets := WithWallet(wallets, u);
      balanceCents := wallets[u];
    }

    /** Appends a row and posts it to its (existing) wallet. */
    method Post(t: Tx)
      requires Valid() && t.userId in wallets
      modifies this
      ensures Valid()
      ensures txs == old(txs) + [t] && wallets == PostRow(old(wallets), t)
      ensures (old(IsSolvent()) && (t.status == TxStatus.Completed ==> old(wallets)[t.userId] + t.amountCents >= 0)
               && (t.status == Pending ==> t.amountCents >= 0)) ==> IsSolvent()
      ensures tasks == old(tasks) && profiles == old(profiles) && submissions == old(submissions)
    {
      PostPreservesReconciled(wallets, txs, t);
      if IsSolvent() && (t.status == TxStatus.Completed ==> wallets[t.userId] + t.amountCents >= 0)
         && (t.status == Pending ==> t.amountCents >= 0) {
        PostPreservesSolvent(wallets, txs, t);
      }
      wallets := PostRow(wallets, t);
      txs := txs + [t];
    }

    /**
     * `wallets.reserve`: escrow for a posted task. The wallet is created
     * first; with less than `amountCents` in it the call fails with
     * "Insufficient funds" and writes no row; otherwise one completed
     * `test_reserve` row of `-amountCents` is logged and the balance drops
     * by exactly that amount.
     */
    method Reserve(u: UserId, amountCents: int, metadata: map<string, Json>, now: int)
      returns (out: Outcome<string>)
      requires Valid()
      modifies this
      ensures Valid()
      ensures out.Fail? <==> old(Balance(u)) < amountCents
      ensures out.Fail? ==> out.error == "Insufficient funds" && txs == old(txs) && wallets == WithWallet(old(wallets), u)
      ensures out.Pass? ==> txs == old(txs) + [Tx(u, TestReserve, -amountCents, TxStatus.Completed, metadata, None, now)]
      ensures out.Pass? ==> wallets == old(wallets)[u := old(Balance(u)) - amountCents]
      ensures old(IsSolvent()) ==> IsSolvent()
      ensures tasks == old(tasks) && profiles == old(profiles) && submissions == old(submissions)
    {
      WithWalletThenSet(wallets, u, Balance(u) - amountCents);
      var balance := GetOrCreate(u);
      if balance < amountCents {
        return Fail("Insufficient funds");
      }
      Post(Tx(u, TestReserve, -amountCents, TxStatus.Completed, metadata, None, now));
      out := Pass;
    }

    /**
     * `wallets.credit`: logs one row of `+amountCents`, pending exactly when
     * it is a `test_release` whose release date is after `now`; the balance
     * rises by the amount exactly when the row is completed.
     */
    method Credit(u: UserId, amountCents: int, kind: TxType, metadata: map<string, Json>,
                  availableAt: Option<int>, now: int)
      requires Valid()
      requires kind == TxType.Deposit || kind == TestRelease
      modifies this
      ensures Valid()
      ensures txs == old(txs) + [CreditRow(u, amountCents, kind, metadata, availableAt, now)]
      ensures IsPendingCredit(kind, availableAt, now) ==> wallets == WithWallet(old(wallets), u)
      ensures !IsPendingCredit(kind, availableAt, now) ==> wallets == old(wallets)[u := old(Balance(u)) + amountCents]
      ensures old(IsSolvent()) && amountCents >= 0 ==> IsSolvent()
      ensures tasks == old(tasks) && profiles == old(profiles) && submissions == old(submissions)
    {
      WithWalletThenSet(wallets, u, Balance(u) + amountCents);
      var _ := GetOrCreate(u);
      Post(CreditRow(u, amountCents, kind, metadata, availableAt, now));
    }

    /** `wallets.deposit`: a credit that is always completed at once. */
    method Deposit(u: UserId, amountCents: int, metadata: map<string, Json>, now: int)
      requires Valid()
      modifies this
      ensures Valid()
      ensures txs == old(txs) + [Tx(u, TxType.Deposit, amountCents, TxStatus.Completed, metadata, Some(now), now)]
      ensures wallets == old(wallets)[u := old(Balance(u)) + amountCents]
      ensures old(IsSolvent()) && amountCents >= 0 ==> IsSolvent()
      ensures tasks == old(tasks) && profiles == old(profiles) && submissions == old(submissions)
    {
      Credit(u, amountCents, TxType.Deposit, metadata, None, now);
    }

    /**
     * `wallets.creditTester`: a `test_release` credit held until
     * `availableAt` when that is after `now`, completed at once otherwise.
     */
    method CreditTester(u: UserId, amountCents: int, metadata: map<string, Json>, availableAt: int, now: int)
      requires Valid()
      modifies this
      ensures Valid()
      ensures availableAt > now ==> txs == old(txs) + [Tx(u, TestRelease, amountCents, Pending, metadata, Some(availableAt), now)]
      ensures availableAt > now ==> wallets == WithWallet(old(wallets), u)
      ensures availableAt <= now ==> txs == old(txs) + [Tx(u, TestRelease, amountCents, TxStatus.Completed, metadata, Some(availableAt), now)]
      ensures availableAt <= now ==> wallets == old(wallets)[u := old(Balance(u)) + amountCents]
      ensures old(IsSolvent()) && amountCents >= 0 ==> IsSolvent()
      ensures tasks == old(tasks) && profiles == old(profiles) && submissions == old(submissions)
    {
      Credit(u, amountCents, TestRelease, metadata, Some(availableAt), now);
    }

    /**
     * `wallets.debitForPayout`: like `reserve`, with a `payout` row, empty
     * metadata and the error "Insufficient balance".
     */
    method DebitForPayout(u: UserId, amountCents: int, now: int) returns (out: Outcome<string>)
      requires Valid()
      modifies this
      ensures Valid()
      ensures out.Fail? <==> old(Balance(u)) < amountCents
      ensures out.Fail? ==> out.error == "Insufficient balance" && txs == old(txs) && wallets == WithWallet(old(wallets), u)
      ensures out.Pass? ==> txs == old(txs) + [Tx(u, Payout, -amountCents, TxStatus.Completed, map[], None, now)]
      ensures out.Pass? ==> wallets == old(wallets)[u := old(Balance(u)) - amountCents]
      ensures old(IsSolvent()) ==> IsSolvent()
      ensures tasks == old(tasks) && profiles == old(profiles) && submissions == old(submissions)
    {
      WithWalletThenSet(wallets, u, Balance(u) - amountCents);
      var balance := GetOrCreate(u);
      if balance < amountCents {
        return Fail("Insufficient balance");
      }
      ghost var created := wallets;
      Post(Tx(u, Payout, -amountCents, TxStatus.Completed, map[], None, now));
      assert wallets == created[u := balance - amountCents];
      out := Pass;
    }

    /**
     * `wallets.settle`: every matured hold of `u` is marked completed and
     * their total is added to the balance once; with none matured nothing
     * changes.
     */
    method Settle(u: UserId, now: int)
      requires Valid()
      modifies this
      ensures Valid()
      ensures txs == SettleRows(old(txs), u, now)
      ensures wallets == SettledWallets(old(wallets), old(txs), u, now)
      ensures old(IsSolvent()) ==> IsSolvent()
      ensures tasks == old(tasks) && profiles == old(profiles) && submissions == old(submissions)
    {
      SettlePreservesReconciled(wallets, txs, u, now);
      if IsSolvent() {
        SettlePreservesSolvent(wallets, txs, u, now);
      }
      if !AnyMatured(txs, u, now) {
        SettleNothingMatured(wallets, txs, u, now);
        return;
      }
      var totalCents := Sum(txs, MaturedOf(u, now));
      var balances := if u in wallets then wallets[u := wallets[u] + totalCents] else wallets;
      txs, wallets := SettleRows(txs, u, now), balances;
    }

    /**
     * `wallets.getBalance`: settles, then reports the balance (0 without a
     * wallet) and the total of holds not yet due. The balance is the sum of
     * the user's completed rows, and balance plus pending equals the old
     * balance plus all of the user's holds.
     */
    method GetBalance(u: UserId, now: int) returns (balanceCents: int, pendingCents: int)
      requires Valid()
      modifies this
      ensures Valid()
      ensures txs == SettleRows(old(txs), u, now) && wallets == SettledWallets(old(wallets), old(txs), u, now)
      ensures balanceCents == Sum(txs, CompletedOf(u))
      ensures pendingCents == Sum(txs, HeldOf(u, now))
      ensures balanceCents + pendingCents == old(Balance(u)) + old(Sum(txs, HoldsOf(u)))
      ensures tasks == old(tasks) && profiles == old(profiles) && submissions == old(submissions)
    {
      ghost var txs0 := txs;
      ghost var balance0 := Balance(u);
      Settle(u, now);
      balanceCents := Balance(u);
      pendingCents := Sum(txs, HeldOf(u, now));
      if u !in wallets {
        NoWalletNoRows(wallets, txs, u, CompletedOf(u));
        NoWalletNoRows(old(wallets), txs0, u, MaturedOf(u, now));
      }
      SettleKeepsHeld(txs0, u, now);
      HoldsPartition(txs0, u, now);
    }

    /**
     * `tasks.updateStatusOnSubmit`: the task becomes submitted and assigned
     * to the tester when it exists and is unassigned or already the
     * tester's; otherwise "Task already claimed" and nothing changes.
     */
    method UpdateStatusOnSubmit(taskId: string, testerId: string, now: int) returns (out: Outcome<string>)
      modifies this
      ensures out.Pass? <==> taskId in old(tasks) && ClaimForSubmit(old(tasks)[taskId], testerId, now).Some?
      ensures out.Pass? ==> tasks == old(tasks)[taskId := ClaimForSubmit(old(tasks)[taskId], testerId, now).value]
      ensures out.Fail? ==> out.error == "Task already claimed" && tasks == old(tasks)
      ensures wallets == old(wallets) && txs == old(txs) && profiles == old(profiles) && submissions == old(submissions)
    {
      if taskId !in tasks {
        return Fail("Task already claimed");
      }
      var claimed := ClaimForSubmit(tasks[taskId], testerId, now);
      if claimed.None? {
        return Fail("Task already claimed");
      }
      tasks := tasks[taskId := claimed.value];
      out := Pass;
    }

    /**
     * `tasks.create`: inserts the payload row; an id that is already taken
     * is an insert error and nothing is written.
     */
    method CreateTask(data: NewTask, generatedId: string) returns (out: Result<Task, string>)
      modifies this
      ensures out.Ok? <==> TaskPayload(data, generatedId).id !in old(tasks)
      ensures out.Ok? ==> out.value == TaskPayload(data, generatedId) && tasks == old(tasks)[out.value.id := out.value]
      ensures out.Err? ==> tasks == old(tasks)
      ensures wallets == old(wallets) && txs == old(txs) && profiles == old(profiles) && submissions == old(submissions)
    {
      var row := TaskPayload(data, generatedId);
      if row.id in tasks {
        return Err("duplicate key value violates unique constraint \"tasks_pkey\"");
      }
      tasks := tasks[row.id := row];
      out := Ok(row);
    }

    /**
     * `profiles.incrementCompletedAndPromoteTrust`: one more completed task
     * and the promoted trust level; a missing profile is left missing.
     */
    method IncrementCompletedAndPromoteTrust(testerId: UserId, now: int)
      modifies this
      ensures testerId in old(profiles) ==> profiles == old(profiles)[testerId := Promoted(old(profiles)[testerId], now)]
      ensures testerId !in old(profiles) ==> profiles == old(profiles)
      ensures wallets == old(wallets) && txs == old(txs) && tasks == old(tasks) && submissions == old(submissions)
    {
      if testerId in profiles {
        profiles := profiles[testerId := Promoted(profiles[testerId], now)];
      }
    }

    /** `profiles.updateStripeCustomerId`: records the customer id; a missing profile is left missing. */
    method UpdateStripeCustomerId(u: UserId, customerId: string, now: int)
      modifies this
      ensures u in old(profiles) ==>
                profiles == old(profiles)[u := old(profiles)[u].(stripeCustomerId := Some(customerId), updatedAt := Some(now))]
      ensures u !in old(profiles) ==> profiles == old(profiles)
      ensures wallets == old(wallets) && txs == old(txs) && tasks == old(tasks) && submissions == old(submissions)
    {
      if u in profiles {
        profiles := profiles[u := profiles[u].(stripeCustomerId := Some(customerId), updatedAt := Some(now))];
      }
    }

    /**
     * `profiles.syncFromAuthMetadata`: writes the non-empty name and email
     * columns derived from the metadata, and nothing when there are none.
     */
    method SyncFromAuthMetadata(u: UserId, meta: Option<AuthMetadata>, now: int)
      modifies this
      ensures IsEmptyUpdate(NameUpdateOf(meta)) || u !in old(profiles) ==> profiles == old(profiles)
      ensures !IsEmptyUpdate(NameUpdateOf(meta)) && u in old(profiles) ==>
                profiles == old(profiles)[u := ApplyNameUpdate(old(profiles)[u], NameUpdateOf(meta), now)]
      ensures wallets == old(wallets) && txs == old(txs) && tasks == old(tasks) && submissions == old(submissions)
    {
      var update := NameUpdateOf(meta);
      if IsEmptyUpdate(update) {
        return;
      }
      if u in profiles {
        profiles := profiles[u := ApplyNameUpdate(profiles[u], update, now)];
      }
    }

    /**
     * `submissions.cancelForDebug`: outside development an error; a
     * submission that is missing or not the tester's is an error; otherwise
     * the submission is deleted and, when no submission for `taskId` is
     * left, that task is reopened.
     */
    method CancelForDebug(submissionId: string, testerId: string, taskId: string, development: bool, now: int)
      returns (out: Outcome<string>)
      modifies this
      ensures !development ==> out == Fail("cancelForDebug is only available in development")
      ensures development && (submissionId !in old(submissions) || old(submissions)[submissionId].testerId != testerId)
              ==> out == Fail("Submission not found or not yours")
      ensures out.Fail? ==> submissions == old(submissions) && tasks == old(tasks)
      ensures out.Pass? <==> development && submissionId in old(submissions) && old(submissions)[submissionId].testerId == testerId
      ensures out.Pass? ==> submissions == old(submissions) - {submissionId}
      ensures out.Pass? && (exists k | k in submissions :: submissions[k].taskId == taskId) ==> tasks == old(tasks)
      ensures out.Pass? && (forall k | k in submissions :: submissions[k].taskId != taskId) ==>
                tasks == (if taskId in old(tasks) then old(tasks)[taskId := Reopened(old(tasks)[taskId], now)] else old(tasks))
      ensures wallets == old(wallets) && txs == old(txs) && profiles == old(profiles)
    {
      if !development {
        return Fail("cancelForDebug is only available in development");
      }
      if submissionId !in submissions || submissions[submissionId].testerId != testerId {
        return Fail("Submission not found or not yours");
      }
      submissions := submissions - {submissionId};
      var remaining := exists k | k in submissions :: submissions[k].taskId == taskId;
      if !remaining && taskId in tasks {
        tasks := tasks[taskId := Reopened(tasks[taskId], now)];
      }
      out := Pass;
    }
  }
}

=== FILE: format.dfy ===
/**
 * The display helpers of `src/lib/utils/format.ts`: the "time ago" buckets
 * (minutes, hours and days by floor division) and the label maps for
 * platform, difficulty, task type and task status.
 */
module Format {
  import opened Common
  import opened Strings
  import opened Js

  const MsPerMinute := 60000
  const MsPerHour := 3600000
  const MsPerDay := 86400000
  const MsPerWeek := 604800000

  /** Whole minutes, hours and days elapsed: each bucket is the floor of the one below. */
  function Minutes(diffMs: int): int { diffMs / MsPerMinute }
  function Hours(diffMs: int): int { Minutes(diffMs) / 60 }
  function Days(diffMs: int): int { Hours(diffMs) / 24 }

  /** The chained floors are the floors of the elapsed time by an hour and by a day. */
  lemma BucketsAreFloors(diffMs: int)
    ensures MsPerMinute * Minutes(diffMs) <= diffMs < MsPerMinute * (Minutes(diffMs) + 1)
    ensures Hours(diffMs) == diffMs / MsPerHour
    ensures Days(diffMs) == diffMs / MsPerDay
  {
  }

  /**
   * `formatTimeAgo` for an elapsed time of `diffMs` milliseconds; `dateLabel`
   * is the locale date shown for a week or more. Under a minute (a future
   * date included) is "just now", then whole minutes under an hour, whole
   * hours under a day, whole days under a week, and the date from a week on.
   */
  function FormatTimeAgo(diffMs: int, dateLabel: string): (r: string)
    ensures diffMs < MsPerMinute ==> r == "just now"
    ensures MsPerMinute <= diffMs < MsPerHour ==> r == Decimal(diffMs / MsPerMinute) + "m ago" && 1 <= diffMs / MsPerMinute < 60
    ensures MsPerHour <= diffMs < MsPerDay ==> r == Decimal(diffMs / MsPerHour) + "h ago" && 1 <= diffMs / MsPerHour < 24
    ensures MsPerDay <= diffMs < MsPerWeek ==> r == Decimal(diffMs / MsPerDay) + "d ago" && 1 <= diffMs / MsPerDay < 7
    ensures MsPerWeek <= diffMs ==> r == dateLabel
  {
    BucketsAreFloors(diffMs);
    var minutes := Minutes(diffMs);
    var hours := Hours(diffMs);
    var days := Days(diffMs);
    if minutes < 1 then "just now"
    else if minutes < 60 then Decimal(minutes) + "m ago"
    else if hours < 24 then Decimal(hours) + "h ago"
    else if days < 7 then Decimal(days) + "d ago"
    else dateLabel
  }

  /** `platformDisplayLabel`. */
  function PlatformDisplayLabel(platform: Option<string>): (r: string)
    ensures !Truthy(platform) ==> r == "Web"
    ensures Truthy(platform) && (platform.value == "mobile_ios" || platform.value == "mobile_android") ==> r == "Mobile"
    ensures Truthy(platform) && platform.value == "web" ==> r == "Web"
    ensures Truthy(platform) && platform.value !in {"mobile_ios", "mobile_android", "web"} ==> r == platform.value
  {
    if !Truthy(platform) then "Web"
    else if platform.value == "mobile_ios" || platform.value == "mobile_android" then "Mobile"
    else if platform.value == "web" then "Web"
    else platform.value
  }

  /** A label is its own label: mapping twice is mapping once. */
  lemma PlatformLabelIdempotent(platform: Option<string>)
    ensures PlatformDisplayLabel(Some(PlatformDisplayLabel(platform))) == PlatformDisplayLabel(platform)
  {
  }

  /** `difficultyDisplayLabel`: compares the lower-cased value with "easy" and "hard". */
  function DifficultyDisplayLabel(difficulty: Option<string>): (r: string)
    ensures r in {"Easy", "Medium", "Hard"}
    ensures r == "Easy" <==> Truthy(difficulty) && Lower(difficulty.value) == "easy"
    ensures r == "Hard" <==> Truthy(difficulty) && Lower(difficulty.value) == "hard"
  {
    if !Truthy(difficulty) then "Medium"
    else
      var d := Lower(difficulty.value);
      if d == "easy" then "Easy" else if d == "hard" then "Hard" else "Medium"
  }

  /** The difficulty label ignores letter case. */
  lemma DifficultyIgnoresCase(a: string, b: string)
    requires Lower(a) == Lower(b)
    ensures DifficultyDisplayLabel(Some(a)) == DifficultyDisplayLabel(Some(b))
  {
    if a == "" || b == "" {
      assert |Lower(a)| == |a| && |Lower(b)| == |b|;
    }
  }

  /** Each difficulty label maps back to itself. */
  lemma DifficultyLabelIdempotent(difficulty: Option<string>)
    ensures DifficultyDisplayLabel(Some(DifficultyDisplayLabel(difficulty))) == DifficultyDisplayLabel(difficulty)
  {
    var r := DifficultyDisplayLabel(difficulty);
    var e := "Easy";
    var h := "Hard";
    var m := "Medium";
    assert Lower(e) == "easy" by { assert Lower(e)[0] == LowerChar('E'); }
    assert Lower(h) == "hard" by { assert Lower(h)[0] == LowerChar('H'); }
    assert Lower(m) != "easy" && Lower(m) != "hard" by { assert |Lower(m)| == 6; }
  }

  const TaskTypeLabels: map<string, string> := map[
    "login_flow" := "Login Flow",
    "checkout" := "Checkout",
    "signup" := "Signup",
    "navigation" := "Navigation",
    "onboarding" := "Onboarding"]

  /** `taskTypeDisplayLabel`: the known types by the table, null or empty as "Other", any other string as itself. */
  function TaskTypeDisplayLabel(taskType: Option<string>): (r: string)
    ensures !Truthy(taskType) ==> r == "Other"
    ensures Truthy(taskType) && taskType.value in TaskTypeLabels ==> r == TaskTypeLabels[taskType.value]
    ensures Truthy(taskType) && taskType.value !in TaskTypeLabels ==> r == taskType.value
  {
    if !Truthy(taskType) then "Other"
    else if taskType.value in TaskTypeLabels then TaskTypeLabels[taskType.value]
    else taskType.value
  }

  /** Distinct known types get distinct labels, and no label is itself a known type. */
  lemma TaskTypeLabelsDistinct(a: string, b: string)
    requires a in TaskTypeLabels && b in TaskTypeLabels && a != b
    ensures TaskTypeDisplayLabel(Some(a)) != TaskTypeDisplayLabel(Some(b))
    ensures TaskTypeDisplayLabel(Some(a)) !in TaskTypeLabels
  {
  }

  /** `taskStatusLabel`. */
  function TaskStatusLabel(status: string): (r: string)
    ensures status == "draft" ==> r == "Draft"
    ensures status == "posted" ==> r == "Posted"
    ensures status == "claimed" ==> r == "In Progress"
    ensures status == "submitted" ==> r == "In Review"
    ensures status == "completed" ==> r == "Completed"
    ensures status !in {"draft", "posted", "claimed", "submitted", "completed"} ==> r == status
  {
    match status
    case "draft" => "Draft"
    case "posted" => "Posted"
    case "claimed" => "In Progress"
    case "submitted" => "In Review"
    case "completed" => "Completed"
    case _ => status
  }

  /** The five statuses get five different labels. */
  lemma TaskStatusLabelsDistinct(a: string, b: string)
    requires a in {"draft", "posted", "claimed", "submitted", "completed"}
    requires b in {"draft", "posted", "claimed", "submitted", "completed"}
    requires a != b
    ensures TaskStatusLabel(a) != TaskStatusLabel(b)
  {
  }
}

=== FILE: http.dfy ===
/** The JSON responses the route handlers return (`NextResponse.json(body, { status })`). */
module Http {
  import opened Common
  import opened Js

  datatype Response = Response(status: nat, body: Json)

  /** `{ error: message }`. */
  function ErrorBody(message: string): (j: Json)
    ensures Field(j, "error").Some? && Field(j, "error").value == JStr(message)
  {
    JObj(map["error" := JStr(message)])
  }

  /** `NextResponse.json({ error: message }, { status })`. */
  function Error(status: nat, message: string): (r: Response)
    ensures r.status == status && Field(r.body, "error") == Some(JStr(message))
  {
    Response(status, ErrorBody(message))
  }

  /** `{ key: true }` with status 200. */
  function OkFlag(key: string): (r: Response)
    ensures r.status == 200 && Field(r.body, key) == Some(JBool(true))
  {
    Response(200, JObj(map[key := JBool(true)]))
  }
}

=== FILE: js.dfy ===
/**
 * The JavaScript value semantics the handlers depend on: truthiness, the
 * `||` and `??` defaults, `Number(...)` and `String(...)` conversions, and
 * the JSON values that `JSON.parse` produces.
 */
module Js {
  import opened Common
  import opened Strings

  /** A JavaScript number as this model sees it: an integer or NaN. */
  datatype JsNumber = NaN | Num(n: int)

  /** `0` and `NaN` are the falsy numbers. */
  predicate NumTruthy(x: JsNumber) {
    x.Num? && x.n != 0
  }

  /** `x || d` on a number. */
  function NumOr(x: JsNumber, d: int): (r: int)
    ensures NumTruthy(x) ==> r == x.n
    ensures !NumTruthy(x) ==> r == d
  {
    if NumTruthy(x) then x.n else d
  }

  /** `null`, `undefined` and `""` are the falsy strings. */
  predicate Truthy(s: Option<string>) {
    s.Some? && s.value != ""
  }

  /** `s || d` on an optional string. */
  function StrOr(s: Option<string>, d: string): (r: string)
    ensures Truthy(s) ==> r == s.value
    ensures !Truthy(s) ==> r == d
  {
    if Truthy(s) then s.value else d
  }

  predicate AllDigits(s: string) {
    forall i | 0 <= i < |s| :: IsDigit(s[i])
  }

  /**
   * `Number(s)` on a string: surrounding whitespace is ignored, the empty
   * string is 0, an optionally signed run of decimal digits is its value,
   * and anything else is NaN.
   */
  function StringToNumber(s: string): (r: JsNumber)
    ensures AllSpace(s) ==> r == Num(0)
    ensures Trim(s) != "" && AllDigits(Trim(s)) ==> r == Num(DigitsValue(Trim(s)))
    ensures r.Num? ==> forall i | 0 <= i < |Trim(s)| :: IsDigit(Trim(s)[i]) || (i == 0 && Trim(s)[i] in "+-")
    ensures r.Num? && r.n < 0 ==> Trim(s)[0] == '-'
  {
    var t := Trim(s);
    if t == "" then Num(0)
    else if t[0] == '-' && |t| > 1 && AllDigits(t[1..]) then Num(-(DigitsValue(t[1..]) as int))
    else if t[0] == '+' && |t| > 1 && AllDigits(t[1..]) then Num(DigitsValue(t[1..]))
    else if AllDigits(t) then Num(DigitsValue(t))
    else NaN
  }

  /** `Number(String(n))` is `n` for every natural number. */
  lemma NumberOfDecimal(n: nat)
    ensures StringToNumber(Decimal(n)) == Num(n)
  {
    var d := Decimal(n);
    assert !IsSpace(d[0]) && !IsSpace(d[|d| - 1]);
    assert Trim(d) == d;
    DecimalRoundTrip(n);
  }

  /** The values `JSON.parse` produces (numbers restricted to integers). */
  datatype Json =
    | JNull
    | JBool(b: bool)
    | JNum(n: int)
    | JStr(s: string)
    | JArr(items: seq<Json>)
    | JObj(fields: map<string, Json>)

  /** `o.key` on a parsed value: `None` is `undefined`. */
  function Field(v: Json, key: string): (r: Option<Json>)
    ensures r.Some? <==> v.JObj? && key in v.fields
  {
    if v.JObj? && key in v.fields then Some(v.fields[key]) else None
  }

  /** `String(n)` for an integer. */
  function IntToString(n: int): (r: string)
    ensures n >= 0 ==> r == Decimal(n)
    ensures n < 0 ==> r == "-" + Decimal(-n)
  {
    if n >= 0 then Decimal(n) else "-" + Decimal(-n)
  }

  /**
   * `String(v)`: strings stay as they are, arrays are joined with ","
   * (a null element becoming ""), and any other object is "[object Object]".
   */
  function ToJsString(v: Json): (r: string)
    ensures v.JStr? ==> r == v.s
    decreases v
  {
    match v
    case JNull => "null"
    case JBool(b) => if b then "true" else "false"
    case JNum(n) => IntToString(n)
    case JStr(s) => s
    case JArr(items) =>
      Join(seq(|items|, i requires 0 <= i < |items| =>
             if items[i].JNull? then "" else ToJsString(items[i])), ",")
    case JObj(_) => "[object Object]"
  }

  /** `Number(v)` on a parsed value; `None` (undefined) is NaN. */
  function ToNumber(v: Option<Json>): (r: JsNumber)
    ensures v == Some(JNull) ==> r == Num(0)
    ensures v.Some? && v.value.JNum? ==> r == Num(v.value.n)
    ensures v.Some? && v.value.JBool? ==> r == Num(if v.value.b then 1 else 0)
    ensures v.Some? && v.value.JStr? ==> r == StringToNumber(v.value.s)
    ensures v.None? || (v.Some? && v.value.JObj?) ==> r == NaN
  {
    match v
    case None => NaN
    case Some(JNull) => Num(0)
    case Some(JBool(b)) => Num(if b then 1 else 0)
    case Some(JNum(n)) => Num(n)
    case Some(JStr(s)) => StringToNumber(s)
    case Some(JArr(_)) => StringToNumber(ToJsString(v.value))
    case Some(JObj(_)) => NaN
  }

  /** JavaScript truthiness of a parsed value. */
  predicate JsonTruthy(v: Json) {
    match v
    case JNull => false
    case JBool(b) => b
    case JNum(n) => n != 0
    case JStr(s) => s != ""
    case JArr(_) => true
    case JObj(_) => true
  }

  /** `v || d` where `v` may be `undefined`. */
  function JsonOr(v: Option<Json>, d: Json): (r: Json)
    ensures v.Some? && JsonTruthy(v.value) ==> r == v.value
    ensures !(v.Some? && JsonTruthy(v.value)) ==> r == d
  {
    if v.Some? && JsonTruthy(v.value) then v.value else d
  }

  /** `v ?? d` where `v` may be `undefined`: only `null` and `undefined` give way. */
  function Nullish(v: Option<Json>, d: Json): (r: Json)
    ensures v.Some? && !v.value.JNull? ==> r == v.value
    ensures v.None? || v == Some(JNull) ==> r == d
  {
    if v.Some? && !v.value.JNull? then v.value else d
  }

  /** `items.join(sep)` on parsed values: `null` elements become "". */
  function JoinValues(items: seq<Json>, sep: string): (r: string)
    ensures |items| == 1 && items[0].JStr? ==> r == items[0].s
  {
    Join(seq(|items|, i requires 0 <= i < |items| => if items[i].JNull? then "" else ToJsString(items[i])), sep)
  }
}

=== FILE: ledger.dfy ===
/**
 * The wallet ledger of `db.wallets` as values: the rows of
 * `wallet_transactions`, the sums the store computes over them
 * (`settle`'s matured total, `getBalance`'s pending total, and the
 * completed total every balance must equal), the settlement of matured
 * holds, and the reconciliation invariant that ties `wallets.balance_cents`
 * to the log.
 */
module Ledger {
  import opened Common
  import opened Js

  type UserId = string

  datatype TxType = Deposit | TestReserve | TestRelease | Payout

  datatype TxStatus = Pending | Completed

  /** One row of `wallet_transactions`; timestamps are integers. */
  datatype Tx = Tx(
    userId: UserId,
    kind: TxType,
    amountCents: int,
    status: TxStatus,
    metadata: map<string, Json>,
    availableAt: Option<int>,
    createdAt: int)

  /** A pending `test_release` row of `u` with a release date: a hold. */
  predicate IsHold(t: Tx, u: UserId) {
    t.userId == u && t.kind == TestRelease && t.status == Pending && t.availableAt.Some?
  }

  /** The row sets the store sums over. */
  datatype Selector =
    | CompletedOf(user: UserId)              // rows that count towards the balance
    | MaturedOf(user: UserId, now: int)      // holds `settle` folds in: available_at <= now
    | HeldOf(user: UserId, now: int)         // holds `getBalance` reports: available_at > now
    | HoldsOf(user: UserId)                  // every hold of the user

  predicate Selects(sel: Selector, t: Tx) {
    match sel
    case CompletedOf(u) => t.userId == u && t.status == Completed
    case MaturedOf(u, now) => IsHold(t, u) && t.availableAt.value <= now
    case HeldOf(u, now) => IsHold(t, u) && t.availableAt.value > now
    case HoldsOf(u) => IsHold(t, u)
  }

  /** The `reduce((s, t) => s + t.amount_cents, 0)` over the selected rows. */
  function Sum(s: seq<Tx>, sel: Selector): int {
    if s == [] then 0
    else Sum(s[..|s| - 1], sel) + (if Selects(sel, s[|s| - 1]) then s[|s| - 1].amountCents else 0)
  }

  /** Appending a row adds its amount exactly when the selector picks it. */
  lemma SumAppend(s: seq<Tx>, t: Tx, sel: Selector)
    ensures Sum(s + [t], sel) == Sum(s, sel) + (if Selects(sel, t) then t.amountCents else 0)
  {
    assert (s + [t])[..|s|] == s;
  }

  /** Rows the selector never picks contribute nothing. */
  lemma {:induction false} SumOfNone(s: seq<Tx>, sel: Selector)
    requires forall i | 0 <= i < |s| :: !Selects(sel, s[i])
    ensures Sum(s, sel) == 0
  {
    if s != [] {
      SumOfNone(s[..|s| - 1], sel);
    }
  }

  /** A sum of non-negative amounts is non-negative. */
  lemma {:induction false} SumNonNegative(s: seq<Tx>, sel: Selector)
    requires forall i | 0 <= i < |s| && Selects(sel, s[i]) :: s[i].amountCents >= 0
    ensures Sum(s, sel) >= 0
  {
    if s != [] {
      SumNonNegative(s[..|s| - 1], sel);
    }
  }

  /** Every hold is either matured or still held at `now`, so the two sums split the holds. */
  lemma {:induction false} HoldsPartition(s: seq<Tx>, u: UserId, now: int)
    ensures Sum(s, HoldsOf(u)) == Sum(s, MaturedOf(u, now)) + Sum(s, HeldOf(u, now))
  {
    if s != [] {
      HoldsPartition(s[..|s| - 1], u, now);
    }
  }

  /** What `settle` does to one row: a matured hold of `u` becomes completed. */
  function Mature(t: Tx, u: UserId, now: int): Tx {
    if Selects(MaturedOf(u, now), t) then t.(status := Completed) else t
  }

  /** `settle`'s update of `wallet_transactions`: every matured hold of `u`, and nothing else, completed. */
  function SettleRows(s: seq<Tx>, u: UserId, now: int): (r: seq<Tx>)
    ensures |r| == |s|
    ensures forall i | 0 <= i < |s| :: r[i] == Mature(s[i], u, now)
  {
    if s == [] then [] else SettleRows(s[..|s| - 1], u, now) + [Mature(s[|s| - 1], u, now)]
  }

  /** Settling completes exactly the matured holds: the completed total grows by their sum. */
  lemma {:induction false} SettleAddsMatured(s: seq<Tx>, u: UserId, now: int)
    ensures Sum(SettleRows(s, u, now), CompletedOf(u)) == Sum(s, CompletedOf(u)) + Sum(s, MaturedOf(u, now))
  {
    if s != [] {
      var init := s[..|s| - 1];
      SettleAddsMatured(init, u, now);
      SumAppend(SettleRows(init, u, now), Mature(s[|s| - 1], u, now), CompletedOf(u));
    }
  }

  /** Settling one user's holds leaves every other user's completed total as it was. */
  lemma {:induction false} SettleKeepsOthers(s: seq<Tx>, u: UserId, v: UserId, now: int)
    requires u != v
    ensures Sum(SettleRows(s, u, now), CompletedOf(v)) == Sum(s, CompletedOf(v))
  {
    if s != [] {
      var init := s[..|s| - 1];
      SettleKeepsOthers(init, u, v, now);
      SumAppend(SettleRows(init, u, now), Mature(s[|s| - 1], u, now), CompletedOf(v));
    }
  }

  /** Holds that are not yet due stay pending, with the same total. */
  lemma {:induction false} SettleKeepsHeld(s: seq<Tx>, u: UserId, now: int)
    ensures Sum(SettleRows(s, u, now), HeldOf(u, now)) == Sum(s, HeldOf(u, now))
  {
    if s != [] {
      var init := s[..|s| - 1];
      SettleKeepsHeld(init, u, now);
      SumAppend(SettleRows(init, u, now), Mature(s[|s| - 1], u, now), HeldOf(u, now));
    }
  }

  /** After settling, no matured hold remains. */
  lemma SettleLeavesNoMatured(s: seq<Tx>, u: UserId, now: int)
    ensures forall i | 0 <= i < |s| :: !Selects(MaturedOf(u, now), SettleRows(s, u, now)[i])
    ensures Sum(SettleRows(s, u, now), MaturedOf(u, now)) == 0
  {
    SumOfNone(SettleRows(s, u, now), MaturedOf(u, now));
  }

  /** When nothing has matured, settling changes no row. */
  lemma SettleWithoutMatured(s: seq<Tx>, u: UserId, now: int)
    requires forall i | 0 <= i < |s| :: !Selects(MaturedOf(u, now), s[i])
    ensures SettleRows(s, u, now) == s
  {
  }

  /** Settling twice at the same instant is settling once. */
  lemma SettleIdempotent(s: seq<Tx>, u: UserId, now: int)
    ensures SettleRows(SettleRows(s, u, now), u, now) == SettleRows(s, u, now)
  {
    SettleLeavesNoMatured(s, u, now);
    SettleWithoutMatured(SettleRows(s, u, now), u, now);
  }

  /**
   * The reconciliation invariant: every row belongs to a wallet, and every
   * wallet's balance is the sum of its completed rows.
   */
  ghost predicate Reconciled(wallets: map<UserId, int>, txs: seq<Tx>) {
    && (forall i | 0 <= i < |txs| :: txs[i].userId in wallets)
    && (forall u | u in wallets :: wallets[u] == Sum(txs, CompletedOf(u)))
  }

  /** No balance is negative and no pending row carries a negative amount. */
  ghost predicate Solvent(wallets: map<UserId, int>, txs: seq<Tx>) {
    && (forall u | u in wallets :: wallets[u] >= 0)
    && (forall i | 0 <= i < |txs| && txs[i].status == Pending :: txs[i].amountCents >= 0)
  }

  /** The wallet a row touches, moved by the row's amount when the row is completed. */
  function PostRow(wallets: map<UserId, int>, t: Tx): (r: map<UserId, int>)
    requires t.userId in wallets
    ensures r.Keys == wallets.Keys
    ensures r == wallets[t.userId := r[t.userId]]
    ensures t.status != Completed ==> r == wallets
    ensures r[t.userId] - wallets[t.userId] == if t.status == Completed then t.amountCents else 0
  {
    if t.status == Completed then wallets[t.userId := wallets[t.userId] + t.amountCents] else wallets
  }

  /** Appending a row and posting it to its wallet keeps the ledger reconciled. */
  lemma PostPreservesReconciled(wallets: map<UserId, int>, txs: seq<Tx>, t: Tx)
    requires Reconciled(wallets, txs) && t.userId in wallets
    ensures Reconciled(PostRow(wallets, t), txs + [t])
  {
    var w' := PostRow(wallets, t);
    forall u | u in w' ensures w'[u] == Sum(txs + [t], CompletedOf(u)) {
      SumAppend(txs, t, CompletedOf(u));
    }
  }

  /** A user without a wallet owns no row, so every sum over their rows is zero. */
  lemma NoWalletNoRows(wallets: map<UserId, int>, txs: seq<Tx>, u: UserId, sel: Selector)
    requires Reconciled(wallets, txs) && u !in wallets
    requires sel.user == u
    ensures forall i | 0 <= i < |txs| :: !Selects(sel, txs[i])
    ensures Sum(txs, sel) == 0
  {
    SumOfNone(txs, sel);
  }

  /** `getOrCreate`'s insert: a new wallet starts at zero, which its (absent) rows sum to. */
  lemma CreatePreservesReconciled(wallets: map<UserId, int>, txs: seq<Tx>, u: UserId)
    requires Reconciled(wallets, txs) && u !in wallets
    ensures Reconciled(wallets[u := 0], txs)
  {
    NoWalletNoRows(wallets, txs, u, CompletedOf(u));
  }

  /** The wallets after `settle`: the user's balance grows by the matured total. */
  function SettledWallets(wallets: map<UserId, int>, txs: seq<Tx>, u: UserId, now: int): (r: map<UserId, int>)
    ensures u !in wallets ==> r == wallets
    ensures u in wallets ==> u in r && r == wallets[u := r[u]] && r[u] - wallets[u] == Sum(txs, MaturedOf(u, now))
  {
    if u in wallets then wallets[u := wallets[u] + Sum(txs, MaturedOf(u, now))] else wallets
  }

  /** `settle` keeps the ledger reconciled. */
  lemma SettlePreservesReconciled(wallets: map<UserId, int>, txs: seq<Tx>, u: UserId, now: int)
    requires Reconciled(wallets, txs)
    ensures Reconciled(SettledWallets(wallets, txs, u, now), SettleRows(txs, u, now))
  {
    var w' := SettledWallets(wallets, txs, u, now);
    var s' := SettleRows(txs, u, now);
    forall v | v in w' ensures w'[v] == Sum(s', CompletedOf(v)) {
      if v == u { SettleAddsMatured(txs, u, now); } else { SettleKeepsOthers(txs, u, v, now); }
    }
  }

  /** `settle` keeps the ledger solvent: it only adds non-negative pending amounts. */
  lemma SettlePreservesSolvent(wallets: map<UserId, int>, txs: seq<Tx>, u: UserId, now: int)
    requires Solvent(wallets, txs)
    ensures Solvent(SettledWallets(wallets, txs, u, now), SettleRows(txs, u, now))
  {
    SumNonNegative(txs, MaturedOf(u, now));
  }

  /** `getOrCreate`'s effect on the wallets: a missing wallet is inserted at zero. */
  function WithWallet(wallets: map<UserId, int>, u: UserId): (r: map<UserId, int>)
    ensures u in r && r[u] == (if u in wallets then wallets[u] else 0)
    ensures forall v | v != u :: (v in r <==> v in wallets) && (v in wallets ==> r[v] == wallets[v])
  {
    if u in wallets then wallets else wallets[u := 0]
  }

  /** `getOrCreate` keeps the ledger reconciled. */
  lemma WithWalletPreservesReconciled(wallets: map<UserId, int>, txs: seq<Tx>, u: UserId)
    requires Reconciled(wallets, txs)
    ensures Reconciled(WithWallet(wallets, u), txs)
  {
    if u !in wallets {
      CreatePreservesReconciled(wallets, txs, u);
    }
  }

  /** `credit` leaves the row pending exactly for a `test_release` whose release date is still ahead. */
  predicate IsPendingCredit(kind: TxType, availableAt: Option<int>, now: int) {
    kind == TestRelease && availableAt.Some? && availableAt.value > now
  }

  /** The row `credit` inserts: `available_at` defaults to now. */
  function CreditRow(u: UserId, amountCents: int, kind: TxType, metadata: map<string, Json>,
                     availableAt: Option<int>, now: int): (t: Tx)
    ensures t.userId == u && t.kind == kind && t.amountCents == amountCents
    ensures t.status == Pending <==> IsPendingCredit(kind, availableAt, now)
    ensures t.availableAt == Some(availableAt.OrElse(now))
  {
    Tx(u, kind, amountCents, if IsPendingCredit(kind, availableAt, now) then Pending else Completed,
       metadata, Some(availableAt.OrElse(now)), now)
  }

  /** A credit row still pending is a hold that has not matured, so `settle` at the same instant leaves it. */
  lemma PendingCreditIsHeld(u: UserId, amountCents: int, kind: TxType, metadata: map<string, Json>,
                            availableAt: Option<int>, now: int)
    requires IsPendingCredit(kind, availableAt, now)
    ensures Selects(HeldOf(u, now), CreditRow(u, amountCents, kind, metadata, availableAt, now))
    ensures !Selects(MaturedOf(u, now), CreditRow(u, amountCents, kind, metadata, availableAt, now))
  {
  }

  /** A hold credited at `now` matures at its release date and not before. */
  lemma HoldMaturesAtReleaseDate(u: UserId, amountCents: int, metadata: map<string, Json>, at: int, now: int, later: int)
    requires IsPendingCredit(TestRelease, Some(at), now)
    ensures Selects(MaturedOf(u, later), CreditRow(u, amountCents, TestRelease, metadata, Some(at), now)) <==> at <= later
  {
  }

  /** The user's rows in log order (the order they were inserted, hence of `created_at`). */
  function RowsOf(txs: seq<Tx>, u: UserId): (r: seq<Tx>)
    ensures |r| <= |txs|
    ensures forall k | 0 <= k < |r| :: r[k].userId == u
    ensures forall i | 0 <= i < |txs| && txs[i].userId == u :: txs[i] in r
    ensures forall t | t in r :: t in txs
  {
    if txs == [] then []
    else
      var init := RowsOf(txs[..|txs| - 1], u);
      assert forall i | 0 <= i < |txs| - 1 :: txs[i] == txs[..|txs| - 1][i];
      if txs[|txs| - 1].userId == u then init + [txs[|txs| - 1]] else init
  }

  /** The user's rows newest first (`order('created_at', { ascending: false })`). */
  function History(txs: seq<Tx>, u: UserId): (r: seq<Tx>)
    ensures |r| == |RowsOf(txs, u)|
    ensures forall k | 0 <= k < |r| :: r[k] == RowsOf(txs, u)[|r| - 1 - k]
  {
    var rows := RowsOf(txs, u);
    seq(|rows|, k requires 0 <= k < |rows| => rows[|rows| - 1 - k])
  }

  /**
   * `findByUser(u, limit, offset)`: positions `offset .. offset + limit - 1`
   * of the user's history; a negative window is an error of the query.
   */
  function FindByUser(txs: seq<Tx>, u: UserId, limit: int, offset: int): (r: Result<seq<Tx>, string>)
    ensures r.Ok? <==> limit >= 0 && offset >= 0
    ensures r.Ok? ==> |r.value| <= limit
    ensures r.Ok? ==> forall k | 0 <= k < |r.value| ::
              offset + k < |History(txs, u)| && r.value[k] == History(txs, u)[offset + k]
    ensures r.Ok? && offset + limit <= |History(txs, u)| ==> |r.value| == limit
    ensures r.Ok? ==> |r.value| == if offset >= |History(txs, u)| then 0
                                   else if limit < |History(txs, u)| - offset then limit
                                   else |History(txs, u)| - offset
    ensures r.Ok? ==> forall k | 0 <= k < |r.value| :: r.value[k].userId == u
  {
    if limit < 0 || offset < 0 then Err("invalid range")
    else
      var h := History(txs, u);
      if offset >= |h| then Ok([])
      else if offset + limit <= |h| then Ok(h[offset..offset + limit])
      else Ok(h[offset..])
  }

  /** Setting the user's balance after `getOrCreate` is the same as setting it directly. */
  lemma WithWalletThenSet(wallets: map<UserId, int>, u: UserId, x: int)
    ensures WithWallet(wallets, u)[u := x] == wallets[u := x]
  {
  }

  /** `getOrCreate` keeps the ledger solvent: a new wallet holds zero. */
  lemma WithWalletPreservesSolvent(wallets: map<UserId, int>, txs: seq<Tx>, u: UserId)
    requires Solvent(wallets, txs)
    ensures Solvent(WithWallet(wallets, u), txs)
  {
  }

  /**
   * Posting a row keeps the ledger solvent when a completed row leaves its
   * balance non-negative and a pending row is non-negative.
   */
  lemma PostPreservesSolvent(wallets: map<UserId, int>, txs: seq<Tx>, t: Tx)
    requires Solvent(wallets, txs) && t.userId in wallets
    requires t.status == Completed ==> wallets[t.userId] + t.amountCents >= 0
    requires t.status == Pending ==> t.amountCents >= 0
    ensures Solvent(PostRow(wallets, t), txs + [t])
  {
    var s := txs + [t];
    assert forall i | 0 <= i < |txs| :: s[i] == txs[i];
  }

  /** Some hold of `u` has matured by `now` (the `pending?.length` test of `settle`). */
  predicate AnyMatured(txs: seq<Tx>, u: UserId, now: int) {
    exists i | 0 <= i < |txs| :: Selects(MaturedOf(u, now), txs[i])
  }

  /** With no matured hold, `settle` returns early and changes neither rows nor wallets. */
  lemma SettleNothingMatured(wallets: map<UserId, int>, txs: seq<Tx>, u: UserId, now: int)
    requires !AnyMatured(txs, u, now)
    ensures SettleRows(txs, u, now) == txs
    ensures SettledWallets(wallets, txs, u, now) == wallets
  {
    SettleWithoutMatured(txs, u, now);
    SumOfNone(txs, MaturedOf(u, now));
  }
}

=== FILE: new_task_page.dfy ===
/**
 * The task-posting form of `src/app/dev/tasks/new/page.tsx`: the budget
 * tiers, the fee shown, the editing of the step and requirement lists, the
 * task-type picker with its custom keywords, the tester count, and the
 * checks `handleSubmit` makes before it hands the form to `createTask`.
 */
module NewTaskPage {
  import opened Common
  import opened Strings
  import opened Js
  import opened Records
  import opened TaskActions

  /** The selectable task types, in display order: value and label. */
  const PageTaskTypes: seq<(string, string)> := [
    ("login_flow", "Login Flow"),
    ("checkout", "Checkout"),
    ("signup", "Signup"),
    ("navigation", "Navigation"),
    ("onboarding", "Onboarding")]

  const PlatformFeePercent: int := 20

  const DefaultRequirements: seq<string> := [
    "Record your screen with audio",
    "Voice narration required",
    "Show your actual screen (no fake apps)"]

  const NoStepsMessage: string := "Add at least one step in \"What to Test\""
  const NoTypeMessage: string := "Select at least one task type"
  const NoAppUrlMessage: string := "Target App URL is required"

  // ---------------------------------------------------------------- budget

  /** A budget band in whole dollars. */
  datatype BudgetRange = BudgetRange(min: int, max: int, recommended: int)

  /** `getRecommendedBudget`: the band for an estimated duration in minutes. */
  function RecommendedBudget(duration: int): (b: BudgetRange)
    ensures 15 <= b.min <= b.recommended <= b.max <= 50
    ensures duration <= 5 ==> b == BudgetRange(15, 25, 20)
    ensures 5 < duration <= 10 ==> b == BudgetRange(20, 35, 25)
    ensures 10 < duration <= 15 ==> b == BudgetRange(25, 45, 35)
    ensures 15 < duration ==> b == BudgetRange(30, 50, 40)
  {
    if duration <= 5 then BudgetRange(15, 25, 20)
    else if duration <= 10 then BudgetRange(20, 35, 25)
    else if duration <= 15 then BudgetRange(25, 45, 35)
    else BudgetRange(30, 50, 40)
  }

  /** A longer test never lowers any bound of the band. */
  lemma RecommendedBudgetMonotone(d1: int, d2: int)
    requires d1 <= d2
    ensures RecommendedBudget(d1).min <= RecommendedBudget(d2).min
    ensures RecommendedBudget(d1).max <= RecommendedBudget(d2).max
    ensures RecommendedBudget(d1).recommended <= RecommendedBudget(d2).recommended
  {
  }

  /** The platform fee shown, in cents: 20% of budget times testers (whole dollars). */
  function FeeCents(budget: int, testers: int): (r: int)
    ensures r * 100 == budget * testers * 100 * PlatformFeePercent
  {
    budget * testers * PlatformFeePercent
  }

  /** The total shown, in cents: budget times testers plus the fee. */
  function TotalCostCents(budget: int, testers: int): (r: int)
    ensures r == budget * testers * 100 + FeeCents(budget, testers)
    ensures r * 100 == budget * testers * 100 * (100 + PlatformFeePercent)
  {
    budget * testers * 120
  }

  // ---------------------------------------------------------------- tester count

  /** `Math.max(1, Math.min(100, Number(v) || 1))`. */
  function ClampTesters(input: JsNumber): (r: int)
    ensures 1 <= r <= 100
    ensures input.Num? && 1 <= input.n <= 100 ==> r == input.n
    ensures !NumTruthy(input) ==> r == 1
    ensures input.Num? && input.n > 100 ==> r == 100
    ensures input.Num? && input.n < 1 ==> r == 1
  {
    var n := NumOr(input, 1);
    if n > 100 then 100 else if n < 1 then 1 else n
  }

  /** Clamping a clamped count changes nothing. */
  lemma ClampTestersIdempotent(input: JsNumber)
    ensures ClampTesters(Num(ClampTesters(input))) == ClampTesters(input)
  {
  }

  // ---------------------------------------------------------------- list editing

  /** The three edits a `DynamicList` offers. */
  datatype ListEdit = UpdateAt(i: nat, v: string) | AddItem | RemoveAt(j: nat)

  /** `update(i, v)`: a copy with index `i` replaced; `i` is always a shown row. */
  function UpdateItem(items: seq<string>, i: nat, v: string): (r: seq<string>)
    requires i < |items|
    ensures |r| == |items| && r[i] == v
    ensures forall k | 0 <= k < |items| && k != i :: r[k] == items[k]
  {
    items[i := v]
  }

  /** `add()`: one empty row at the end. */
  function AddItem(items: seq<string>): (r: seq<string>)
    ensures |r| == |items| + 1 && r[|items|] == "" && r[..|items|] == items
  {
    items + [""]
  }

  /** `remove(i)`: every row but index `i`, in order; an index past the end removes nothing. */
  function RemoveItem(items: seq<string>, i: nat): (r: seq<string>)
    ensures i < |items| ==> |r| == |items| - 1
    ensures i >= |items| ==> r == items
    ensures forall k | 0 <= k < i && k < |r| :: r[k] == items[k]
    ensures forall k | i <= k < |r| :: r[k] == items[k + 1]
  {
    if i < |items| then items[..i] + items[i + 1..] else items
  }

  /** Removing the row just added gives the list back. */
  lemma RemoveUndoesAdd(items: seq<string>)
    ensures RemoveItem(AddItem(items), |items|) == items
  {
  }

  /** Editing a row and then removing it is removing it. */
  lemma RemoveForgetsUpdate(items: seq<string>, i: nat, v: string)
    requires i < |items|
    ensures RemoveItem(UpdateItem(items, i, v), i) == RemoveItem(items, i)
  {
  }

  predicate EditFits(items: seq<string>, e: ListEdit) {
    e.UpdateAt? ==> e.i < |items|
  }

  function ApplyEdit(items: seq<string>, e: ListEdit): (r: seq<string>)
    requires EditFits(items, e)
  {
    match e
    case UpdateAt(i, v) => UpdateItem(items, i, v)
    case AddItem => AddItem(items)
    case RemoveAt(j) => RemoveItem(items, j)
  }

  // ---------------------------------------------------------------- task types

  predicate NoDuplicates(xs: seq<string>) {
    forall i, j | 0 <= i < j < |xs| :: xs[i] != xs[j]
  }

  /** Appending a value not yet present keeps a list free of duplicates. */
  lemma AppendFresh(xs: seq<string>, x: string)
    requires NoDuplicates(xs) && x !in xs
    ensures NoDuplicates(xs + [x])
  {
    forall i, j | 0 <= i < j < |xs + [x]|
      ensures (xs + [x])[i] != (xs + [x])[j]
    {
      if j == |xs| {
        assert (xs + [x])[i] == xs[i];
      }
    }
  }

  /** Putting a value not yet present in front keeps a list free of duplicates. */
  lemma PrependFresh(x: string, xs: seq<string>)
    requires NoDuplicates(xs) && x !in xs
    ensures NoDuplicates([x] + xs)
  {
    forall i, j | 0 <= i < j < |[x] + xs|
      ensures ([x] + xs)[i] != ([x] + xs)[j]
    {
      assert ([x] + xs)[j] == xs[j - 1];
      if i > 0 {
        assert ([x] + xs)[i] == xs[i - 1];
      }
    }
  }

  /** `prev.filter((v) => v !== value)`. */
  function RemoveAll(xs: seq<string>, value: string): (r: seq<string>)
    ensures forall x :: x in r <==> x in xs && x != value
    ensures |r| <= |xs|
    ensures value in xs ==> |r| < |xs|
    ensures value !in xs ==> r == xs
    ensures NoDuplicates(xs) ==> NoDuplicates(r)
  {
    if xs == [] then []
    else if xs[0] == value then RemoveAll(xs[1..], value)
    else
      var rest := RemoveAll(xs[1..], value);
      assert xs == [xs[0]] + xs[1..];
      assert NoDuplicates(xs) ==> NoDuplicates([xs[0]] + rest) by {
        if NoDuplicates(xs) {
          forall m | 0 <= m < |xs[1..]|
            ensures xs[1..][m] != xs[0]
          {
            assert xs[1..][m] == xs[m + 1];
          }
          assert xs[0] !in rest;
          assert NoDuplicates(xs[1..]);
          PrependFresh(xs[0], rest);
        }
      }
      [xs[0]] + rest
  }

  /** `taskTypes.filter(Boolean)`: the non-empty entries, in order. */
  function NonBlank(xs: seq<string>): (r: seq<string>)
    ensures forall x :: x in r <==> x in xs && x != ""
    ensures (forall k | 0 <= k < |xs| :: xs[k] != "") ==> r == xs
  {
    RemoveAll(xs, "")
  }

  /** `s.trim().toLowerCase().replace(/\s+/g, '_')`: the custom keyword as stored. */
  function NormalizeKeyword(s: string): (r: string)
    ensures forall k | 0 <= k < |r| :: !IsSpace(r[k]) && !('A' <= r[k] <= 'Z')
    ensures r == "" <==> AllSpace(s)
  {
    UnderscoreSpaces(Lower(Trim(s)))
  }

  /** Every run of whitespace becomes one '_'. */
  function UnderscoreSpaces(s: string): (r: string)
    ensures |r| <= |s|
    ensures r == "" <==> s == ""
    ensures forall k | 0 <= k < |r| :: !IsSpace(r[k])
    ensures forall k | 0 <= k < |r| :: r[k] == '_' || r[k] in s
    ensures (forall k | 0 <= k < |s| :: !IsSpace(s[k])) ==> r == s
    decreases |s|
  {
    if s == [] then []
    else if IsSpace(s[0]) then
      var rest := TrimStart(s[1..]);
      TrimStartShape(s[1..]);
      var r := "_" + UnderscoreSpaces(rest);
      assert forall x | x in rest :: x in s by {
        assert rest == s[1..][|s[1..]| - |rest|..];
      }
      r
    else
      var r := [s[0]] + UnderscoreSpaces(s[1..]);
      assert forall x | x in s[1..] :: x in s;
      r
  }

  /** A stored keyword is already in normal form: normalising it again changes nothing. */
  lemma NormalizeKeywordIdempotent(s: string)
    ensures NormalizeKeyword(NormalizeKeyword(s)) == NormalizeKeyword(s)
  {
    var n := NormalizeKeyword(s);
    assert Trim(n) == n;
    LowerOfLower(n);
    assert UnderscoreSpaces(n) == n;
  }

  // ---------------------------------------------------------------- submission

  /** `steps.map((s) => s.trim()).filter(Boolean)`: trimmed, blanks dropped. */
  function TrimmedNonBlank(xs: seq<string>): (r: seq<string>)
    ensures |r| <= |xs|
    ensures forall k | 0 <= k < |r| :: r[k] != "" && Trim(r[k]) == r[k]
  {
    if xs == [] then []
    else
      var t := Trim(xs[0]);
      var rest := TrimmedNonBlank(xs[1..]);
      if t != "" then
        assert Trim(t) == t;
        [t] + rest
      else rest
  }

  /** Nothing survives exactly when every entry is blank. */
  lemma {:induction false} TrimmedNonBlankEmpty(xs: seq<string>)
    ensures |TrimmedNonBlank(xs)| == 0 <==> forall k | 0 <= k < |xs| :: AllSpace(xs[k])
  {
    if xs != [] {
      TrimmedNonBlankEmpty(xs[1..]);
      assert Trim(xs[0]) == "" <==> AllSpace(xs[0]);
      assert |TrimmedNonBlank(xs)| == 0 <==> Trim(xs[0]) == "" && |TrimmedNonBlank(xs[1..])| == 0;
      assert forall k | 1 <= k < |xs| :: xs[k] == xs[1..][k - 1];
    }
  }

  /** `types.find((t) => t.value === value)?.label`: the label of the first entry with that value. */
  function FindLabel(types: seq<(string, string)>, value: string): (r: Option<string>)
    ensures r.Some? <==> exists k | 0 <= k < |types| :: types[k].0 == value
    ensures r.Some? ==> exists k | 0 <= k < |types| :: types[k] == (value, r.value)
  {
    if types == [] then None
    else if types[0].0 == value then
      assert types[0] == (value, types[0].1);
      Some(types[0].1)
    else
      var r := FindLabel(types[1..], value);
      assert forall k | 1 <= k < |types| :: types[k] == types[1..][k - 1];
      r
  }

  function PageTypeLabel(value: string): Option<string> {
    FindLabel(PageTaskTypes, value)
  }

  /** The title sent: the trimmed title, else "Test " and the label (or the value) of the first type. */
  function DisplayTitle(title: string, taskTypes: seq<string>): (r: string)
    ensures Trim(title) != "" ==> r == Trim(title)
    ensures Trim(title) == "" && |taskTypes| > 0 ==> r == "Test " + PageTypeLabel(taskTypes[0]).OrElse(taskTypes[0])
    ensures Trim(title) == "" && |taskTypes| == 0 ==> r == "Test Task"
  {
    if Trim(title) != "" then Trim(title)
    else if |taskTypes| > 0 then "Test " + PageTypeLabel(taskTypes[0]).OrElse(taskTypes[0])
    else "Test Task"
  }

  /** The form's state. */
  datatype FormState = FormState(
    taskTypes: seq<string>,
    customKeyword: string,
    title: string,
    appUrl: string,
    about: string,
    platform: string,
    difficulty: string,
    estimatedDuration: int,
    requirements: seq<string>,
    steps: seq<string>,
    budget: int,
    maxTesters: int,
    isSubmitting: bool,
    error: Option<string>)

  /** Which check stops a submission, in the order `handleSubmit` makes them; `None` when all pass. */
  function SubmitError(s: FormState): (r: Option<string>)
    ensures r == Some(NoStepsMessage) <==> |TrimmedNonBlank(s.steps)| == 0
    ensures r == Some(NoTypeMessage) <==> |TrimmedNonBlank(s.steps)| > 0 && |NonBlank(s.taskTypes)| == 0
    ensures r == Some(NoAppUrlMessage) <==>
              |TrimmedNonBlank(s.steps)| > 0 && |NonBlank(s.taskTypes)| > 0 && Trim(s.appUrl) == ""
    ensures r.None? <==> |TrimmedNonBlank(s.steps)| > 0 && |NonBlank(s.taskTypes)| > 0 && Trim(s.appUrl) != ""
  {
    if |TrimmedNonBlank(s.steps)| == 0 then Some(NoStepsMessage)
    else if |NonBlank(s.taskTypes)| == 0 then Some(NoTypeMessage)
    else if Trim(s.appUrl) == "" then Some(NoAppUrlMessage)
    else None
  }

  /** What `handleSubmit` passes to `createTask` (the company fields, which the action passes on and `tasks.create` does not write, are left out). */
  function SubmissionOf(s: FormState): (r: CreateTaskInput)
    ensures r.steps == Some(TrimmedNonBlank(s.steps)) && r.instructions.None?
    ensures r.appUrl == Trim(s.appUrl) && r.budget == s.budget && r.maxTesters == Some(s.maxTesters)
    ensures r.taskTypes == Some(NonBlank(s.taskTypes))
    ensures r.title == Some(DisplayTitle(s.title, s.taskTypes))
    ensures r.about.Some? <==> Trim(s.about) != ""
    ensures r.requirements.Some? <==> |TrimmedNonBlank(s.requirements)| > 0
  {
    var reqs := TrimmedNonBlank(s.requirements);
    CreateTaskInput(
      appUrl := Trim(s.appUrl),
      instructions := None,
      budget := s.budget,
      taskTypes := Some(NonBlank(s.taskTypes)),
      title := Some(DisplayTitle(s.title, s.taskTypes)),
      maxTesters := Some(s.maxTesters),
      estimatedDurationMinutes := Some(s.estimatedDuration),
      difficulty := Some(s.difficulty),
      platform := Some(s.platform),
      about := if Trim(s.about) != "" then Some(Trim(s.about)) else None,
      requirements := if |reqs| > 0 then Some(reqs) else None,
      steps := Some(TrimmedNonBlank(s.steps)))
  }

  /**
   * A form that passes the page's checks also passes the action's: it
   * always carries a step. The escrow the action makes is the total shown
   * less the fee: the fee is displayed but not reserved.
   */
  lemma SubmissionAcceptedByAction(s: FormState)
    requires SubmitError(s).None?
    ensures HasEnoughDetail(SubmissionOf(s))
    ensures ReserveCents(SubmissionOf(s)) == TotalCostCents(s.budget, s.maxTesters) - FeeCents(s.budget, s.maxTesters)
  {
  }

  /** The form as a component holding its state. */
  class NewTaskForm {
    var taskTypes: seq<string>
    var customKeyword: string
    var title: string
    var appUrl: string
    var about: string
    var platform: string
    var difficulty: string
    var estimatedDuration: int
    var requirements: seq<string>
    var steps: seq<string>
    var budget: int
    var maxTesters: int
    var isSubmitting: bool
    var error: Option<string>

    function State(): FormState
      reads this
    {
      FormState(taskTypes, customKeyword, title, appUrl, about, platform, difficulty, estimatedDuration,
                requirements, steps, budget, maxTesters, isSubmitting, error)
    }

    /** Selected types are distinct and non-empty, and the tester count lies in 1..100. */
    predicate Valid()
      reads this
    {
      NoDuplicates(taskTypes) && "" !in taskTypes
      && 1 <= maxTesters <= 100
    }

    /** The form as first shown. */
    constructor()
      ensures Valid()
      ensures State() == FormState(["signup"], "", "", "", "", "web", "medium", 5, DefaultRequirements, ["", ""],
                                   25, 1, false, None)
    {
      taskTypes := ["signup"];
      customKeyword := "";
      title := "";
      appUrl := "";
      about := "";
      platform := "web";
      difficulty := "medium";
      estimatedDuration := 5;
      requirements := DefaultRequirements;
      steps := ["", ""];
      budget := 25;
      maxTesters := 1;
      isSubmitting := false;
      error := None;
    }

    /** Clicking a listed type: selected types are deselected, others appended. */
    method ToggleTaskType(k: nat)
      requires Valid() && k < |PageTaskTypes|
      modifies this
      ensures Valid()
      ensures var value := PageTaskTypes[k].0;
              State() == old(State()).(taskTypes := if value in old(taskTypes) then RemoveAll(old(taskTypes), value)
                                                    else old(taskTypes) + [value])
    {
      var value := PageTaskTypes[k].0;
      if value in taskTypes {
        taskTypes := RemoveAll(taskTypes, value);
      } else {
        AppendFresh(taskTypes, value);
        taskTypes := taskTypes + [value];
      }
    }

    /** Removing a selected type by its chip. */
    method RemoveTaskType(t: string)
      requires Valid()
      modifies this
      ensures Valid()
      ensures State() == old(State()).(taskTypes := RemoveAll(old(taskTypes), t))
    {
      taskTypes := RemoveAll(taskTypes, t);
    }

    /** Adding the custom keyword: only a non-empty keyword not yet selected is added, and the input then cleared. */
    method AddCustomKeyword()
      requires Valid()
      modifies this
      ensures Valid()
      ensures var kw := NormalizeKeyword(old(customKeyword));
              if kw != "" && kw !in old(taskTypes)
              then State() == old(State()).(taskTypes := old(taskTypes) + [kw], customKeyword := "")
              else State() == old(State())
    {
      var before := State();
      var kw := NormalizeKeyword(customKeyword);
      if kw != "" && kw !in taskTypes {
        AppendFresh(taskTypes, kw);
        taskTypes := taskTypes + [kw];
        customKeyword := "";
        assert State() == before.(taskTypes := before.taskTypes + [kw], customKeyword := "");
      }
    }

    /** The tester count input. */
    method SetMaxTesters(input: JsNumber)
      requires Valid()
      modifies this
      ensures Valid()
      ensures State() == old(State()).(maxTesters := ClampTesters(input))
    {
      maxTesters := ClampTesters(input);
    }

    /** An edit of the step list. */
    method EditSteps(e: ListEdit)
      requires Valid() && EditFits(steps, e)
      modifies this
      ensures Valid()
      ensures State() == old(State()).(steps := ApplyEdit(old(steps), e))
    {
      steps := ApplyEdit(steps, e);
    }

    /** An edit of the requirement list. */
    method EditRequirements(e: ListEdit)
      requires Valid() && EditFits(requirements, e)
      modifies this
      ensures Valid()
      ensures State() == old(State()).(requirements := ApplyEdit(old(requirements), e))
    {
      requirements := ApplyEdit(requirements, e);
    }

    /**
     * `handleSubmit`: the error is cleared, then the checks run in order and
     * the first failing one sets its message with no call made; otherwise
     * `createTask` is called with the submission (`failure` is its error
     * message, if any). On success the page navigates away; on failure the
     * message is shown. Either way the form ends not submitting.
     */
    method Submit(failure: Option<string>) returns (call: Option<CreateTaskInput>, navigated: bool)
      requires Valid()
      modifies this
      ensures Valid()
      ensures SubmitError(old(State())).Some? ==>
                call.None? && !navigated && State() == old(State()).(error := SubmitError(old(State())))
      ensures SubmitError(old(State())).None? ==>
                call == Some(SubmissionOf(old(State()))) && navigated == failure.None?
                && State() == old(State()).(isSubmitting := false, error := failure)
      ensures call.Some? ==> HasEnoughDetail(call.value)
    {
      var before := State();
      error := None;
      var failed := SubmitError(before);
      if failed.Some? {
        error := failed;
        assert State() == before.(error := failed);
        return None, false;
      }
      isSubmitting := true;
      call := Some(SubmissionOf(before));
      SubmissionAcceptedByAction(before);
      if failure.Some? {
        error := failure;
        navigated := false;
      } else {
        navigated := true;
      }
      isSubmitting := false;
      assert State() == before.(isSubmitting := false, error := failure);
    }
  }
}

=== FILE: pagination.dfy ===
/**
 * The page strip of `src/components/ui/Pagination.tsx`: for each page
 * 1..totalPages a numbered button, an ellipsis or nothing, between a
 * previous and a next button.
 */
module Pagination {

  /** What the strip renders at one page position. */
  datatype Item = PageButton(page: int, highlighted: bool) | Ellipsis | Nothing

  /** The previous and next buttons: whether disabled, and the page they request. */
  datatype NavButton = NavButton(disabled: bool, target: int)

  /** Page `p` gets a numbered button: first, last, or within one of the current page. */
  predicate HasButton(p: int, current: int, total: int) {
    p == 1 || p == total || (current - 1 <= p <= current + 1)
  }

  /** The rendering of page `p`. */
  function ItemFor(p: int, current: int, total: int): (r: Item)
    ensures r.PageButton? <==> HasButton(p, current, total)
    ensures r.PageButton? ==> r.page == p && (r.highlighted <==> p == current)
    ensures r.Ellipsis? <==> !HasButton(p, current, total) && (p == current - 2 || p == current + 2)
  {
    if HasButton(p, current, total) then PageButton(p, current == p)
    else if p == current - 2 || p == current + 2 then Ellipsis
    else Nothing
  }

  /** The items for pages 1..n. */
  function Items(current: int, total: int, n: nat): (r: seq<Item>)
    ensures |r| == n
    ensures forall i | 0 <= i < n :: r[i] == ItemFor(i + 1, current, total)
  {
    if n == 0 then [] else Items(current, total, n - 1) + [ItemFor(n, current, total)]
  }

  /** The whole strip of page items: `[...Array(totalPages)].map(...)`. */
  function Strip(current: int, total: nat): seq<Item> {
    Items(current, total, total)
  }

  /** The number of numbered buttons among `items`. */
  function ButtonCount(items: seq<Item>): nat {
    if items == [] then 0 else ButtonCount(items[..|items| - 1]) + (if items[|items| - 1].PageButton? then 1 else 0)
  }

  /** How many of the pages 1..n lie within one of the current page. */
  function WindowCount(current: int, n: nat): nat {
    if n == 0 then 0 else WindowCount(current, n - 1) + (if current - 1 <= n <= current + 1 then 1 else 0)
  }

  /** The window around the current page holds at most three pages. */
  lemma {:induction false} WindowAtMostThree(current: int, n: nat)
    ensures WindowCount(current, n) <= 3
    ensures n < current - 1 ==> WindowCount(current, n) == 0
    ensures current - 1 <= n <= current + 1 ==> WindowCount(current, n) <= n - current + 2
  {
    if n > 0 {
      WindowAtMostThree(current, n - 1);
    }
  }

  /**
   * Every button page is the first page, the last page or in the window, so
   * the buttons among 1..n are at most one, plus one, plus the window.
   */
  lemma {:induction false} ButtonsWithinSlots(current: int, total: int, n: nat)
    ensures ButtonCount(Items(current, total, n))
            <= (if n >= 1 then 1 else 0) + (if 1 <= total <= n then 1 else 0) + WindowCount(current, n)
  {
    if n > 0 {
      ButtonsWithinSlots(current, total, n - 1);
      var items := Items(current, total, n);
      assert items[..n - 1] == Items(current, total, n - 1);
      assert ButtonCount(items) == ButtonCount(Items(current, total, n - 1)) + (if HasButton(n, current, total) then 1 else 0);
    }
  }

  /** At most five numbered buttons are shown, whatever the page counts. */
  lemma AtMostFiveButtons(current: int, total: nat)
    ensures ButtonCount(Strip(current, total)) <= 5
  {
    ButtonsWithinSlots(current, total, total);
    WindowAtMostThree(current, total);
  }

  /** Exactly one button is highlighted when the current page is a page of the strip. */
  lemma HighlightIsCurrent(current: int, total: nat, i: int)
    requires 0 <= i < total
    ensures Strip(current, total)[i].PageButton? && Strip(current, total)[i].highlighted <==> i + 1 == current
  {
  }

  /** The previous button: disabled on page 1, otherwise requests the page before. */
  function PrevButton(current: int): (b: NavButton)
    ensures b.disabled <==> current == 1
    ensures b.target == current - 1
  {
    NavButton(current == 1, current - 1)
  }

  /** The next button: disabled on the last page, otherwise requests the page after. */
  function NextButton(current: int, total: int): (b: NavButton)
    ensures b.disabled <==> current == total
    ensures b.target == current + 1
  {
    NavButton(current == total, current + 1)
  }

  /** From a page strictly inside 1..total, both neighbours are enabled and stay in range. */
  lemma InnerPageNavigates(current: int, total: int)
    requires 1 < current < total
    ensures !PrevButton(current).disabled && 1 <= PrevButton(current).target
    ensures !NextButton(current, total).disabled && NextButton(current, total).target <= total
  {
  }

  /** Around a page far from both ends, the strip reads 1 … c-1 c c+1 … total. */
  lemma MiddleWindow(current: int, total: nat)
    requires 4 <= current <= total - 3
    ensures Strip(current, total)[current - 3] == Ellipsis
    ensures Strip(current, total)[current + 1] == Ellipsis
    ensures Strip(current, total)[1].Nothing? == (current > 4)
  {
  }
}

=== FILE: payout_route.dfy ===
/**
 * `POST` of `src/app/api/stripe/connect/request-payout/route.ts`: a signed-in
 * tester with a connected payout account withdraws at least 100 cents; the
 * wallet is debited first and the Stripe transfer of the same amount is
 * requested afterwards.
 */
module PayoutRoute {
  import opened Common
  import opened Strings
  import opened Js
  import opened Http
  import opened Ledger
  import opened Records
  import opened Db

  const MinPayoutCents := 100

  /** A transfer request sent to Stripe. */
  datatype Transfer = Transfer(amountCents: int, destination: string, userId: UserId)

  /** `Number(body?.amount_cents ?? 0)`; `None` is a body that failed to parse (read as `{}`). */
  function PayoutAmount(body: Option<Json>): (r: JsNumber)
    ensures body.None? ==> r == Num(0)
    ensures body.Some? && Field(body.value, "amount_cents").None? ==> r == Num(0)
    ensures body.Some? && Field(body.value, "amount_cents") == Some(JNull) ==> r == Num(0)
    ensures body.Some? && Field(body.value, "amount_cents").Some? && Field(body.value, "amount_cents").value.JNum? ==>
              r == Num(Field(body.value, "amount_cents").value.n)
    ensures body.Some? && Field(body.value, "amount_cents").Some? && Field(body.value, "amount_cents").value.JStr? ==>
              r == StringToNumber(Field(body.value, "amount_cents").value.s)
    ensures body.Some? && Field(body.value, "amount_cents").Some? && Field(body.value, "amount_cents").value.JBool? ==>
              r == Num(if Field(body.value, "amount_cents").value.b then 1 else 0)
    ensures body.Some? && Field(body.value, "amount_cents").Some? && Field(body.value, "amount_cents").value.JObj? ==> r == NaN
  {
    var v := if body.Some? then Field(body.value, "amount_cents") else None;
    if v.None? || v == Some(JNull) then Num(0) else ToNumber(v)
  }

  /** The minimum check as written: `amountCents < 100` refuses; a NaN compares false and is let through. */
  predicate PassesMinimumAsWritten(amount: JsNumber) {
    !(amount.Num? && amount.n < MinPayoutCents)
  }

  /** The balance check of `debitForPayout` as written: `balance < amountCents` refuses. */
  predicate PassesBalanceAsWritten(balance: int, amount: JsNumber) {
    !(amount.Num? && balance < amount.n)
  }

  /** A body whose `amount_cents` is not numeric passes both checks as written. */
  lemma NonNumericAmountPassesGuards(balance: int)
    ensures PayoutAmount(Some(JObj(map["amount_cents" := JStr("abc")]))) == NaN
    ensures PassesMinimumAsWritten(NaN) && PassesBalanceAsWritten(balance, NaN)
  {
    var text := "abc";
    assert !IsSpace(text[0]) && !IsSpace(text[|text| - 1]);
    assert Trim(text) == text;
    assert !IsDigit(text[0]);
    assert StringToNumber(text) == NaN;
    var body := JObj(map["amount_cents" := JStr(text)]);
    assert Field(body, "amount_cents") == Some(JStr(text));
  }

  /** The intended minimum check: a number of at least 100 cents. */
  predicate ValidPayoutAmount(amount: JsNumber) {
    amount.Num? && amount.n >= MinPayoutCents
  }

  /** The intended check agrees with the written one on every number and refuses NaN. */
  lemma ValidPayoutAmountRefinesGuard(amount: JsNumber)
    ensures ValidPayoutAmount(amount) ==> PassesMinimumAsWritten(amount) && amount.n >= MinPayoutCents
    ensures amount.Num? ==> (ValidPayoutAmount(amount) <==> PassesMinimumAsWritten(amount))
    ensures !ValidPayoutAmount(NaN)
  {
  }

  /** The account the profile has connected, when it is truthy. */
  function PayoutAccount(profiles: map<UserId, Profile>, u: UserId): Option<string> {
    if u in profiles && Truthy(profiles[u].stripeAccountId) then profiles[u].stripeAccountId else None
  }

  /**
   * The handler as written. A missing profile makes the profile lookup
   * throw (500); no account gives 400; a number under 100 gives 400. A NaN
   * amount passes both checks: `debitForPayout` creates the wallet if it
   * is missing and then writes rows whose amount is NaN, and the transfer
   * of a NaN amount is refused, so the answer is 500 and no transfer is
   * made. Otherwise the debit is made (400 on a short balance), the
   * transfer of the same amount is requested (`transferSucceeds`), and a
   * failed transfer answers 500 with the debit kept.
   */
  method RequestPayout(store: Store, user: Option<UserId>, body: Option<Json>, transferSucceeds: bool, now: int)
    returns (resp: Response, transfer: Option<Transfer>)
    requires store.Valid()
    modifies store
    ensures store.Valid()
    ensures user.None? ==> resp == Error(401, "Unauthorized") && store.wallets == old(store.wallets)
    ensures user.Some? && user.value !in old(store.profiles) ==>
              resp == Error(500, "Failed to process payout") && store.wallets == old(store.wallets)
    ensures user.Some? && user.value in old(store.profiles) && PayoutAccount(old(store.profiles), user.value).None? ==>
              resp == Error(400, "Add a payout method first") && store.wallets == old(store.wallets)
    ensures user.Some? && PayoutAccount(old(store.profiles), user.value).Some? && !PassesMinimumAsWritten(PayoutAmount(body)) ==>
              resp == Error(400, "Minimum payout is $1") && store.wallets == old(store.wallets)
    ensures user.Some? && PayoutAccount(old(store.profiles), user.value).Some? && PayoutAmount(body).NaN? ==>
              resp == Error(500, "Failed to process payout") && store.wallets == WithWallet(old(store.wallets), user.value)
    ensures user.Some? && PayoutAccount(old(store.profiles), user.value).Some? && ValidPayoutAmount(PayoutAmount(body))
            && old(store.Balance(user.value)) < PayoutAmount(body).n ==>
              resp == Error(400, "Insufficient balance") && store.wallets == WithWallet(old(store.wallets), user.value)
    ensures transfer.Some? <==> (user.Some? && PayoutAccount(old(store.profiles), user.value).Some?
                                && ValidPayoutAmount(PayoutAmount(body))
                                && old(store.Balance(user.value)) >= PayoutAmount(body).n)
    ensures transfer.Some? ==> Paid(store, old(store.wallets), old(store.txs), old(store.Balance(user.value)),
                                    transfer.value, PayoutAccount(old(store.profiles), user.value).value, user.value, PayoutAmount(body).n, now)
                               && resp == (if transferSucceeds then OkFlag("ok") else Error(500, "Failed to process payout"))
    ensures transfer.None? ==> store.txs == old(store.txs)
    ensures resp.status == 200 ==> transfer.Some? && transferSucceeds
    ensures old(store.IsSolvent()) ==> store.IsSolvent()
    ensures store.tasks == old(store.tasks) && store.profiles == old(store.profiles) && store.submissions == old(store.submissions)
  {
    transfer := None;
    if user.None? {
      return Error(401, "Unauthorized"), None;
    }
    var u := user.value;
    if u !in store.profiles {
      return Error(500, "Failed to process payout"), None;
    }
    var account := PayoutAccount(store.profiles, u);
    if account.None? {
      return Error(400, "Add a payout method first"), None;
    }
    var amount := PayoutAmount(body);
    if !PassesMinimumAsWritten(amount) {
      return Error(400, "Minimum payout is $1"), None;
    }
    if amount.NaN? {
      var _ := store.GetOrCreate(u);
      return Error(500, "Failed to process payout"), None;
    }
    resp, transfer := PayOut(store, u, account.value, amount.n, transferSucceeds, now);
  }

  /**
   * The handler as intended: the minimum check refuses NaN with the same
   * 400 as a small number, so every amount that reaches the ledger is a
   * number of at least 100 cents.
   */
  method RequestPayoutAsIntended(store: Store, user: Option<UserId>, body: Option<Json>, transferSucceeds: bool, now: int)
    returns (resp: Response, transfer: Option<Transfer>)
    requires store.Valid()
    modifies store
    ensures store.Valid()
    ensures user.Some? && PayoutAccount(old(store.profiles), user.value).Some? && !ValidPayoutAmount(PayoutAmount(body)) ==>
              resp == Error(400, "Minimum payout is $1") && store.wallets == old(store.wallets) && store.txs == old(store.txs)
    ensures transfer.Some? ==> transfer.value.amountCents >= MinPayoutCents
    ensures transfer.Some? <==> (user.Some? && PayoutAccount(old(store.profiles), user.value).Some?
                                && ValidPayoutAmount(PayoutAmount(body))
                                && old(store.Balance(user.value)) >= PayoutAmount(body).n)
    ensures transfer.Some? ==> Paid(store, old(store.wallets), old(store.txs), old(store.Balance(user.value)),
                                    transfer.value, PayoutAccount(old(store.profiles), user.value).value, user.value, PayoutAmount(body).n, now)
    ensures transfer.None? ==> store.txs == old(store.txs)
    ensures old(store.IsSolvent()) ==> store.IsSolvent()
    ensures store.tasks == old(store.tasks) && store.profiles == old(store.profiles) && store.submissions == old(store.submissions)
  {
    transfer := None;
    if user.None? {
      return Error(401, "Unauthorized"), None;
    }
    var u := user.value;
    if u !in store.profiles {
      return Error(500, "Failed to process payout"), None;
    }
    var account := PayoutAccount(store.profiles, u);
    if account.None? {
      return Error(400, "Add a payout method first"), None;
    }
    var amount := PayoutAmount(body);
    if !ValidPayoutAmount(amount) {
      return Error(400, "Minimum payout is $1"), None;
    }
    resp, transfer := PayOut(store, u, account.value, amount.n, transferSucceeds, now);
  }

  /** The state after a debit of `amount` from `u`'s balance and the transfer requested for it. */
  ghost predicate Paid(store: Store, wallets0: map<UserId, int>, txs0: seq<Tx>, balance0: int,
                       transfer: Transfer, account: string, u: UserId, amount: int, now: int)
    reads store
  {
    transfer == Transfer(amount, account, u)
    && store.txs == txs0 + [Tx(u, Payout, -amount, TxStatus.Completed, map[], None, now)]
    && store.wallets == wallets0[u := balance0 - amount]
  }

  /**
   * The debit and the transfer for a checked amount: a short balance gives
   * 400 with no transfer; otherwise the payout row is written, the balance
   * lowered, and the transfer's outcome decides between 200 and 500.
   */
  method PayOut(store: Store, u: UserId, account: string, amount: int, transferSucceeds: bool, now: int)
    returns (resp: Response, transfer: Option<Transfer>)
    requires store.Valid()
    modifies store
    ensures store.Valid()
    ensures transfer.Some? <==> old(store.Balance(u)) >= amount
    ensures transfer.None? ==> resp == Error(400, "Insufficient balance") && store.txs == old(store.txs)
                               && store.wallets == WithWallet(old(store.wallets), u)
    ensures transfer.Some? ==> Paid(store, old(store.wallets), old(store.txs), old(store.Balance(u)), transfer.value, account, u, amount, now)
                               && resp == (if transferSucceeds then OkFlag("ok") else Error(500, "Failed to process payout"))
    ensures old(store.IsSolvent()) ==> store.IsSolvent()
    ensures store.tasks == old(store.tasks) && store.profiles == old(store.profiles) && store.submissions == old(store.submissions)
  {
    var debited := store.DebitForPayout(u, amount, now);
    if debited.Fail? {
      return Error(400, debited.error), None;
    }
    transfer := Some(Transfer(amount, account, u));
    if !transferSucceeds {
      return Error(500, "Failed to process payout"), transfer;
    }
    resp := OkFlag("ok");
  }
}

=== FILE: records.dfy ===
/**
 * The task, submission and profile rows of `src/lib/db/index.ts` and the
 * pure rules the store applies to them: the insert payload of
 * `tasks.create`, the per-task aggregation of
 * `findPendingReviewsByDeveloper`, the trust ladder of
 * `incrementCompletedAndPromoteTrust`, and the name split of
 * `syncFromAuthMetadata`.
 */
module Records {
  import opened Common
  import opened Strings
  import opened Js

  datatype TaskStatus = Draft | Posted | Claimed | Submitted | Completed

  /** A row of `tasks`; `None` is a null column. */
  datatype Task = Task(
    id: string,
    developerId: string,
    appUrl: string,
    instructions: Option<string>,
    budget: int,
    status: TaskStatus,
    taskType: Option<string>,
    taskTypes: Option<seq<string>>,
    title: Option<string>,
    maxTesters: Option<int>,
    estimatedDurationMinutes: Option<int>,
    difficulty: Option<string>,
    platform: Option<string>,
    about: Option<string>,
    requirements: Option<seq<string>>,
    steps: Option<seq<string>>,
    assignedTesterId: Option<string>,
    claimExpiresAt: Option<int>,
    updatedAt: Option<int>)

  /** The argument of `tasks.create`; `None` is an omitted property. */
  datatype NewTask = NewTask(
    id: Option<string>,
    developerId: string,
    appUrl: string,
    instructions: Option<string>,
    budget: int,
    taskType: Option<string>,
    taskTypes: Option<seq<string>>,
    title: Option<string>,
    maxTesters: Option<int>,
    estimatedDurationMinutes: Option<int>,
    difficulty: Option<string>,
    platform: Option<string>,
    about: Option<string>,
    requirements: Option<seq<string>>,
    steps: Option<seq<string>>)

  /** A row of `submissions` (the columns the store reads). */
  datatype Submission = Submission(id: string, taskId: string, testerId: string, status: string)

  const PredefinedTaskTypes: seq<string> := ["login_flow", "checkout", "signup", "navigation", "onboarding"]

  /** `xs?.length` is truthy: the list is present and non-empty. */
  predicate NonEmptyList<T>(xs: Option<seq<T>>) {
    xs.Some? && |xs.value| > 0
  }

  predicate NonePredefined(types: seq<string>) {
    forall i | 0 <= i < |types| :: types[i] !in PredefinedTaskTypes
  }

  /** `taskTypes.find(t => PREDEFINED_TASK_TYPES.includes(t))`. */
  function FirstPredefined(types: seq<string>): (r: Option<string>)
    ensures r.None? <==> NonePredefined(types)
    ensures r.Some? ==> r.value in PredefinedTaskTypes
    ensures r.Some? ==> exists i | 0 <= i < |types| :: types[i] == r.value && NonePredefined(types[..i])
  {
    if types == [] then None
    else if types[0] in PredefinedTaskTypes then
      assert NonePredefined(types[..0]);
      Some(types[0])
    else
      var r := FirstPredefined(types[1..]);
      if r.Some? then
        var i :| 0 <= i < |types[1..]| && types[1..][i] == r.value && NonePredefined(types[1..][..i]);
        assert types[..i + 1] == [types[0]] + types[1..][..i];
        assert types[i + 1] == r.value && NonePredefined(types[..i + 1]);
        r
      else r
  }

  /** `data.instructions ?? (steps joined by newlines, or "")`, with "" stored as null. */
  function Instructions(data: NewTask): (r: Option<string>)
    ensures r.Some? ==> r.value != ""
    ensures Truthy(data.instructions) ==> r == data.instructions
    ensures data.instructions.None? && NonEmptyList(data.steps) && Join(data.steps.value, "\n") != ""
            ==> r == Some(Join(data.steps.value, "\n"))
    ensures data.instructions.None? && !NonEmptyList(data.steps) ==> r.None?
    ensures data.instructions == Some("") ==> r.None?
  {
    var text :=
      if data.instructions.Some? then data.instructions.value
      else if NonEmptyList(data.steps) then Join(data.steps.value, "\n")
      else "";
    if text == "" then None else Some(text)
  }

  /** Every text column of the row is null or non-empty, and every list column null or non-empty. */
  predicate NoEmptyColumns(t: Task) {
    && (t.instructions.Some? ==> t.instructions.value != "")
    && (t.taskType.Some? ==> t.taskType.value != "")
    && (t.title.Some? ==> t.title.value != "")
    && (t.difficulty.Some? ==> t.difficulty.value != "")
    && (t.platform.Some? ==> t.platform.value != "")
    && (t.about.Some? ==> t.about.value != "")
    && (t.taskTypes.Some? ==> |t.taskTypes.value| > 0)
    && (t.requirements.Some? ==> |t.requirements.value| > 0)
    && (t.steps.Some? ==> |t.steps.value| > 0)
  }

  /** An optional string kept only when truthy (`if (x) payload.k = x`). */
  function IfTruthy(s: Option<string>): (r: Option<string>)
    ensures Truthy(s) ==> r == s
    ensures !Truthy(s) ==> r.None?
  {
    if Truthy(s) then s else None
  }

  /** An optional list kept only when non-empty (`if (xs?.length) payload.k = xs`). */
  function IfNonEmpty<T>(xs: Option<seq<T>>): (r: Option<seq<T>>)
    ensures NonEmptyList(xs) ==> r == xs
    ensures !NonEmptyList(xs) ==> r.None?
  {
    if NonEmptyList(xs) then xs else None
  }

  /**
   * The row `tasks.create` inserts: a posted, unassigned task whose id is
   * `data.id` when given and the database's generated id otherwise, whose
   * task type is the explicit one or else the first predefined one among
   * `taskTypes`, and which never stores an empty text or empty list.
   */
  function TaskPayload(data: NewTask, generatedId: string): (r: Task)
    ensures r.status == Posted && r.assignedTesterId.None? && r.claimExpiresAt.None?
    ensures r.developerId == data.developerId && r.appUrl == data.appUrl && r.budget == data.budget
    ensures r.id == (if Truthy(data.id) then data.id.value else generatedId)
    ensures Truthy(data.taskType) ==> r.taskType == data.taskType
    ensures !Truthy(data.taskType) && r.taskType.Some? ==> data.taskTypes.Some? && r.taskType.value in PredefinedTaskTypes && r.taskType.value in data.taskTypes.value
    ensures !Truthy(data.taskType) && NonEmptyList(data.taskTypes) && !NonePredefined(data.taskTypes.value) ==> r.taskType.Some?
    ensures r.maxTesters == data.maxTesters && r.estimatedDurationMinutes == data.estimatedDurationMinutes
    ensures Truthy(data.title) ==> r.title == data.title
    ensures NonEmptyList(data.steps) ==> r.steps == data.steps
    ensures !Truthy(data.taskType) ==>
              r.taskType == (if NonEmptyList(data.taskTypes) then FirstPredefined(data.taskTypes.value) else None)
    ensures r.title == IfTruthy(data.title) && r.difficulty == IfTruthy(data.difficulty)
    ensures r.platform == IfTruthy(data.platform) && r.about == IfTruthy(data.about)
    ensures r.taskTypes == IfNonEmpty(data.taskTypes) && r.requirements == IfNonEmpty(data.requirements)
    ensures r.steps == IfNonEmpty(data.steps)
    ensures r.instructions == Instructions(data)
    ensures NoEmptyColumns(r)
  {
    var taskTypes := IfNonEmpty(data.taskTypes);
    var taskType :=
      if Truthy(data.taskType) then data.taskType
      else if taskTypes.Some? then FirstPredefined(taskTypes.value)
      else None;
    Task(
      id := if Truthy(data.id) then data.id.value else generatedId,
      developerId := data.developerId,
      appUrl := data.appUrl,
      instructions := Instructions(data),
      budget := data.budget,
      status := Posted,
      taskType := taskType,
      taskTypes := taskTypes,
      title := IfTruthy(data.title),
      maxTesters := data.maxTesters,
      estimatedDurationMinutes := data.estimatedDurationMinutes,
      difficulty := IfTruthy(data.difficulty),
      platform := IfTruthy(data.platform),
      about := IfTruthy(data.about),
      requirements := IfNonEmpty(data.requirements),
      steps := IfNonEmpty(data.steps),
      assignedTesterId := None,
      claimExpiresAt := None,
      updatedAt := None)
  }

  /** The number of pending submissions for `taskId` (the `pendingByTask` tally). */
  function PendingCount(subs: seq<Submission>, taskId: string): (n: nat)
    ensures n <= |subs|
    ensures n > 0 <==> exists i | 0 <= i < |subs| :: subs[i].taskId == taskId && subs[i].status == "pending"
  {
    if subs == [] then 0
    else
      var n := PendingCount(subs[1..], taskId);
      assert forall i | 1 <= i < |subs| :: subs[i] == subs[1..][i - 1];
      n + (if subs[0].taskId == taskId && subs[0].status == "pending" then 1 else 0)
  }

  /** One entry of the developer's "pending reviews" list. */
  datatype PendingReview = PendingReview(taskId: string, task: string, testers: nat, cost: int)

  /** The developer owns the task and it is submitted or claimed. */
  predicate AwaitingReview(t: Task, developerId: string) {
    t.developerId == developerId && (t.status == Submitted || t.status == Claimed)
  }

  function ReviewOf(t: Task, subs: seq<Submission>): PendingReview {
    var n := PendingCount(subs, t.id);
    PendingReview(t.id, t.title.OrElse("Untitled"), n, t.budget * n)
  }

  /**
   * `findPendingReviewsByDeveloper` over the task rows (in the order the
   * query returns them) and the submission rows: one entry per awaiting
   * task that has a pending submission, in the same order, carrying the
   * pending count and budget times that count.
   */
  function PendingReviews(tasks: seq<Task>, subs: seq<Submission>, developerId: string): (r: seq<PendingReview>)
    ensures |r| <= |tasks|
    ensures forall k | 0 <= k < |r| :: r[k].testers > 0
    ensures forall t | t in tasks && AwaitingReview(t, developerId) && PendingCount(subs, t.id) > 0 :: ReviewOf(t, subs) in r
    ensures forall x | x in r :: exists t | t in tasks :: AwaitingReview(t, developerId) && PendingCount(subs, t.id) > 0 && x == ReviewOf(t, subs)
  {
    if tasks == [] then []
    else
      var rest := PendingReviews(tasks[1..], subs, developerId);
      var t := tasks[0];
      assert forall u | u in tasks[1..] :: u in tasks;
      if AwaitingReview(t, developerId) && PendingCount(subs, t.id) > 0 then [ReviewOf(t, subs)] + rest else rest
  }

  /**
   * The entries keep the order of the task rows: the entries for `a + b`
   * are those for `a` followed by those for `b`.
   */
  lemma {:induction false} PendingReviewsAppend(a: seq<Task>, b: seq<Task>, subs: seq<Submission>, developerId: string)
    ensures PendingReviews(a + b, subs, developerId) == PendingReviews(a, subs, developerId) + PendingReviews(b, subs, developerId)
  {
    if a != [] {
      assert a + b != [] && (a + b)[0] == a[0] && (a + b)[1..] == a[1..] + b;
      PendingReviewsAppend(a[1..], b, subs, developerId);
    } else {
      assert a + b == b;
    }
  }

  datatype TrustLevel = New | Regular | Trusted

  function Rank(t: TrustLevel): nat {
    match t
    case New => 0
    case Regular => 1
    case Trusted => 2
  }

  /** The tier a completed-task count earns: 20 and more is trusted, 5 and more regular. */
  function EarnedTier(count: int): TrustLevel {
    if count >= 20 then Trusted else if count >= 5 then Regular else New
  }

  /** A stored level no higher than what the count earns: the only levels promotion ever writes. */
  predicate TrustConsistent(count: int, level: Option<TrustLevel>) {
    Rank(level.OrElse(New)) <= Rank(EarnedTier(count))
  }

  /**
   * The level written after an approval that brings the count to `next`:
   * at or above the threshold tiers the earned tier, below 5 the stored
   * level (default `new`).
   */
  function PromotedTrust(next: int, stored: Option<TrustLevel>): (r: TrustLevel)
    ensures Rank(r) >= Rank(EarnedTier(next))
    ensures next >= 5 ==> r == EarnedTier(next)
    ensures next < 5 ==> r == stored.OrElse(New)
  {
    if next >= 20 then Trusted else if next >= 5 then Regular else stored.OrElse(New)
  }

  /**
   * From a level the old count justifies, one more approval never lowers
   * the level and keeps it justified.
   */
  lemma PromotionNeverDemotes(count: int, stored: Option<TrustLevel>)
    requires TrustConsistent(count, stored)
    ensures Rank(PromotedTrust(count + 1, stored)) >= Rank(stored.OrElse(New))
    ensures TrustConsistent(count + 1, Some(PromotedTrust(count + 1, stored)))
  {
  }

  /** Over consistent levels, a higher count never yields a lower level. */
  lemma PromotionMonotone(m: int, n: int, stored: Option<TrustLevel>)
    requires m <= n && TrustConsistent(m - 1, stored)
    ensures Rank(PromotedTrust(m, stored)) <= Rank(PromotedTrust(n, stored))
  {
  }

  /** A level set above what the count earns is overwritten: `trusted` at 5 approvals becomes `regular`. */
  lemma InconsistentLevelIsLowered()
    ensures PromotedTrust(6, Some(Trusted)) == Regular
  {
  }

  /** The OAuth `user_metadata` fields the sync reads. */
  datatype AuthMetadata = AuthMetadata(
    fullName: Option<string>,
    name: Option<string>,
    givenName: Option<string>,
    familyName: Option<string>,
    email: Option<string>)

  /** The profile columns a sync writes; `None` is a column left alone. */
  datatype NameUpdate = NameUpdate(firstName: Option<string>, lastName: Option<string>, email: Option<string>)

  /** `s.split(' ')[0]`: the text before the first space. */
  function FirstWord(s: string): (r: string)
    ensures ' ' !in s ==> r == s
    ensures ' ' !in r && StartsWith(s, r)
  {
    if s == [] then []
    else if s[0] == ' ' then []
    else [s[0]] + FirstWord(s[1..])
  }

  /** `s.split(' ').slice(1).join(' ')`: the text after the first space. */
  function AfterFirstWord(s: string): (r: string)
    ensures ' ' in s ==> FirstWord(s) + " " + r == s
  {
    if s == [] then []
    else if s[0] == ' ' then s[1..]
    else
      var r := AfterFirstWord(s[1..]);
      assert ' ' in s && s[0] != ' ' ==> ' ' in s[1..];
      r
  }

  /** `m.full_name ?? m.name`. */
  function FullNameOf(m: AuthMetadata): Option<string> {
    if m.fullName.Some? then m.fullName else m.name
  }

  /**
   * The columns `syncFromAuthMetadata` writes: given and family names win,
   * otherwise the full name (`full_name`, else `name`) is split at its first
   * space and each part trimmed; only non-empty values are written.
   */
  function NameUpdateOf(meta: Option<AuthMetadata>): (u: NameUpdate)
    ensures u.firstName.Some? ==> u.firstName.value != ""
    ensures u.lastName.Some? ==> u.lastName.value != ""
    ensures u.email == (if meta.Some? && Truthy(meta.value.email) then meta.value.email else None)
    ensures meta.None? ==> u == NameUpdate(None, None, None)
    ensures meta.Some? && Truthy(meta.value.givenName) ==> u.firstName == meta.value.givenName
    ensures meta.Some? && Truthy(meta.value.familyName) ==> u.lastName == meta.value.familyName
    ensures meta.Some? && meta.value.givenName.None? ==>
              u.firstName == (if Truthy(FullNameOf(meta.value))
                              then IfTruthy(Some(Trim(FirstWord(FullNameOf(meta.value).value)))) else None)
    ensures meta.Some? && !Truthy(meta.value.familyName) ==>
              u.lastName == (if Truthy(FullNameOf(meta.value)) && ' ' in FullNameOf(meta.value).value
                             then IfTruthy(Some(Trim(AfterFirstWord(FullNameOf(meta.value).value)))) else None)
  {
    if meta.None? then NameUpdate(None, None, None)
    else
      var m := meta.value;
      var fullName := FullNameOf(m);
      var firstName :=
        if m.givenName.Some? then m.givenName
        else if Truthy(fullName) then Some(Trim(FirstWord(fullName.value)))
        else None;
      var lastName :=
        if Truthy(m.familyName) then m.familyName
        else if Truthy(fullName) && ' ' in fullName.value then Some(Trim(AfterFirstWord(fullName.value)))
        else None;
      NameUpdate(IfTruthy(firstName), IfTruthy(lastName), IfTruthy(m.email))
  }

  /** With only a full name, its two space-separated words become first and last name. */
  lemma FullNameSplits(first: string, last: string)
    requires first != "" && last != ""
    requires ' ' !in first && ' ' !in last
    requires !IsSpace(first[0]) && !IsSpace(first[|first| - 1])
    requires !IsSpace(last[0]) && !IsSpace(last[|last| - 1])
    ensures NameUpdateOf(Some(AuthMetadata(Some(first + " " + last), None, None, None, None)))
            == NameUpdate(Some(first), Some(last), None)
  {
    var full := first + " " + last;
    assert full[|first|] == ' ';
    FirstWordOfJoined(first, last);
  }

  lemma {:induction false} FirstWordOfJoined(first: string, last: string)
    requires ' ' !in first
    ensures FirstWord(first + " " + last) == first
    ensures AfterFirstWord(first + " " + last) == last
  {
    if first != [] {
      assert (first + " " + last)[1..] == first[1..] + " " + last;
      FirstWordOfJoined(first[1..], last);
    }
  }

  /** A row of `profiles` (the columns the store reads and writes). */
  datatype Profile = Profile(
    role: string,
    trustLevel: Option<TrustLevel>,
    completedTasksCount: Option<int>,
    stripeCustomerId: Option<string>,
    stripeAccountId: Option<string>,
    firstName: Option<string>,
    lastName: Option<string>,
    email: Option<string>,
    updatedAt: Option<int>)

  /** The profile after an approval: one more completed task and the promoted level. */
  function Promoted(p: Profile, now: int): (r: Profile)
    ensures r.completedTasksCount == Some(p.completedTasksCount.OrElse(0) + 1)
    ensures r.trustLevel == Some(PromotedTrust(p.completedTasksCount.OrElse(0) + 1, p.trustLevel))
    ensures r.(completedTasksCount := p.completedTasksCount, trustLevel := p.trustLevel, updatedAt := p.updatedAt) == p
  {
    var next := p.completedTasksCount.OrElse(0) + 1;
    p.(completedTasksCount := Some(next), trustLevel := Some(PromotedTrust(next, p.trustLevel)), updatedAt := Some(now))
  }

  /** The sync writes nothing when it has no name or email to write. */
  predicate IsEmptyUpdate(u: NameUpdate) {
    u.firstName.None? && u.lastName.None? && u.email.None?
  }

  /** The profile with the written columns replaced and every other column kept. */
  function ApplyNameUpdate(p: Profile, u: NameUpdate, now: int): (r: Profile)
    ensures r.firstName == (if u.firstName.Some? then u.firstName else p.firstName)
    ensures r.lastName == (if u.lastName.Some? then u.lastName else p.lastName)
    ensures r.email == (if u.email.Some? then u.email else p.email)
    ensures r.(firstName := p.firstName, lastName := p.lastName, email := p.email, updatedAt := p.updatedAt) == p
  {
    p.(firstName := if u.firstName.Some? then u.firstName else p.firstName,
       lastName := if u.lastName.Some? then u.lastName else p.lastName,
       email := if u.email.Some? then u.email else p.email,
       updatedAt := Some(now))
  }

  /**
   * The conditional update of `updateStatusOnSubmit`: it matches the task
   * only while it is unassigned or assigned to this tester.
   */
  function ClaimForSubmit(t: Task, testerId: string, now: int): (r: Option<Task>)
    ensures r.Some? <==> t.assignedTesterId.None? || t.assignedTesterId == Some(testerId)
    ensures r.Some? ==> r.value.status == Submitted && r.value.assignedTesterId == Some(testerId)
    ensures r.Some? ==> r.value.(status := t.status, assignedTesterId := t.assignedTesterId, updatedAt := t.updatedAt) == t
  {
    if t.assignedTesterId.None? || t.assignedTesterId == Some(testerId) then
      Some(t.(status := Submitted, assignedTesterId := Some(testerId), updatedAt := Some(now)))
    else None
  }

  /** Once one tester's submit has gone through, another tester's submit is refused. */
  lemma ClaimIsExclusive(t: Task, a: string, b: string, now: int, later: int)
    requires a != b && ClaimForSubmit(t, a, now).Some?
    ensures ClaimForSubmit(ClaimForSubmit(t, a, now).value, b, later).None?
  {
  }

  /** The same tester may submit again, and the result is the same claim. */
  lemma ClaimIsRepeatable(t: Task, a: string, now: int, later: int)
    requires ClaimForSubmit(t, a, now).Some?
    ensures ClaimForSubmit(ClaimForSubmit(t, a, now).value, a, later)
            == Some(ClaimForSubmit(t, a, now).value.(updatedAt := Some(later)))
  {
  }

  /** The task as `cancelForDebug` restores it: posted again, unassigned, no claim deadline. */
  function Reopened(t: Task, now: int): (r: Task)
    ensures r.status == Posted && r.assignedTesterId.None? && r.claimExpiresAt.None?
    ensures r.(status := t.status, assignedTesterId := t.assignedTesterId,
               claimExpiresAt := t.claimExpiresAt, updatedAt := t.updatedAt) == t
  {
    t.(status := Posted, assignedTesterId := None, claimExpiresAt := None, updatedAt := Some(now))
  }

  /** A claimed-then-reopened task can be claimed by any tester. */
  lemma ReopenedIsClaimable(t: Task, b: string, now: int, later: int)
    ensures ClaimForSubmit(Reopened(t, now), b, later).Some?
  {
  }
}

=== FILE: storage.dfy ===
/**
 * The pure parts of the video storage service of `src/lib/storage/index.ts`:
 * the sanitised upload path, the public URL of a stored video, the inverse
 * of that URL used by `delete`, and the checks of `validateFile`.
 */
module Storage {
  import opened Common
  import opened Strings

  /** What `getUrl` puts between the project URL and the object path. */
  const PublicPrefix: string := "/storage/v1/object/public/videos/"

  /** The separator `delete` splits a full URL on. */
  const PublicMarker: string := "/object/public/videos/"

  /** The substring by which `delete` recognises a full URL. */
  const ObjectMarker: string := "storage/v1/object"

  const AllowedTypes: seq<string> := ["video/mp4", "video/quicktime", "video/webm"]

  /** 100 MB. */
  const MaxSize: int := 100 * 1024 * 1024

  const InvalidTypeMessage: string := "Invalid file type. Allowed: MP4, MOV, WebM"
  const TooLargeMessage: string := "File too large. Maximum size: 100MB"

  /** The characters `[a-zA-Z0-9.-]` that survive sanitisation. */
  predicate SafeChar(c: char) {
    ('a' <= c <= 'z') || ('A' <= c <= 'Z') || ('0' <= c <= '9') || c == '.' || c == '-'
  }

  /** `name.replace(/[^a-zA-Z0-9.-]/g, '_')`. */
  function Sanitize(name: string): (r: string)
    ensures |r| == |name|
    ensures forall i | 0 <= i < |name| :: SafeChar(name[i]) ==> r[i] == name[i]
    ensures forall i | 0 <= i < |name| :: !SafeChar(name[i]) ==> r[i] == '_'
  {
    if name == [] then []
    else
      var last := name[|name| - 1];
      Sanitize(name[..|name| - 1]) + [if SafeChar(last) then last else '_']
  }

  /** Every character of a sanitised name is safe or `_`. */
  lemma SanitizedIsSafe(name: string)
    ensures forall i | 0 <= i < |Sanitize(name)| :: SafeChar(Sanitize(name)[i]) || Sanitize(name)[i] == '_'
  {
  }

  /** A name made only of safe characters is left as it is. */
  lemma SafeNameUnchanged(name: string)
    requires forall i | 0 <= i < |name| :: SafeChar(name[i])
    ensures Sanitize(name) == name
  {
  }

  /** Sanitising twice is sanitising once. */
  lemma SanitizeIdempotent(name: string)
    ensures Sanitize(Sanitize(name)) == Sanitize(name)
  {
  }

  /** The object path of an upload: `submissions/${timestamp}-${sanitizedName}`. */
  function UploadPath(timestamp: nat, name: string): (r: string)
    ensures |r| == 13 + |Decimal(timestamp)| + |name|
    ensures StartsWith(r, "submissions/")
    ensures r[|r| - |name|..] == Sanitize(name)
    ensures r[12..|r| - |name| - 1] == Decimal(timestamp) && r[|r| - |name| - 1] == '-'
  {
    "submissions/" + Decimal(timestamp) + "-" + Sanitize(name)
  }

  /** `getUrl(path)` under the project URL `base`. */
  function GetUrl(base: string, path: string): (r: string)
    ensures |r| == |base| + |PublicPrefix| + |path|
    ensures StartsWith(r, base) && EndsWith(r, path)
    ensures r[|base|..|base| + |PublicPrefix|] == PublicPrefix
  {
    base + PublicPrefix + path
  }

  /** The second piece of `s.split(sep)`, or `None` when `sep` does not occur. */
  function SecondPiece(s: string, sep: string): (r: Option<string>)
    requires sep != ""
    ensures r.None? <==> !Contains(s, sep)
    ensures r.Some? ==> !Contains(r.value, sep)
  {
    match IndexOf(s, sep)
    case None => None
    case Some(i) =>
      var rest := s[i + |sep|..];
      match IndexOf(rest, sep)
      case None => Some(rest)
      case Some(j) =>
        forall k ensures !OccursAt(rest[..j], sep, k) {
          if 0 <= k && k + |sep| <= j {
            OccursInPrefix(rest, j, sep, k);
          }
        }
        Some(rest[..j])
  }

  /**
   * The path `delete` removes: a full URL is cut to the text after the public
   * marker (up to a further marker), an empty cut falls back to the whole
   * input, and anything without `storage/v1/object` is taken as a path.
   */
  function DeletePath(path: string): (r: string)
    ensures !Contains(path, ObjectMarker) ==> r == path
    ensures Contains(path, ObjectMarker) && !Contains(path, PublicMarker) ==> r == path
    ensures r != path ==> r != "" && !Contains(r, PublicMarker)
  {
    if Contains(path, ObjectMarker) then
      match SecondPiece(path, PublicMarker)
      case Some(piece) => if piece != "" then piece else path
      case None => path
    else path
  }

  /** How the public prefix is made of the two markers. */
  lemma PrefixLayout()
    ensures PublicPrefix == "/" + ObjectMarker + "/public/videos/"
    ensures PublicPrefix == "/storage/v1" + PublicMarker
    ensures |PublicPrefix| == 33 && |PublicMarker| == 22 && |ObjectMarker| == 17
  {
  }

  /** A URL built by `GetUrl` is recognised as a full URL by `delete`. */
  lemma UrlHasObjectMarker(base: string, path: string)
    ensures OccursAt(GetUrl(base, path), ObjectMarker, |base| + 1)
  {
    PrefixLayout();
    var url := GetUrl(base, path);
    assert url == (base + "/") + ObjectMarker + ("/public/videos/" + path);
    assert url[|base| + 1..|base| + 1 + |ObjectMarker|] == ObjectMarker;
  }

  /**
   * In a URL built by `GetUrl`, the public marker first occurs where the
   * prefix placed it, provided the project URL has no `/object/` in it.
   */
  lemma FirstMarkerInUrl(base: string, path: string)
    requires !Contains(base, "/object/")
    ensures IndexOf(GetUrl(base, path), PublicMarker) == Some(|base| + 11)
  {
    PrefixLayout();
    var url := GetUrl(base, path);
    assert url == (base + "/storage/v1") + PublicMarker + path;
    assert url[|base| + 11..|base| + 33] == PublicMarker;
    assert OccursAt(url, PublicMarker, |base| + 11);
    forall j | 0 <= j < |base| + 11 ensures !OccursAt(url, PublicMarker, j) {
      NoMarkerBefore(base, path, j);
    }
    var r := IndexOf(url, PublicMarker);
    assert r.Some? && r.value <= |base| + 11;
  }

  /** No occurrence of the public marker starts before the one the prefix places. */
  lemma NoMarkerBefore(base: string, path: string, j: int)
    requires !Contains(base, "/object/")
    requires 0 <= j < |base| + 11
    ensures !OccursAt(GetUrl(base, path), PublicMarker, j)
  {
    if j + 8 <= |base| {
      NoMarkerInBase(base, path, j);
    } else if j < |base| {
      NoMarkerAcrossBase(base, path, j);
    } else {
      NoMarkerInPrefix(base, path, j);
    }
  }

  lemma NoMarkerInBase(base: string, path: string, j: int)
    requires !Contains(base, "/object/")
    requires 0 <= j && j + 8 <= |base|
    ensures !OccursAt(GetUrl(base, path), PublicMarker, j)
  {
    var url := GetUrl(base, path);
    assert !OccursAt(base, "/object/", j);
    assert url[j..j + 8] == base[j..j + 8];
    if j + |PublicMarker| <= |url| {
      assert url[j..j + |PublicMarker|][..8] == url[j..j + 8];
      assert PublicMarker[..8] == "/object/";
    }
  }

  lemma NoMarkerAcrossBase(base: string, path: string, j: int)
    requires 0 <= j < |base| < j + 8
    ensures !OccursAt(GetUrl(base, path), PublicMarker, j)
  {
    PrefixLayout();
    var url := GetUrl(base, path);
    var d := |base| - j;
    assert url[|base|] == PublicPrefix[0] == '/';
    assert url[|base| + 1] == PublicPrefix[1] == 's';
    if j + |PublicMarker| <= |url| {
      var w := url[j..j + |PublicMarker|];
      assert w[d] == '/' && w[8] == url[j + 8];
      if d == 7 {
        assert w[8] == 's' != PublicMarker[8];
      } else {
        assert PublicMarker[d] != '/';
      }
    }
  }

  lemma NoMarkerInPrefix(base: string, path: string, j: int)
    requires |base| <= j < |base| + 11
    ensures !OccursAt(GetUrl(base, path), PublicMarker, j)
  {
    PrefixLayout();
    var url := GetUrl(base, path);
    var e := j - |base|;
    assert url[j] == PublicPrefix[e] && url[j + 1] == PublicPrefix[e + 1];
    if j + |PublicMarker| <= |url| {
      var w := url[j..j + |PublicMarker|];
      assert w[0] == url[j] && w[1] == url[j + 1];
      assert PublicPrefix[e] != '/' || PublicPrefix[e + 1] != 'o';
    }
  }

  /**
   * `delete` recovers the object path from the public URL of a non-empty
   * path that does not itself contain the public marker.
   */
  lemma {:induction false} DeleteInvertsGetUrl(base: string, path: string)
    requires !Contains(base, "/object/")
    requires path != "" && !Contains(path, PublicMarker)
    ensures DeletePath(GetUrl(base, path)) == path
  {
    var url := GetUrl(base, path);
    FirstMarkerInUrl(base, path);
    UrlHasObjectMarker(base, path);
    PrefixLayout();
    assert url[|base| + 11 + |PublicMarker|..] == path;
  }

  /** An empty path has no piece after the marker, so `delete` keeps the whole URL. */
  lemma DeleteOfEmptyPathKeepsUrl(base: string)
    requires !Contains(base, "/object/")
    ensures DeletePath(GetUrl(base, "")) == GetUrl(base, "")
  {
    var url := GetUrl(base, "");
    FirstMarkerInUrl(base, "");
    UrlHasObjectMarker(base, "");
    PrefixLayout();
    assert url[|base| + 11 + |PublicMarker|..] == "";
  }

  /** The only `/` of an upload path is the one after `submissions`. */
  lemma UploadPathSlash(timestamp: nat, name: string, i: int)
    requires 0 <= i < |UploadPath(timestamp, name)|
    ensures UploadPath(timestamp, name)[i] == '/' ==> i == 11
  {
    var p := UploadPath(timestamp, name);
    var d := Decimal(timestamp);
    if 12 <= i < 12 + |d| {
      assert p[i] == d[i - 12];
    } else if i > 12 + |d| {
      assert p[i] == Sanitize(name)[i - 13 - |d|];
    }
  }

  /** The URL of every uploaded video leads `delete` back to its object path. */
  lemma UploadedVideoDeletes(base: string, timestamp: nat, name: string)
    requires !Contains(base, "/object/")
    ensures DeletePath(GetUrl(base, UploadPath(timestamp, name))) == UploadPath(timestamp, name)
  {
    var p := UploadPath(timestamp, name);
    forall k ensures !OccursAt(p, PublicMarker, k) {
      if 0 <= k && k + |PublicMarker| <= |p| {
        UploadPathSlash(timestamp, name, k);
        UploadPathSlash(timestamp, name, k + 7);
        assert p[k..k + |PublicMarker|][0] == p[k];
        assert p[k..k + |PublicMarker|][7] == p[k + 7];
      }
    }
    DeleteInvertsGetUrl(base, p);
  }

  /**
   * `validateFile`: the MIME type is checked first, then the size, which may
   * be exactly 100 MB.
   */
  function ValidateFile(mimeType: string, size: int): (r: Outcome<string>)
    ensures r.Pass? <==> mimeType in AllowedTypes && size <= MaxSize
    ensures mimeType !in AllowedTypes ==> r == Fail(InvalidTypeMessage)
    ensures mimeType in AllowedTypes && size > MaxSize ==> r == Fail(TooLargeMessage)
  {
    if mimeType !in AllowedTypes then Fail(InvalidTypeMessage)
    else if size > MaxSize then Fail(TooLargeMessage)
    else Pass
  }

  /** The size limit is inclusive: 104857600 bytes pass, one more byte does not. */
  lemma SizeLimitInclusive(mimeType: string)
    requires mimeType in AllowedTypes
    ensures ValidateFile(mimeType, 104857600).Pass?
    ensures ValidateFile(mimeType, 104857601) == Fail(TooLargeMessage)
  {
  }
}

=== FILE: strings.dfy ===
/**
 * The JavaScript string operations the application relies on (`trim`,
 * `toLowerCase`, `startsWith`, `endsWith`, `includes`, `indexOf`, `join`,
 * number-to-decimal rendering), over Dafny's `string`.
 */
module Strings {
  import opened Common

  /** The spaces above the ASCII range. */
  const WideSpaces: set<char> := {
    '\U{00A0}', '\U{1680}', '\U{2000}', '\U{2001}', '\U{2002}', '\U{2003}', '\U{2004}', '\U{2005}',
    '\U{2006}', '\U{2007}', '\U{2008}', '\U{2009}', '\U{200A}',
    '\U{2028}', '\U{2029}', '\U{202F}', '\U{205F}', '\U{3000}', '\U{FEFF}'}

  /** JavaScript's WhiteSpace and LineTerminator characters: what `trim` and `\s` match. */
  predicate IsSpace(c: char) {
    '\t' <= c <= '\r' || c == ' ' || ('\U{00A0}' <= c && c in WideSpaces)
  }

  /** The characters a regular-expression `.` does not match. */
  predicate IsLineTerminator(c: char) {
    c == '\n' || c == '\r' || c == '\U{2028}' || c == '\U{2029}'
  }

  predicate AllSpace(s: string) {
    forall i | 0 <= i < |s| :: IsSpace(s[i])
  }

  /** Drops the leading whitespace. */
  function TrimStart(s: string): (r: string)
    ensures |r| <= |s|
  {
    if s != [] && IsSpace(s[0]) then TrimStart(s[1..]) else s
  }

  /** What `TrimStart` leaves is a suffix of `s` after whitespace only, and does not start with whitespace. */
  lemma {:induction false} TrimStartShape(s: string)
    ensures var r := TrimStart(s);
            r == s[|s| - |r|..] && AllSpace(s[..|s| - |r|]) && (r == [] || !IsSpace(r[0]))
  {
    if s != [] && IsSpace(s[0]) {
      TrimStartShape(s[1..]);
      var r := TrimStart(s[1..]);
      assert s[1..][..|s| - 1 - |r|] == s[1..|s| - |r|];
    }
  }

  /** Drops the trailing whitespace. */
  function TrimEnd(s: string): (r: string)
    ensures |r| <= |s|
  {
    if s != [] && IsSpace(s[|s| - 1]) then TrimEnd(s[..|s| - 1]) else s
  }

  /** What `TrimEnd` leaves is a prefix of `s` before whitespace only, and does not end with whitespace. */
  lemma {:induction false} TrimEndShape(s: string)
    ensures var r := TrimEnd(s);
            r == s[..|r|] && AllSpace(s[|r|..]) && (r == [] || !IsSpace(r[|r| - 1]))
  {
    if s != [] && IsSpace(s[|s| - 1]) {
      TrimEndShape(s[..|s| - 1]);
      var r := TrimEnd(s[..|s| - 1]);
      assert s[..|s| - 1][|r|..] + [s[|s| - 1]] == s[|r|..];
    }
  }

  /** `s.trim()`: a slice of `s` that neither starts nor ends with whitespace. */
  function Trim(s: string): (r: string)
    ensures |r| <= |s|
    ensures r == [] <==> AllSpace(s)
    ensures r != [] ==> !IsSpace(r[0]) && !IsSpace(r[|r| - 1])
    ensures (s == [] || (!IsSpace(s[0]) && !IsSpace(s[|s| - 1]))) ==> r == s
  {
    TrimShape(s);
    TrimEnd(TrimStart(s))
  }

  lemma TrimShape(s: string)
    ensures var r := TrimEnd(TrimStart(s));
            && (r == [] <==> AllSpace(s))
            && (r != [] ==> !IsSpace(r[0]) && !IsSpace(r[|r| - 1]))
            && ((s == [] || (!IsSpace(s[0]) && !IsSpace(s[|s| - 1]))) ==> r == s)
  {
    var t := TrimStart(s);
    TrimStartShape(s);
    var r := TrimEnd(t);
    TrimEndShape(t);
    if r == [] {
      assert t == [] by {
        assert t[|r|..] == t;
      }
      forall k | 0 <= k < |s| ensures IsSpace(s[k]) {
        assert s[..|s| - |t|][k] == s[k];
      }
    }
    if r != [] {
      assert r[0] == t[0];
    }
  }

  /**
   * Trimming keeps everything between the first and last non-space
   * characters: after leading whitespace up to `i`, the text from `i`
   * through any later non-space `j` starts the trimmed string.
   */
  lemma TrimKeeps(s: string, i: nat, j: nat)
    requires i <= j < |s|
    requires AllSpace(s[..i]) && !IsSpace(s[i]) && !IsSpace(s[j])
    ensures StartsWith(Trim(s), s[i..j + 1])
  {
    var ts := TrimStart(s);
    TrimStartShape(s);
    var n := |s| - |ts|;
    forall k | 0 <= k < n ensures IsSpace(s[k]) {
      assert s[..n][k] == s[k];
    }
    forall k | 0 <= k < i ensures IsSpace(s[k]) {
      assert s[..i][k] == s[k];
    }
    assert n <= i;
    assert ts[0] == s[n];
    assert ts == s[i..];
    var t := TrimEnd(ts);
    TrimEndShape(ts);
    assert t[..j - i + 1] == ts[..j - i + 1];
  }

  /** ASCII lower-casing of one character. */
  function LowerChar(c: char): (r: char)
    ensures !('A' <= r <= 'Z')
    ensures ('A' <= c <= 'Z') || r == c
  {
    if 'A' <= c <= 'Z' then (c as int + 32) as char else c
  }

  /** `s.toLowerCase()` (on ASCII letters): position by position. */
  function Lower(s: string): (r: string)
    ensures |r| == |s|
    ensures forall i | 0 <= i < |s| :: r[i] == LowerChar(s[i])
  {
    if s == [] then [] else [LowerChar(s[0])] + Lower(s[1..])
  }

  /** Lower-casing twice is lower-casing once. */
  lemma LowerIdempotent(s: string)
    ensures Lower(Lower(s)) == Lower(s)
  {
  }

  predicate StartsWith(s: string, p: string) {
    |p| <= |s| && s[..|p|] == p
  }

  predicate EndsWith(s: string, p: string) {
    |p| <= |s| && s[|s| - |p|..] == p
  }

  /** A suffix of `b` is a suffix of `a + b`. */
  lemma EndsWithAppend(a: string, b: string, p: string)
    requires EndsWith(b, p)
    ensures EndsWith(a + b, p)
  {
    assert (a + b)[|a + b| - |p|..] == b[|b| - |p|..];
  }

  /** `p` occurs in `s` starting at index `i`. */
  predicate OccursAt(s: string, p: string, i: int) {
    0 <= i && i + |p| <= |s| && s[i..i + |p|] == p
  }

  /** `s.indexOf(p, from)`: the first occurrence of `p` at or after `from`. */
  function IndexOfFrom(s: string, p: string, from: nat): (r: Option<nat>)
    ensures r.Some? ==> from <= r.value && OccursAt(s, p, r.value)
    ensures r.Some? ==> forall j | from <= j < r.value :: !OccursAt(s, p, j)
    ensures r.None? ==> forall j | from <= j :: !OccursAt(s, p, j)
    decreases |s| - from
  {
    if from + |p| > |s| then None
    else if s[from..from + |p|] == p then Some(from)
    else IndexOfFrom(s, p, from + 1)
  }

  /** `s.indexOf(p)`, with `None` for JavaScript's -1. */
  function IndexOf(s: string, p: string): (r: Option<nat>)
    ensures r.Some? ==> OccursAt(s, p, r.value) && forall j | 0 <= j < r.value :: !OccursAt(s, p, j)
    ensures r.None? ==> forall j :: !OccursAt(s, p, j)
  {
    IndexOfFrom(s, p, 0)
  }

  /** `s.includes(p)`. */
  predicate Contains(s: string, p: string)
    ensures Contains(s, p) <==> exists i :: OccursAt(s, p, i)
  {
    IndexOf(s, p).Some?
  }

  /** An occurrence inside a prefix of `s` is an occurrence in `s`, and conversely when it fits. */
  lemma OccursInPrefix(s: string, n: nat, p: string, i: int)
    requires n <= |s|
    requires 0 <= i && i + |p| <= n
    ensures OccursAt(s[..n], p, i) <==> OccursAt(s, p, i)
  {
    assert s[..n][i..i + |p|] == s[i..i + |p|];
  }

  /** An occurrence in a suffix of `s` is an occurrence in `s`, shifted. */
  lemma OccursInSuffix(s: string, n: nat, p: string, i: int)
    requires n <= |s|
    ensures OccursAt(s[n..], p, i) <==> (0 <= i && OccursAt(s, p, n + i))
  {
    if 0 <= i && i + |p| <= |s| - n {
      assert s[n..][i..i + |p|] == s[n + i..n + i + |p|];
    }
  }

  /** The last index holding `c`, if any (`s.lastIndexOf(c)`). */
  function LastIndexOfChar(s: string, c: char): (r: Option<nat>)
    ensures r.Some? ==> r.value < |s| && s[r.value] == c && forall j | r.value < j < |s| :: s[j] != c
    ensures r.None? <==> c !in s
  {
    if s == [] then None
    else if s[|s| - 1] == c then Some(|s| - 1)
    else
      var r := LastIndexOfChar(s[..|s| - 1], c);
      assert s == s[..|s| - 1] + [s[|s| - 1]];
      r
  }

  /** The first index holding `c`, if any (`s.indexOf(c)`). */
  function FirstIndexOfChar(s: string, c: char): (r: Option<nat>)
    ensures r.Some? ==> r.value < |s| && s[r.value] == c && forall j | 0 <= j < r.value :: s[j] != c
    ensures r.None? <==> c !in s
  {
    if s == [] then None
    else if s[0] == c then Some(0)
    else
      var r := FirstIndexOfChar(s[1..], c);
      assert s == [s[0]] + s[1..];
      if r.Some? then Some(r.value + 1) else None
  }

  /** How many times `c` occurs in `s` (`(s.match(/c/g) || []).length`). */
  function CountOf(s: string, c: char): nat {
    multiset(s)[c]
  }

  /** Counts add up over a concatenation. */
  lemma CountAppend(a: string, b: string, c: char)
    ensures CountOf(a + b, c) == CountOf(a, c) + CountOf(b, c)
  {
    assert multiset(a + b) == multiset(a) + multiset(b);
  }

  /** `n` copies of `c` count `n` times. */
  lemma {:induction false} RepeatCount(c: char, n: nat)
    ensures CountOf(Repeat(c, n), c) == n
  {
    if n > 0 {
      RepeatCount(c, n - 1);
      CountAppend(Repeat(c, n - 1), [c], c);
    }
  }

  /** A character that does not occur is counted zero times. */
  lemma CountAbsent(s: string, c: char)
    requires forall i | 0 <= i < |s| :: s[i] != c
    ensures CountOf(s, c) == 0
  {
    assert c !in s;
  }

  /** A string without upper-case letters is its own lower-casing. */
  lemma LowerOfLower(s: string)
    requires forall i | 0 <= i < |s| :: !('A' <= s[i] <= 'Z')
    ensures Lower(s) == s
  {
  }

  /** Lower-casing distributes over concatenation. */
  lemma LowerAppend(a: string, b: string)
    ensures Lower(a + b) == Lower(a) + Lower(b)
  {
    assert forall i | 0 <= i < |a + b| :: Lower(a + b)[i] == (Lower(a) + Lower(b))[i];
  }

  /** `xs.join(sep)`. */
  function Join(xs: seq<string>, sep: string): (r: string)
    ensures |xs| == 1 ==> r == xs[0]
    ensures xs == [] ==> r == ""
    ensures |xs| >= 2 ==> r == xs[0] + sep + Join(xs[1..], sep)
  {
    if |xs| == 0 then ""
    else if |xs| == 1 then xs[0]
    else xs[0] + sep + Join(xs[1..], sep)
  }

  /** A string of `n` copies of `c`. */
  function Repeat(c: char, n: nat): (r: string)
    ensures |r| == n
    ensures forall i | 0 <= i < n :: r[i] == c
  {
    if n == 0 then [] else Repeat(c, n - 1) + [c]
  }

  predicate IsDigit(c: char) {
    '0' <= c <= '9'
  }

  function DigitChar(d: nat): (c: char)
    requires d < 10
    ensures IsDigit(c)
  {
    "0123456789"[d]
  }

  function DigitValue(c: char): (d: nat)
    requires IsDigit(c)
    ensures d < 10 && DigitChar(d) == c
  {
    c as int - '0' as int
  }

  /** The value of a string of decimal digits, most significant first. */
  function DigitsValue(s: string): (n: nat)
    requires forall i | 0 <= i < |s| :: IsDigit(s[i])
  {
    if s == [] then 0 else DigitsValue(s[..|s| - 1]) * 10 + DigitValue(s[|s| - 1])
  }

  /** `String(n)` for a natural number: decimal digits, no leading zero. */
  function Decimal(n: nat): (r: string)
    ensures |r| >= 1
    ensures forall i | 0 <= i < |r| :: IsDigit(r[i])
    ensures r[0] == '0' ==> n == 0
  {
    if n < 10 then [DigitChar(n)] else Decimal(n / 10) + [DigitChar(n % 10)]
  }

  /** Reading back the decimal rendering of `n` gives `n`. */
  lemma {:induction false} DecimalRoundTrip(n: nat)
    ensures DigitsValue(Decimal(n)) == n
  {
    if n >= 10 {
      DecimalRoundTrip(n / 10);
      var d := Decimal(n);
      assert d[..|d| - 1] == Decimal(n / 10);
    }
  }

  /** Distinct numbers have distinct decimal renderings. */
  lemma DecimalInjective(m: nat, n: nat)
    requires Decimal(m) == Decimal(n)
    ensures m == n
  {
    DecimalRoundTrip(m);
    DecimalRoundTrip(n);
  }
}

=== FILE: stripe_return.dfy ===
/**
 * `src/app/auth/stripe-return/page.tsx`: the page a Stripe onboarding
 * returns to picks where to send the user next.
 */
module StripeReturn {
  import opened Common
  import opened Strings

  const DefaultNext: string := "/dev/payments"

  /** A `next` query parameter that is present, non-empty and starts with '/' is kept; anything else gives the payments page. */
  function NextTarget(next: Option<string>): (r: string)
    ensures StartsWith(r, "/")
    ensures next.Some? && StartsWith(next.value, "/") ==> r == next.value
    ensures !(next.Some? && StartsWith(next.value, "/")) ==> r == DefaultNext
  {
    if next.Some? && next.value != "" && StartsWith(next.value, "/") then next.value else DefaultNext
  }

  /** Choosing again from a chosen target keeps it: every target is already acceptable. */
  lemma NextTargetIdempotent(next: Option<string>)
    ensures NextTarget(Some(NextTarget(next))) == NextTarget(next)
  {
  }

  /** A target that is not the payments page came from the query unchanged. */
  lemma NextTargetFromQuery(next: Option<string>)
    ensures NextTarget(next) != DefaultNext ==> next == Some(NextTarget(next))
  {
  }
}

=== FILE: task_actions.dfy ===
/**
 * The `createTask` server action of `src/app/dev/tasks/new/actions.ts`:
 * signed-in check, the steps-or-instructions rule, escrow of
 * budget x testers in cents, then the task insert under the same id.
 */
module TaskActions {
  import opened Common
  import opened Ledger
  import opened Records
  import opened Db
  import opened Js

  /** The form data `createTask` receives (the company fields are dropped by `tasks.create`). */
  datatype CreateTaskInput = CreateTaskInput(
    appUrl: string,
    instructions: Option<string>,
    budget: int,
    taskTypes: Option<seq<string>>,
    title: Option<string>,
    maxTesters: Option<int>,
    estimatedDurationMinutes: Option<int>,
    difficulty: Option<string>,
    platform: Option<string>,
    about: Option<string>,
    requirements: Option<seq<string>>,
    steps: Option<seq<string>>)

  datatype CreateTaskError =
    | RedirectToSignIn
    | NeedsStepsOrInstructions
    | ReserveFailed(message: string)
    | InsertFailed(message: string)

  /** At least one step, or instructions of 50 characters or more. */
  predicate HasEnoughDetail(data: CreateTaskInput) {
    NonEmptyList(data.steps) || (data.instructions.Some? && |data.instructions.value| >= 50)
  }

  /** The tester count used for escrow and stored on the task: `maxTesters ?? 1`. */
  function TesterCount(data: CreateTaskInput): int {
    data.maxTesters.OrElse(1)
  }

  /** The amount escrowed: budget (whole dollars) times testers, in cents. */
  function ReserveCents(data: CreateTaskInput): (r: int)
    ensures data.maxTesters.None? ==> r == data.budget * 100
    ensures data.budget >= 0 && TesterCount(data) >= 0 ==> r >= 0
    ensures r % 100 == 0
  {
    data.budget * TesterCount(data) * 100
  }

  /** The metadata of the reservation row. */
  function ReservationMetadata(taskId: string, title: Option<string>): (m: map<string, Json>)
    ensures m.Keys == {"task_id", "task_title"}
    ensures m["task_id"] == JStr(taskId) && m["task_title"] == JStr(title.OrElse("Test"))
  {
    map["task_id" := JStr(taskId), "task_title" := JStr(title.OrElse("Test"))]
  }

  /** The argument passed on to `tasks.create`. */
  function NewTaskOf(data: CreateTaskInput, developerId: UserId, taskId: string): NewTask {
    NewTask(
      id := Some(taskId),
      developerId := developerId,
      appUrl := data.appUrl,
      instructions := data.instructions,
      budget := data.budget,
      taskType := None,
      taskTypes := data.taskTypes,
      title := data.title,
      maxTesters := Some(TesterCount(data)),
      estimatedDurationMinutes := data.estimatedDurationMinutes,
      difficulty := data.difficulty,
      platform := data.platform,
      about := data.about,
      requirements := data.requirements,
      steps := data.steps)
  }

  /**
   * The inserted task carries the id recorded in the reservation, belongs to
   * the signed-in developer, and stores the defaulted tester count.
   */
  lemma TaskMatchesReservation(data: CreateTaskInput, developerId: UserId, taskId: string)
    ensures TaskPayload(NewTaskOf(data, developerId, taskId), taskId).id == ReservationMetadata(taskId, data.title)["task_id"].s
    ensures TaskPayload(NewTaskOf(data, developerId, taskId), taskId).developerId == developerId
    ensures TaskPayload(NewTaskOf(data, developerId, taskId), taskId).maxTesters == Some(TesterCount(data))
    ensures TaskPayload(NewTaskOf(data, developerId, taskId), taskId).status == Posted
  {
  }

  /**
   * `createTask`: without a user, a redirect to sign-in; without enough
   * detail, an error before any write; then the reservation, whose failure
   * stops the action before the task insert; then the insert under the
   * reserved id. An insert failure leaves the reservation in place.
   */
  method CreateTask(store: Store, user: Option<UserId>, data: CreateTaskInput, taskId: string, now: int)
    returns (out: Outcome<CreateTaskError>)
    requires store.Valid()
    modifies store
    ensures store.Valid()
    ensures user.None? ==> out == Fail(RedirectToSignIn) && store.txs == old(store.txs) && store.wallets == old(store.wallets) && store.tasks == old(store.tasks)
    ensures user.Some? && !HasEnoughDetail(data) ==>
              out == Fail(NeedsStepsOrInstructions) && store.txs == old(store.txs) && store.wallets == old(store.wallets) && store.tasks == old(store.tasks)
    ensures user.Some? && HasEnoughDetail(data) && old(store.Balance(user.value)) < ReserveCents(data) ==>
              out == Fail(ReserveFailed("Insufficient funds")) && store.txs == old(store.txs) && store.tasks == old(store.tasks)
              && store.wallets == WithWallet(old(store.wallets), user.value)
    ensures user.Some? && HasEnoughDetail(data) && old(store.Balance(user.value)) >= ReserveCents(data) ==>
              store.txs == old(store.txs) + [Tx(user.value, TestReserve, -ReserveCents(data), TxStatus.Completed,
                                                ReservationMetadata(taskId, data.title), None, now)]
              && store.wallets == old(store.wallets)[user.value := old(store.Balance(user.value)) - ReserveCents(data)]
    ensures out.Pass? <==> user.Some? && HasEnoughDetail(data) && old(store.Balance(user.value)) >= ReserveCents(data)
                           && taskId !in old(store.tasks)
    ensures out.Pass? ==> store.tasks == old(store.tasks)[taskId := TaskPayload(NewTaskOf(data, user.value, taskId), taskId)]
    ensures out.Fail? && out.error.InsertFailed? ==> store.tasks == old(store.tasks)
    ensures old(store.IsSolvent()) ==> store.IsSolvent()
    ensures store.profiles == old(store.profiles) && store.submissions == old(store.submissions)
  {
    if user.None? {
      return Fail(RedirectToSignIn);
    }
    if !HasEnoughDetail(data) {
      return Fail(NeedsStepsOrInstructions);
    }
    var reserved := store.Reserve(user.value, ReserveCents(data), ReservationMetadata(taskId, data.title), now);
    if reserved.Fail? {
      return Fail(ReserveFailed(reserved.error));
    }
    var created := store.CreateTask(NewTaskOf(data, user.value, taskId), taskId);
    if created.Err? {
      return Fail(InsertFailed(created.error));
    }
    out := Pass;
  }
}

=== FILE: transactions_route.dfy ===
/**
 * `GET` of `src/app/api/wallet/transactions/route.ts`: a page of the
 * signed-in user's own ledger rows, newest first, with `limit` defaulting
 * to 20 and capped at 100 and `offset` defaulting to 0.
 */
module TransactionsRoute {
  import opened Common
  import opened Strings
  import opened Js
  import opened Ledger

  const DefaultLimit := 20
  const MaxLimit := 100

  /** `Number(searchParams.get(name))`: a missing parameter is `Number(null)`, which is 0. */
  function ParamNumber(p: Option<string>): (r: JsNumber)
    ensures p.None? ==> r == Num(0)
  {
    if p.None? then Num(0) else StringToNumber(p.value)
  }

  /** `Math.min(Number(limit) || 20, 100)`. */
  function Limit(p: Option<string>): (r: int)
    ensures r <= MaxLimit
    ensures !NumTruthy(ParamNumber(p)) ==> r == DefaultLimit
    ensures NumTruthy(ParamNumber(p)) ==> r == (if ParamNumber(p).n < MaxLimit then ParamNumber(p).n else MaxLimit)
  {
    var n := NumOr(ParamNumber(p), DefaultLimit);
    if n < MaxLimit then n else MaxLimit
  }

  /** `Number(offset) || 0`. */
  function Offset(p: Option<string>): (r: int)
    ensures !NumTruthy(ParamNumber(p)) ==> r == 0
    ensures NumTruthy(ParamNumber(p)) ==> r == ParamNumber(p).n
  {
    NumOr(ParamNumber(p), 0)
  }

  /** A missing, zero or non-numeric limit is 20; a missing, zero or non-numeric offset is 0. */
  lemma Defaults(text: string)
    requires StringToNumber(text) == NaN || StringToNumber(text) == Num(0)
    ensures Limit(None) == DefaultLimit && Limit(Some(text)) == DefaultLimit
    ensures Offset(None) == 0 && Offset(Some(text)) == 0
  {
  }

  /** A limit given as a decimal number is kept up to 100. */
  lemma DecimalLimit(n: nat)
    requires 0 < n
    ensures Limit(Some(Decimal(n))) == if n < MaxLimit then n else MaxLimit
  {
    NumberOfDecimal(n);
  }

  datatype TransactionsResponse =
    | Unauthorized                 // 401
    | Page(rows: seq<Tx>)          // 200
    | Failed                       // 500 "Failed to fetch transactions"

  /**
   * The handler: 401 without a user; otherwise `findByUser` with the
   * normalised window, whose error answers 500.
   */
  function ListTransactions(txs: seq<Tx>, user: Option<UserId>, limit: Option<string>, offset: Option<string>)
    : (r: TransactionsResponse)
    ensures user.None? <==> r.Unauthorized?
    ensures r.Page? ==> |r.rows| <= MaxLimit
    ensures r.Page? ==> forall k | 0 <= k < |r.rows| :: r.rows[k].userId == user.value
    ensures r.Page? ==> forall k | 0 <= k < |r.rows| ::
              0 <= Offset(offset) + k < |History(txs, user.value)| && r.rows[k] == History(txs, user.value)[Offset(offset) + k]
    ensures r.Failed? <==> user.Some? && (Limit(limit) < 0 || Offset(offset) < 0)
    ensures r.Page? ==> |r.rows| == if Offset(offset) >= |History(txs, user.value)| then 0
                                    else if Limit(limit) < |History(txs, user.value)| - Offset(offset) then Limit(limit)
                                    else |History(txs, user.value)| - Offset(offset)
  {
    if user.None? then Unauthorized
    else
      match FindByUser(txs, user.value, Limit(limit), Offset(offset))
      case Ok(rows) => Page(rows)
      case Err(_) => Failed
  }
}

=== FILE: video_analysis.dfy ===
/**
 * The response handling of `src/lib/ai/video-analysis.ts`: finding the JSON
 * object in a model's reply (a fenced block, else a brace span, else the
 * repair of a reply cut off inside a fenced block), the defaults filled into
 * the parsed analysis, the choice of provider, and `isVideoUrlCompatible`.
 */
module VideoAnalysis {
  import opened Common
  import opened Strings
  import opened Js

  const Fence: string := "```"

  predicate FenceAt(s: string, i: int) {
    OccursAt(s, Fence, i)
  }

  /** Where fenced text starts: after the fence and an optional `json` label. */
  function LabelEnd(s: string, i: nat): nat {
    if OccursAt(s, "json", i + 3) then i + 7 else i + 3
  }

  /** The first index from `i` on that `\s*` does not consume. */
  function SkipSpaces(s: string, i: nat): (k: nat)
    ensures i <= k
    ensures i <= |s| ==> k <= |s|
    ensures forall j | i <= j < k :: j < |s| && IsSpace(s[j])
    ensures k < |s| ==> !IsSpace(s[k])
    decreases |s| - i
  {
    if i < |s| && IsSpace(s[i]) then SkipSpaces(s, i + 1) else i
  }

  /** A `json` label is no fence, so a closing fence comes after it. */
  lemma LabelBeforeClose(s: string, i: nat, c: nat)
    requires i + 3 <= c && FenceAt(s, c)
    ensures LabelEnd(s, i) <= c
  {
    if OccursAt(s, "json", i + 3) {
      forall j | i + 3 <= j < i + 7 ensures !FenceAt(s, j) {
        assert s[j] in "json" by {
          assert s[i + 3..i + 7] == "json";
          assert s[j] == s[i + 3..i + 7][j - i - 3];
        }
        assert j + 3 <= |s| ==> s[j..j + 3][0] == s[j];
      }
    }
  }

  /**
   * The trimmed capture of ``/```(?:json)?\s*([\s\S]*?)```/``: the text
   * between the first fence and the next one. The whitespace that `\s*`
   * takes is removed by the trim anyway.
   */
  function CodeBlock(s: string): (r: Option<string>)
    ensures r.Some? <==> exists i, j :: FenceAt(s, i) && FenceAt(s, j) && i + 3 <= j
  {
    match IndexOf(s, Fence)
    case None => None
    case Some(i) =>
      match IndexOfFrom(s, Fence, i + 3)
      case None => None
      case Some(c) =>
        LabelBeforeClose(s, i, c);
        assert FenceAt(s, i) && FenceAt(s, c);
        Some(Trim(s[LabelEnd(s, i)..c]))
  }

  /** The match of `/\{[\s\S]*\}/`: from the first `{` to the last `}` after it. */
  function BraceSpan(s: string): (r: Option<string>)
    ensures r.Some? <==> exists i, j | 0 <= i < j < |s| :: s[i] == '{' && s[j] == '}'
    ensures r.Some? ==> |r.value| >= 2 && r.value[0] == '{' && r.value[|r.value| - 1] == '}'
  {
    match FirstIndexOfChar(s, '{')
    case None => None
    case Some(f) =>
      match LastIndexOfChar(s, '}')
      case None => None
      case Some(l) => if f < l then Some(s[f..l + 1]) else None
  }

  /** The test ``/```(?:json)?\s*\{/``: some fence is followed by a `{`. */
  predicate TruncatedFence(s: string) {
    exists i | 0 <= i < |s| :: FenceAt(s, i) && OpensObject(s, SkipSpaces(s, LabelEnd(s, i)))
  }

  predicate OpensObject(s: string, k: nat) {
    k < |s| && s[k] == '{'
  }

  /** The number of `}` still needed to close every `{`. */
  function Deficit(s: string): nat {
    if CountOf(s, '{') > CountOf(s, '}') then CountOf(s, '{') - CountOf(s, '}') else 0
  }

  /** The quote step as written: `/"[^"]*$/` matches as soon as the text holds any `"`. */
  function CloseQuoteAsWritten(e: string): (r: string)
    ensures '"' in e ==> r == e + "\""
    ensures '"' !in e ==> r == e
  {
    if '"' in e then e + "\"" else e
  }

  /** What the intended quote step appends: a `"` exactly when a string is open. */
  function QuoteSuffix(e: string): string {
    if CountOf(e, '"') % 2 == 1 then "\"" else ""
  }

  /** The quote step as intended: close a string only when one is open. */
  function CloseQuote(e: string): (r: string)
    ensures CountOf(r, '"') % 2 == 0
  {
    CountAppend(e, QuoteSuffix(e), '"');
    e + QuoteSuffix(e)
  }

  /** Append `}` until the braces of `q` balance. */
  function CloseAll(q: string): (r: string)
    ensures |q| <= |r| && r[..|q|] == q
    ensures forall i | |q| <= i < |r| :: r[i] == '}'
  {
    var r := q + Repeat('}', Deficit(q));
    assert r[..|q|] == q;
    r
  }

  /** After closing, `}` are at least as many as `{`, exactly as many when they were not more before. */
  lemma CloseAllBalances(q: string)
    ensures CountOf(CloseAll(q), '}') >= CountOf(CloseAll(q), '{')
    ensures CountOf(CloseAll(q), '{') == CountOf(q, '{') && CountOf(CloseAll(q), '"') == CountOf(q, '"')
    ensures CountOf(q, '}') <= CountOf(q, '{') ==> CountOf(CloseAll(q), '}') == CountOf(CloseAll(q), '{')
  {
    ClosingBraces(q, Deficit(q));
  }

  /**
   * The repair of a cut-off reply as `analyzeWithGemini` writes it: when the
   * trimmed text does not already end with `}`, apply the written quote step
   * and then append `}` until the braces balance. Only `"` and `}` are
   * appended.
   */
  function Repaired(e: string): (r: string)
    ensures |e| <= |r| && r[..|e|] == e
    ensures forall i | |e| <= i < |r| :: r[i] == '"' || r[i] == '}'
  {
    if EndsWith(Trim(e), "}") then e
    else
      var q := CloseQuoteAsWritten(e);
      assert q[..|e|] == e;
      CloseAll(q)
  }

  /** The repair as intended: the same, with the quote step that closes only an open string. */
  function RepairedAsIntended(e: string): (r: string)
    ensures |e| <= |r| && r[..|e|] == e
    ensures forall i | |e| <= i < |r| :: r[i] == '"' || r[i] == '}'
  {
    if EndsWith(Trim(e), "}") then e
    else
      var q := CloseQuote(e);
      assert q[..|e|] == e;
      CloseAll(q)
  }

  /** Appending `n` closing braces to `q`: the counts this changes and keeps. */
  lemma ClosingBraces(q: string, n: nat)
    ensures CountOf(q + Repeat('}', n), '}') == CountOf(q, '}') + n
    ensures CountOf(q + Repeat('}', n), '{') == CountOf(q, '{')
    ensures CountOf(q + Repeat('}', n), '"') == CountOf(q, '"')
  {
    var b := Repeat('}', n);
    RepeatCount('}', n);
    CountAppend(q, b, '}');
    CountAppend(q, b, '{');
    CountAppend(q, b, '"');
    CountAbsent(b, '{');
    CountAbsent(b, '"');
  }

  /** The intended repair leaves as many `}` as `{` or more, and no open string. */
  lemma RepairedBalances(e: string)
    requires !EndsWith(Trim(e), "}")
    ensures CountOf(RepairedAsIntended(e), '}') >= CountOf(RepairedAsIntended(e), '{')
    ensures CountOf(RepairedAsIntended(e), '"') % 2 == 0
  {
    CloseAllBalances(CloseQuote(e));
  }

  /**
   * The written repair also leaves as many `}` as `{` or more, but a text
   * with an even, non-zero number of quotes comes out with an open string.
   */
  lemma RepairedOpensString(e: string)
    requires !EndsWith(Trim(e), "}")
    ensures CountOf(Repaired(e), '}') >= CountOf(Repaired(e), '{')
    ensures '"' in e && CountOf(e, '"') % 2 == 0 ==> CountOf(Repaired(e), '"') % 2 == 1
  {
    CountAppend(e, "\"", '"');
    CloseAllBalances(CloseQuoteAsWritten(e));
  }

  /** The repair of `analyzeWithGemini`: the written quote step, then the brace loop. */
  method Repair(e: string) returns (r: string)
    ensures r == Repaired(e)
  {
    r := e;
    if !EndsWith(Trim(r), "}") {
      if '"' in r {
        r := r + "\"";
      }
      assert r == CloseQuoteAsWritten(e);
      r := CloseBraces(r);
    }
  }

  /** The brace loop: append one `}` per round while `{` outnumber `}`. */
  method CloseBraces(q: string) returns (r: string)
    ensures r == CloseAll(q)
  {
    r := q;
    ghost var k := 0;
    while CountOf(r, '{') > CountOf(r, '}')
      invariant r == q + Repeat('}', k)
      invariant CountOf(r, '{') == CountOf(q, '{') && CountOf(r, '}') == CountOf(q, '}') + k
      invariant k <= Deficit(q)
      decreases CountOf(r, '{') - CountOf(r, '}')
    {
      r := r + "}";
      k := k + 1;
      ClosingBraces(q, k);
    }
  }

  /**
   * What `analyzeWithGemini` extracts from the reply text: `None` is a null
   * `jsonStr`.
   */
  function ExtractSpec(text: string): (r: Option<string>)
    ensures (exists i, j :: FenceAt(text, i) && FenceAt(text, j) && i + 3 <= j) ==> r == CodeBlock(text)
    ensures CodeBlock(text).None? && (exists i, j | 0 <= i < j < |text| :: text[i] == '{' && text[j] == '}')
            ==> r == BraceSpan(text)
    ensures r.None? <==> !(exists i, j :: FenceAt(text, i) && FenceAt(text, j) && i + 3 <= j)
                         && !(exists i, j | 0 <= i < j < |text| :: text[i] == '{' && text[j] == '}')
                         && !TruncatedFence(text)
    ensures r.Some? && CodeBlock(text).None? ==> |r.value| > 0 && r.value[0] == '{'
  {
    match CodeBlock(text)
    case Some(block) => Some(block)
    case None =>
      match BraceSpan(text)
      case Some(span) => Some(span)
      case None =>
        if TruncatedFence(text) then
          match FirstIndexOfChar(text, '{')
          case Some(start) => Some(Repaired(text[start..]))
          case None => None
        else None
  }

  /** The extraction as the handler performs it, with the repair loop. */
  method ExtractJson(text: string) returns (r: Option<string>)
    ensures r == ExtractSpec(text)
  {
    var block := CodeBlock(text);
    if block.Some? {
      return block;
    }
    var span := BraceSpan(text);
    if span.Some? {
      return span;
    }
    if TruncatedFence(text) {
      var start := FirstIndexOfChar(text, '{');
      if start.Some? {
        var repaired := Repair(text[start.value..]);
        return Some(repaired);
      }
    }
    return None;
  }

  /**
   * The repair is used exactly for a reply with no complete fenced block, no
   * `}` after a `{`, and a fence followed by `{`; its result starts with the
   * text from the first `{` on, which holds no `}`, so the appended braces
   * balance it exactly.
   */
  lemma TruncatedExtraction(text: string)
    requires CodeBlock(text).None? && BraceSpan(text).None? && TruncatedFence(text)
    ensures ExtractSpec(text).Some?
    ensures exists start | 0 <= start < |text| :: text[start] == '{' && StartsWith(ExtractSpec(text).value, text[start..])
    ensures FirstIndexOfChar(text, '{').Some?
            && StartsWith(ExtractSpec(text).value, text[FirstIndexOfChar(text, '{').value..])
    ensures CountOf(ExtractSpec(text).value, '}') == CountOf(ExtractSpec(text).value, '{')
  {
    var i :| 0 <= i < |text| && FenceAt(text, i) && OpensObject(text, SkipSpaces(text, LabelEnd(text, i)));
    assert text[SkipSpaces(text, LabelEnd(text, i))] == '{';
    var start := FirstIndexOfChar(text, '{').value;
    assert ExtractSpec(text) == Some(Repaired(text[start..]));
    NoClosingBrace(text, start);
    RepairClosesObject(text[start..]);
  }

  /** Repairing a text with no `}` balances its braces exactly. */
  lemma RepairClosesObject(e: string)
    requires forall j | 0 <= j < |e| :: e[j] != '}'
    ensures CountOf(Repaired(e), '}') == CountOf(Repaired(e), '{')
  {
    CountAbsent(e, '}');
    NotEndingWithBrace(e);
    var suffix := if '"' in e then "\"" else "";
    assert CloseQuoteAsWritten(e) == e + suffix;
    CountAppend(e, suffix, '}');
    CountAppend(e, suffix, '{');
    CountAbsent(suffix, '}');
    CloseAllBalances(e + suffix);
  }

  /** Without a brace span, nothing from the first `{` on is a `}`. */
  lemma NoClosingBrace(text: string, start: nat)
    requires BraceSpan(text).None? && FirstIndexOfChar(text, '{') == Some(start)
    ensures forall j | 0 <= j < |text[start..]| :: text[start..][j] != '}'
  {
    forall j | 0 <= j < |text[start..]| ensures text[start..][j] != '}' {
      assert text[start..][j] == text[start + j];
      if j > 0 {
        assert !(text[start] == '{' && text[start + j] == '}');
      }
    }
  }

  /** A text without `}` does not end with `}` once trimmed. */
  lemma NotEndingWithBrace(e: string)
    requires forall j | 0 <= j < |e| :: e[j] != '}'
    ensures !EndsWith(Trim(e), "}")
  {
    var ts := TrimStart(e);
    TrimStartShape(e);
    var t := TrimEnd(ts);
    TrimEndShape(ts);
    if t != [] {
      assert t[|t| - 1] == ts[|t| - 1] == e[|e| - |ts| + |t| - 1];
    }
  }

  /** A reply cut off after a complete value. */
  const CutOffReply: string := "{\"a\":1"

  lemma CutOffReplyCounts()
    ensures '"' in CutOffReply
    ensures CountOf(CutOffReply, '"') == 2 && CountOf(CutOffReply, '{') == 1 && CountOf(CutOffReply, '}') == 0
    ensures !EndsWith(Trim(CutOffReply), "}")
  {
    var e := CutOffReply;
    assert e[1] == '"';
    assert multiset(e) == multiset{'{', '"', 'a', '"', ':', '1'};
    assert Trim(e) == e by {
      assert !IsSpace(e[0]) && !IsSpace(e[|e| - 1]);
    }
    assert e[|e| - 1] == '1';
  }

  /** A concrete reply that shows it: the written repair turns `{"a":1` into invalid JSON. */
  lemma QuoteStepExample()
    ensures Repaired(CutOffReply) == "{\"a\":1\"}"
  {
    var e := CutOffReply;
    var q := e + "\"";
    assert Repaired(e) == q + "}" by {
      CutOffReplyCounts();
      assert CloseQuoteAsWritten(e) == q;
      assert Deficit(q) == 1 by {
        CountAppend(e, "\"", '{');
        CountAppend(e, "\"", '}');
        CountAbsent("\"", '{');
        CountAbsent("\"", '}');
      }
      assert Repeat('}', 1) == "}";
    }
    assert q + "}" == "{\"a\":1\"}";
  }

  /** The intended repair of the same reply closes only the object. */
  lemma IntendedRepairExample()
    ensures RepairedAsIntended(CutOffReply) == "{\"a\":1}"
  {
    var e := CutOffReply;
    assert CloseAll(e) == e + "}" by {
      CutOffReplyCounts();
      assert Deficit(e) == 1;
      assert Repeat('}', 1) == "}";
    }
    assert RepairedAsIntended(e) == CloseAll(e) by {
      CutOffReplyCounts();
      assert CloseQuote(e) == e;
    }
    assert e + "}" == "{\"a\":1}";
  }

  /** The reply of the finding: a fenced block cut off after a complete value. */
  const CutOffFencedReply: string := "```json\n{\"a\":1"

  /** The cut-off fenced reply has a single fence and no `}`. */
  lemma CutOffFencedReplyUnclosed()
    ensures CodeBlock(CutOffFencedReply).None? && BraceSpan(CutOffFencedReply).None?
  {
    var text := CutOffFencedReply;
    assert CodeBlock(text).None? by {
      assert forall j | 3 <= j < |text| :: text[j] != '`';
      forall i | FenceAt(text, i) ensures i == 0 {
        assert text[i..i + 3][2] == text[i + 2] == '`';
      }
    }
    assert forall j | 0 <= j < |text| :: text[j] != '}';
  }

  /** Its fence and label are followed by a `{`. */
  lemma CutOffFencedReplyOpens()
    ensures TruncatedFence(CutOffFencedReply)
  {
    var text := CutOffFencedReply;
    assert text[0..3] == Fence && text[3..7] == "json";
    assert IsSpace(text[7]) && SkipSpaces(text, 8) == 8;
    assert OpensObject(text, SkipSpaces(text, LabelEnd(text, 0)));
  }

  /** Its first `{` is at index 8, where the cut-off object starts. */
  lemma CutOffFencedReplyStart()
    ensures FirstIndexOfChar(CutOffFencedReply, '{') == Some(8) && CutOffFencedReply[8..] == CutOffReply
  {
    var text := CutOffFencedReply;
    assert text[8] == '{' && forall j | 0 <= j < 8 :: text[j] != '{';
    var f := FirstIndexOfChar(text, '{');
    assert f.Some? && f.value <= 8;
    assert text[8..] == CutOffReply;
  }

  /** As written, the cut-off fenced reply is extracted as `{"a":1"}`, which is not JSON. */
  lemma CutOffFencedReplyExtraction()
    ensures ExtractSpec(CutOffFencedReply) == Some("{\"a\":1\"}")
  {
    CutOffFencedReplyUnclosed();
    CutOffFencedReplyOpens();
    CutOffFencedReplyStart();
    QuoteStepExample();
  }

  /** The error thrown when nothing can be extracted. */
  function ParseFailure(text: string): (m: string)
    ensures StartsWith(m, "Failed to parse Gemini response. Raw: ") && EndsWith(m, "...")
    ensures |m| == 41 + (if |text| < 200 then |text| else 200)
    ensures m[38..|m| - 3] == text[..if |text| < 200 then |text| else 200]
  {
    var m := "Failed to parse Gemini response. Raw: " + text[..if |text| < 200 then |text| else 200] + "...";
    assert m[..38] == "Failed to parse Gemini response. Raw: ";
    m
  }

  datatype Provider = Gemini | OpenAi

  /** A parsed analysis with its defaults filled in (`analyzedAt`, a clock reading, is left out). */
  datatype AnalysisResult = AnalysisResult(
    relevanceScore: Json,
    requirementsMet: Json,
    requirementsMissed: Json,
    effortScore: Json,
    qualityScore: Json,
    issues: Json,
    summary: Json,
    provider: Provider)

  /** The error reading a field of `null` raises. */
  const NullAnalysisError: string := "Cannot read properties of null (reading 'relevanceScore')"

  /** A field read with `??`: a present, non-null value is kept, anything else gives way to `d`. */
  predicate KeptOrDefault(field: Option<Json>, out: Json, d: Json) {
    (field.Some? && !field.value.JNull? ==> out == field.value)
    && (field.None? || field == Some(JNull) ==> out == d)
  }

  /**
   * The object returned for a parsed analysis: each field keeps a value that
   * is neither `null` nor missing, and otherwise takes its default.
   */
  function ResultOf(analysis: Json, provider: Provider): (r: Result<AnalysisResult, string>)
    ensures r.Err? <==> analysis.JNull?
    ensures r.Ok? ==> r.value.provider == provider
    ensures r.Ok? ==> KeptOrDefault(Field(analysis, "relevanceScore"), r.value.relevanceScore,
                        JNum(if Field(analysis, "isLegitimate").Some? && JsonTruthy(Field(analysis, "isLegitimate").value) then 100 else 0))
    ensures r.Ok? ==> KeptOrDefault(Field(analysis, "requirementsMet"), r.value.requirementsMet, JArr([]))
    ensures r.Ok? ==> KeptOrDefault(Field(analysis, "requirementsMissed"), r.value.requirementsMissed, JArr([]))
    ensures r.Ok? ==> KeptOrDefault(Field(analysis, "effortScore"), r.value.effortScore, JNum(0))
    ensures r.Ok? ==> KeptOrDefault(Field(analysis, "qualityScore"), r.value.qualityScore, JNum(0))
    ensures r.Ok? ==> KeptOrDefault(Field(analysis, "issues"), r.value.issues, JArr([]))
    ensures r.Ok? ==> KeptOrDefault(Field(analysis, "summary"), r.value.summary, JStr("No summary available"))
  {
    if analysis.JNull? then Err(NullAnalysisError)
    else
      var legitimate := Field(analysis, "isLegitimate");
      Ok(AnalysisResult(
        Nullish(Field(analysis, "relevanceScore"), JNum(if legitimate.Some? && JsonTruthy(legitimate.value) then 100 else 0)),
        Nullish(Field(analysis, "requirementsMet"), JArr([])),
        Nullish(Field(analysis, "requirementsMissed"), JArr([])),
        Nullish(Field(analysis, "effortScore"), JNum(0)),
        Nullish(Field(analysis, "qualityScore"), JNum(0)),
        Nullish(Field(analysis, "issues"), JArr([])),
        Nullish(Field(analysis, "summary"), JStr("No summary available")),
        provider))
  }

  /** No field of a defaulted result is `null`. */
  lemma DefaultedFieldsPresent(analysis: Json, provider: Provider)
    requires !analysis.JNull?
    ensures var r := ResultOf(analysis, provider).value;
            !r.relevanceScore.JNull? && !r.requirementsMet.JNull? && !r.requirementsMissed.JNull?
            && !r.effortScore.JNull? && !r.qualityScore.JNull? && !r.issues.JNull? && !r.summary.JNull?
  {
  }

  /**
   * The Gemini branch from reply text to result: nothing extracted (or an
   * empty block) is a parse failure, `JSON.parse` errors are wrapped, and a
   * parsed value is defaulted.
   */
  function GeminiResult(text: string, parse: string -> Result<Json, string>): (r: Result<AnalysisResult, string>)
    ensures (ExtractSpec(text).None? || ExtractSpec(text) == Some("")) ==> r == Err(ParseFailure(text))
    ensures r.Ok? ==> r.value.provider == Gemini && ExtractSpec(text).Some? && parse(ExtractSpec(text).value).Ok?
    ensures ExtractSpec(text).Some? && ExtractSpec(text).value != "" ==>
              match parse(ExtractSpec(text).value)
              case Err(message) => r == Err("Invalid JSON from Gemini: " + message)
              case Ok(analysis) => r == ResultOf(analysis, Gemini)
  {
    match ExtractSpec(text)
    case None => Err(ParseFailure(text))
    case Some(json) =>
      if json == "" then Err(ParseFailure(text))
      else
        match parse(json)
        case Err(message) => Err("Invalid JSON from Gemini: " + message)
        case Ok(analysis) => ResultOf(analysis, Gemini)
  }

  /** The OpenAI branch: only a brace span is looked for, and parse errors pass through. */
  function OpenAiResult(text: string, parse: string -> Result<Json, string>): (r: Result<AnalysisResult, string>)
    ensures BraceSpan(text).None? ==> r == Err("Failed to parse OpenAI response")
    ensures r.Ok? ==> r.value.provider == OpenAi && BraceSpan(text).Some?
    ensures BraceSpan(text).Some? ==>
              match parse(BraceSpan(text).value)
              case Err(message) => r == Err(message)
              case Ok(analysis) => r == ResultOf(analysis, OpenAi)
  {
    match BraceSpan(text)
    case None => Err("Failed to parse OpenAI response")
    case Some(json) =>
      match parse(json)
      case Err(message) => Err(message)
      case Ok(analysis) => ResultOf(analysis, OpenAi)
  }

  /** `getVideoAnalysisProvider`: Gemini when its key is set, else OpenAI when its key is set. */
  function ProviderOf(geminiKey: Option<string>, openAiKey: Option<string>): (r: Option<Provider>)
    ensures r == Some(Gemini) <==> Truthy(geminiKey)
    ensures r == Some(OpenAi) <==> !Truthy(geminiKey) && Truthy(openAiKey)
    ensures r.None? <==> !Truthy(geminiKey) && !Truthy(openAiKey)
  {
    if Truthy(geminiKey) then Some(Gemini)
    else if Truthy(openAiKey) then Some(OpenAi)
    else None
  }

  /** The parts of a URL `isVideoUrlCompatible` looks at, as `new URL` gives them. */
  datatype Url = Url(hostname: string, pathname: string)

  const CompatibleDomains: seq<string> := [
    "youtube.com", "youtu.be", "youtube-nocookie.com",
    "vimeo.com",
    "loom.com", "www.loom.com",
    "dropbox.com", "www.dropbox.com",
    "drive.google.com",
    "dailymotion.com",
    "cdn.loom.com",
    "校外"
  ]

  const VideoExtensions: seq<string> := [".mp4", ".webm", ".mov", ".m4v", ".avi"]

  /** Some entry of `needles` occurs in `s`. */
  function ContainsAny(s: string, needles: seq<string>): (r: bool)
    ensures r <==> exists k | 0 <= k < |needles| :: Contains(s, needles[k])
  {
    if needles == [] then false
    else Contains(s, needles[0]) || ContainsAny(s, needles[1..])
  }

  /** `s` ends with some entry of `suffixes`. */
  function EndsWithAny(s: string, suffixes: seq<string>): (r: bool)
    ensures r <==> exists k | 0 <= k < |suffixes| :: EndsWith(s, suffixes[k])
  {
    if suffixes == [] then false
    else EndsWith(s, suffixes[0]) || EndsWithAny(s, suffixes[1..])
  }

  /**
   * `isVideoUrlCompatible`: an unparsable URL is incompatible; otherwise the
   * lower-cased host must contain a known domain or the lower-cased path must
   * end with a video extension.
   */
  function IsVideoUrlCompatible(parsed: Option<Url>): (r: bool)
    ensures parsed.None? ==> !r
    ensures parsed.Some? ==>
              (r <==> (exists k | 0 <= k < |CompatibleDomains| :: Contains(Lower(parsed.value.hostname), CompatibleDomains[k]))
                      || (exists k | 0 <= k < |VideoExtensions| :: EndsWith(Lower(parsed.value.pathname), VideoExtensions[k])))
  {
    match parsed
    case None => false
    case Some(url) =>
      ContainsAny(Lower(url.hostname), CompatibleDomains) || EndsWithAny(Lower(url.pathname), VideoExtensions)
  }

  lemma LowerYouTube()
    ensures Lower(".youtube.com") == ".youtube.com"
  {
    var d := ".youtube.com";
    forall i | 0 <= i < |d| ensures !('A' <= d[i] <= 'Z') {
    }
    LowerOfLower(d);
  }

  /** Every host under youtube.com is compatible, whatever the path. */
  lemma YouTubeHostCompatible(host: string, path: string)
    ensures IsVideoUrlCompatible(Some(Url(host + ".youtube.com", path)))
  {
    YouTubeInHost(host);
    KnownDomainCompatible(Url(host + ".youtube.com", path), 0);
  }

  lemma YouTubeInHost(host: string)
    ensures Contains(Lower(host + ".youtube.com"), "youtube.com")
  {
    var d := ".youtube.com";
    var h := Lower(host + d);
    assert h == Lower(host) + d by {
      LowerAppend(host, d);
      LowerYouTube();
    }
    assert OccursAt(h, "youtube.com", |host| + 1) by {
      assert h[|host| + 1..|host| + 12] == d[1..];
    }
  }

  /** A host containing any listed domain is compatible. */
  lemma KnownDomainCompatible(url: Url, k: nat)
    requires k < |CompatibleDomains| && Contains(Lower(url.hostname), CompatibleDomains[k])
    ensures IsVideoUrlCompatible(Some(url))
  {
  }

  /** Every path ending in `.mp4` is compatible, whatever the host. */
  lemma Mp4PathCompatible(host: string, path: string)
    ensures IsVideoUrlCompatible(Some(Url(host, path + ".mp4")))
  {
    var lp := Lower(path + ".mp4");
    assert lp == Lower(path) + ".mp4" by {
      LowerAppend(path, ".mp4");
      LowerOfLower(".mp4");
    }
    assert EndsWith(lp, VideoExtensions[0]);
    assert EndsWithAny(lp, VideoExtensions);
  }
}

=== FILE: video_insights.dfy ===
/**
 * `src/lib/ai/video-insights-analysis.ts`: the developer context inserted
 * into the insights prompt, and the reading of the model's reply into a
 * list of findings with every field defaulted.
 */
module VideoInsights {
  import opened Common
  import opened Strings
  import opened Js
  import opened VideoAnalysis

  const NotSpecified: string := "Not specified"

  /** `v || 'Not specified'`, as interpolated into the prompt. */
  function OrNotSpecified(v: Option<Json>): (r: string)
    ensures v.None? || v == Some(JNull) || v == Some(JStr("")) ==> r == NotSpecified
    ensures v.Some? && v.value.JStr? && v.value.s != "" ==> r == v.value.s
  {
    ToJsString(JsonOr(v, JStr(NotSpecified)))
  }

  /** The values `buildPrompt` puts into its developer-context section. */
  datatype PromptContext = PromptContext(
    testGoal: string,
    focusAreas: string,
    successDefinition: string,
    persona: string,
    keyFeature: string)

  /** Focus areas joined with ", " when they form a non-empty array, else "Not specified". */
  function FocusAreasOf(ctx: Json): (r: string)
    ensures Field(ctx, "focusAreas").Some? && Field(ctx, "focusAreas").value.JArr? && |Field(ctx, "focusAreas").value.items| > 0 ==>
              r == JoinValues(Field(ctx, "focusAreas").value.items, ", ")
    ensures !(Field(ctx, "focusAreas").Some? && Field(ctx, "focusAreas").value.JArr? && |Field(ctx, "focusAreas").value.items| > 0) ==>
              r == NotSpecified
  {
    match Field(ctx, "focusAreas")
    case Some(JArr(items)) => if |items| > 0 then JoinValues(items, ", ") else NotSpecified
    case _ => NotSpecified
  }

  /** The developer context of the prompt: every missing or empty entry reads "Not specified". */
  function PromptContextOf(ctx: Json): (r: PromptContext)
    ensures r.focusAreas == FocusAreasOf(ctx)
    ensures Field(ctx, "testGoal").None? ==> r.testGoal == NotSpecified
    ensures Field(ctx, "successDefinition").None? ==> r.successDefinition == NotSpecified
    ensures Field(ctx, "persona").None? ==> r.persona == NotSpecified
    ensures Field(ctx, "keyFeature").None? ==> r.keyFeature == NotSpecified
  {
    PromptContext(
      OrNotSpecified(Field(ctx, "testGoal")),
      FocusAreasOf(ctx),
      OrNotSpecified(Field(ctx, "successDefinition")),
      OrNotSpecified(Field(ctx, "persona")),
      OrNotSpecified(Field(ctx, "keyFeature")))
  }

  /** An empty developer context asks for nothing in particular: every entry reads "Not specified". */
  lemma EmptyContextNotSpecified()
    ensures PromptContextOf(JObj(map[])) == PromptContext(NotSpecified, NotSpecified, NotSpecified, NotSpecified, NotSpecified)
  {
  }

  /** A context whose entries are non-empty strings is passed on as given. */
  lemma GivenContextKept(goal: string, area: string, success: string, persona: string, feature: string)
    requires goal != "" && success != "" && persona != "" && feature != ""
    ensures var ctx := JObj(map["testGoal" := JStr(goal), "focusAreas" := JArr([JStr(area)]),
                                "successDefinition" := JStr(success), "persona" := JStr(persona),
                                "keyFeature" := JStr(feature)]);
            PromptContextOf(ctx) == PromptContext(goal, area, success, persona, feature)
  {
  }

  /** The four severities a finding may carry. */
  datatype Severity = Critical | High | Medium | Low

  function SeverityName(s: Severity): string {
    match s
    case Critical => "critical"
    case High => "high"
    case Medium => "medium"
    case Low => "low"
  }

  /** A severity is kept when it is exactly one of the four names; anything else is "medium". */
  function SeverityOf(v: Option<Json>): (r: Severity)
    ensures (exists s: Severity :: v == Some(JStr(SeverityName(s)))) ==> v == Some(JStr(SeverityName(r)))
    ensures !(exists s: Severity :: v == Some(JStr(SeverityName(s)))) ==> r == Medium
  {
    if v == Some(JStr("critical")) then Critical
    else if v == Some(JStr("high")) then High
    else if v == Some(JStr("low")) then Low
    else
      assert v == Some(JStr(SeverityName(Medium))) || !(exists s: Severity :: v == Some(JStr(SeverityName(s))));
      Medium
  }

  /** Every severity survives being written out and read back. */
  lemma SeverityRoundTrip(s: Severity)
    ensures SeverityOf(Some(JStr(SeverityName(s)))) == s
  {
  }

  /** A normalised finding: every field present. */
  datatype Finding = Finding(
    dimension: string,
    devFocus: string,
    severity: Severity,
    timestampSec: int,
    title: string,
    problem: string,
    impact: string,
    cause: string,
    recommendation: string)

  /** `String(f.key ?? '')`. */
  function TextField(f: Json, key: string): (r: string)
    ensures Field(f, key).None? || Field(f, key) == Some(JNull) ==> r == ""
    ensures Field(f, key).Some? && Field(f, key).value.JStr? ==> r == Field(f, key).value.s
  {
    ToJsString(Nullish(Field(f, key), JStr("")))
  }

  /** The entries the filter keeps: non-null values of type object, arrays included. */
  predicate IsEntry(f: Json) {
    f.JObj? || f.JArr?
  }

  /** One kept entry, with its fields defaulted. */
  function NormalizeFinding(f: Json): (r: Finding)
    ensures r.timestampSec == NumOr(ToNumber(Field(f, "timestamp_sec")), 0)
    ensures r.severity == SeverityOf(Field(f, "severity"))
    ensures !f.JObj? ==> r == Finding("", "", Medium, 0, "", "", "", "", "")
  {
    Finding(
      TextField(f, "dimension"),
      TextField(f, "dev_focus"),
      SeverityOf(Field(f, "severity")),
      NumOr(ToNumber(Field(f, "timestamp_sec")), 0),
      TextField(f, "title"),
      TextField(f, "problem"),
      TextField(f, "impact"),
      TextField(f, "cause"),
      TextField(f, "recommendation"))
  }

  /** The filter over the raw findings: entries kept in order, everything else dropped. */
  function KeptEntries(items: seq<Json>): (r: seq<Json>)
    ensures |r| <= |items|
    ensures forall k | 0 <= k < |r| :: IsEntry(r[k])
    ensures forall k | 0 <= k < |items| :: IsEntry(items[k]) ==> items[k] in r
    ensures forall k | 0 <= k < |r| :: r[k] in items
  {
    if items == [] then []
    else if IsEntry(items[0]) then [items[0]] + KeptEntries(items[1..])
    else KeptEntries(items[1..])
  }

  /** Filtering distributes over concatenation, so the survivors keep their relative order. */
  lemma {:induction false} KeptEntriesAppend(a: seq<Json>, b: seq<Json>)
    ensures KeptEntries(a + b) == KeptEntries(a) + KeptEntries(b)
  {
    if a == [] {
      assert a + b == b;
    } else {
      assert (a + b)[1..] == a[1..] + b;
      KeptEntriesAppend(a[1..], b);
    }
  }

  /** Filtering twice is filtering once. */
  lemma {:induction false} KeptEntriesIdempotent(items: seq<Json>)
    ensures KeptEntries(KeptEntries(items)) == KeptEntries(items)
  {
    if items != [] {
      KeptEntriesIdempotent(items[1..]);
      if IsEntry(items[0]) {
        assert ([items[0]] + KeptEntries(items[1..]))[1..] == KeptEntries(items[1..]);
      }
    }
  }

  /** The findings of a parsed reply: a non-array `findings` gives none; a `null` reply has no `findings` to read. */
  function FindingsOf(parsed: Json): (r: Result<seq<Finding>, string>)
    ensures parsed.JNull? <==> r.Err?
    ensures !parsed.JNull? && !(Field(parsed, "findings").Some? && Field(parsed, "findings").value.JArr?) ==> r == Ok([])
    ensures r.Ok? ==> Field(parsed, "findings").Some? && Field(parsed, "findings").value.JArr? ==>
              |r.value| <= |Field(parsed, "findings").value.items|
              && |r.value| == |KeptEntries(Field(parsed, "findings").value.items)|
              && forall k | 0 <= k < |r.value| :: r.value[k] == NormalizeFinding(KeptEntries(Field(parsed, "findings").value.items)[k])
  {
    if parsed.JNull? then Err("Cannot read properties of null (reading 'findings')")
    else
      var raw := match Field(parsed, "findings") case Some(JArr(items)) => items case _ => [];
      var kept := KeptEntries(raw);
      Ok(seq(|kept|, k requires 0 <= k < |kept| => NormalizeFinding(kept[k])))
  }

  /** The JSON text of a reply: a fenced block first, then a brace span; an empty pick counts as none. */
  function InsightsJson(text: string): (r: Option<string>)
    ensures CodeBlock(text).Some? && CodeBlock(text).value != "" ==> r == CodeBlock(text)
    ensures CodeBlock(text).None? && BraceSpan(text).Some? ==> r == BraceSpan(text)
    ensures r.Some? ==> r.value != ""
    ensures CodeBlock(text).None? && BraceSpan(text).None? ==> r.None?
    ensures CodeBlock(text) == Some("") ==> r.None?
  {
    var pick := match CodeBlock(text) case Some(block) => Some(block) case None => BraceSpan(text);
    if pick.Some? && pick.value != "" then pick else None
  }

  /** The message thrown when no JSON can be found: the first 200 characters of the reply. */
  function InsightsFailure(text: string): (m: string)
    ensures StartsWith(m, "Failed to parse insights response. Raw: ") && EndsWith(m, "...")
    ensures |m| == 43 + (if |text| <= 200 then |text| else 200)
    ensures m[40..|m| - 3] == text[..if |text| <= 200 then |text| else 200]
  {
    var shown := if |text| <= 200 then text else text[..200];
    var m := "Failed to parse insights response. Raw: " + shown + "...";
    assert m[..40] == "Failed to parse insights response. Raw: ";
    m
  }

  /** The outcome of an insights analysis (the time stamp is left out). */
  datatype InsightsResult = InsightsResult(findings: seq<Finding>, provider: Provider)

  /**
   * `parseInsightsResponse`: extraction, then `parse` (standing for
   * `JSON.parse`), then the normalised findings. No JSON found, a parse
   * error or a `null` reply is an error.
   */
  function ParseInsights(text: string, provider: Provider, parse: string -> Result<Json, string>): (r: Result<InsightsResult, string>)
    ensures InsightsJson(text).None? ==> r == Err(InsightsFailure(text))
    ensures InsightsJson(text).Some? && parse(InsightsJson(text).value).Err? ==>
              r == Err("Invalid JSON from AI: " + parse(InsightsJson(text).value).error)
    ensures r.Ok? ==> r.value.provider == provider && InsightsJson(text).Some? && parse(InsightsJson(text).value).Ok?
                      && FindingsOf(parse(InsightsJson(text).value).value) == Ok(r.value.findings)
  {
    match InsightsJson(text)
    case None => Err(InsightsFailure(text))
    case Some(json) =>
      match parse(json)
      case Err(message) => Err("Invalid JSON from AI: " + message)
      case Ok(parsed) =>
        match FindingsOf(parsed)
        case Err(message) => Err(message)
        case Ok(findings) => Ok(InsightsResult(findings, provider))
  }

  const NoProviderMessage: string := "No AI provider configured. Set GEMINI_API_KEY or OPENAI_API_KEY"

  /** `analyzeVideoInsights`: Gemini when its key is set, else OpenAI, else an error; `reply` stands for the provider's answer. */
  function AnalyzeInsights(geminiKey: Option<string>, openAiKey: Option<string>, reply: Provider -> Result<string, string>,
                           parse: string -> Result<Json, string>): (r: Result<InsightsResult, string>)
    ensures ProviderOf(geminiKey, openAiKey).None? ==> r == Err(NoProviderMessage)
    ensures ProviderOf(geminiKey, openAiKey).Some? && reply(ProviderOf(geminiKey, openAiKey).value).Ok? ==>
              r == ParseInsights(reply(ProviderOf(geminiKey, openAiKey).value).value, ProviderOf(geminiKey, openAiKey).value, parse)
    ensures r.Ok? ==> ProviderOf(geminiKey, openAiKey) == Some(r.value.provider)
  {
    match ProviderOf(geminiKey, openAiKey)
    case None => Err(NoProviderMessage)
    case Some(p) =>
      match reply(p)
      case Err(message) => Err(message)
      case Ok(text) => ParseInsights(text, p, parse)
  }
}

=== FILE: video_submit.dfy ===
/**
 * The `POST` handler of `src/app/api/video-analysis/submit/route.ts`: the
 * request it builds for the analysis (title, task description and expected
 * duration, with their defaults) and `determineValidity`, which turns an
 * analysis into a pass or a fail.
 */
module VideoSubmit {
  import opened Common
  import opened Strings
  import opened Js
  import opened Http
  import opened VideoAnalysis

  /** `off.?topic` at `i`: "off", at most one character other than a line end, then "topic". */
  predicate OffTopicAt(l: string, i: int) {
    OccursAt(l, "off", i)
    && (OccursAt(l, "topic", i + 3) || (i + 3 < |l| && !IsLineTerminator(l[i + 3]) && OccursAt(l, "topic", i + 4)))
  }

  /** The plain alternatives of the critical-issue pattern. */
  const CriticalPhrases: seq<string> := ["not a real", "fake", "random video", "generic"]

  /**
   * `/not a real|fake|random video|generic|off.?topic/i`: the patterns are
   * all lower-case ASCII, so matching the lower-cased issue is matching
   * without regard to case.
   */
  function IsCritical(issue: string): (r: bool)
    ensures r <==> (exists k | 0 <= k < |CriticalPhrases| :: Contains(Lower(issue), CriticalPhrases[k]))
                   || exists i | 0 <= i < |Lower(issue)| :: OffTopicAt(Lower(issue), i)
  {
    var l := Lower(issue);
    ContainsAny(l, CriticalPhrases) || exists i | 0 <= i < |l| :: OffTopicAt(l, i)
  }

  /** Whether any issue is critical (`issues.some(...)`). */
  function HasCritical(issues: seq<string>): (r: bool)
    ensures r <==> exists k | 0 <= k < |issues| :: IsCritical(issues[k])
  {
    if issues == [] then false else IsCritical(issues[0]) || HasCritical(issues[1..])
  }

  /** `score >= k` on a JavaScript number: NaN compares false. */
  predicate AtLeast(score: JsNumber, k: int) {
    score.Num? && score.n >= k
  }

  /**
   * `determineValidity`: relevance at least 60, effort at least 50, quality
   * at least 40, and no critical issue.
   */
  function DetermineValidity(relevance: JsNumber, effort: JsNumber, quality: JsNumber, issues: seq<string>): (r: bool)
    ensures r <==> relevance.Num? && relevance.n >= 60 && effort.Num? && effort.n >= 50 && quality.Num? && quality.n >= 40
                   && forall k | 0 <= k < |issues| :: !IsCritical(issues[k])
  {
    AtLeast(relevance, 60) && AtLeast(effort, 50) && AtLeast(quality, 40) && !HasCritical(issues)
  }

  /** Raising scores never turns a valid analysis into an invalid one. */
  lemma ValidityMonotoneInScores(r: int, e: int, q: int, r': int, e': int, q': int, issues: seq<string>)
    requires r <= r' && e <= e' && q <= q'
    ensures DetermineValidity(Num(r), Num(e), Num(q), issues) ==> DetermineValidity(Num(r'), Num(e'), Num(q'), issues)
  {
  }

  /** Reporting more issues never turns an invalid analysis into a valid one. */
  lemma ValidityAntitoneInIssues(relevance: JsNumber, effort: JsNumber, quality: JsNumber, issues: seq<string>, more: seq<string>)
    requires forall k | 0 <= k < |issues| :: issues[k] in more
    ensures DetermineValidity(relevance, effort, quality, more) ==> DetermineValidity(relevance, effort, quality, issues)
  {
    if HasCritical(issues) {
      var k :| 0 <= k < |issues| && IsCritical(issues[k]);
      var m :| 0 <= m < |more| && more[m] == issues[k];
      assert IsCritical(more[m]);
    }
  }

  /** A NaN score (an unreadable number) always fails. */
  lemma NaNScoreFails(effort: JsNumber, quality: JsNumber, issues: seq<string>)
    ensures !DetermineValidity(NaN, effort, quality, issues)
    ensures !DetermineValidity(effort, NaN, quality, issues)
    ensures !DetermineValidity(effort, quality, NaN, issues)
  {
  }

  /** Criticality does not depend on letter case. */
  lemma CriticalIgnoresCase(issue: string)
    ensures IsCritical(Lower(issue)) <==> IsCritical(issue)
  {
    LowerIdempotent(issue);
  }

  /** Any issue mentioning "fake", in whatever case and wherever, is critical. */
  lemma FakeIsCritical(before: string, after: string)
    ensures IsCritical(before + "FAKE" + after) && IsCritical(before + "fake" + after)
  {
    FakeInside(before, "FAKE", after);
    FakeInside(before, "fake", after);
  }

  lemma FakeInside(before: string, word: string, after: string)
    requires word == "FAKE" || word == "fake"
    ensures Contains(Lower(before + word + after), "fake")
  {
    var l := Lower(before + word + after);
    assert Lower(word) == "fake" by {
      assert |Lower(word)| == 4;
    }
    assert l == Lower(before) + Lower(word) + Lower(after) by {
      LowerAppend(before + word, after);
      LowerAppend(before, word);
    }
    assert OccursAt(l, "fake", |before|) by {
      assert l[|before|..|before| + 4] == Lower(word);
    }
  }

  /** The request handed to `analyzeVideo`. */
  datatype AnalysisRequest = AnalysisRequest(
    videoUrl: Json,
    taskTitle: Json,
    taskDescription: string,
    expectedDurationSeconds: Json)

  const DefaultTitle: string := "User Test"

  /** `task.app_url || task.url || 'Not specified'`. */
  function AppUrlOf(task: Json): Json {
    JsonOr(Field(task, "app_url"), JsonOr(Field(task, "url"), JStr("Not specified")))
  }

  /** `task.about || task.description || 'No general description provided.'`. */
  function AboutOf(task: Json): Json {
    JsonOr(Field(task, "about"), JsonOr(Field(task, "description"), JStr("No general description provided.")))
  }

  predicate NonEmptyArray(v: Option<Json>) {
    v.Some? && v.value.JArr? && |v.value.items| > 0
  }

  /** The steps, joined with "\n- " when a non-empty array, else the instructions, else "None". */
  function StepsListOf(task: Json): (r: string)
    ensures NonEmptyArray(Field(task, "steps")) ==> r == JoinValues(Field(task, "steps").value.items, "\n- ")
    ensures !NonEmptyArray(Field(task, "steps")) && Field(task, "instructions") == Some(JStr("")) ==> r == "None"
    ensures !NonEmptyArray(Field(task, "steps")) && Field(task, "instructions").None? ==> r == "None"
  {
    match Field(task, "steps")
    case Some(JArr(items)) =>
      if |items| > 0 then JoinValues(items, "\n- ") else ToJsString(JsonOr(Field(task, "instructions"), JStr("None")))
    case _ => ToJsString(JsonOr(Field(task, "instructions"), JStr("None")))
  }

  /** The requirements, joined the same way, else "None". */
  function RequirementsListOf(task: Json): (r: string)
    ensures NonEmptyArray(Field(task, "requirements")) ==> r == JoinValues(Field(task, "requirements").value.items, "\n- ")
    ensures !NonEmptyArray(Field(task, "requirements")) ==> r == "None"
  {
    match Field(task, "requirements")
    case Some(JArr(items)) => if |items| > 0 then JoinValues(items, "\n- ") else "None"
    case _ => "None"
  }

  const TargetHeading: string := "TARGET APP/WEBSITE TO TEST: "

  /** What follows the heading of the about section. */
  function AfterAbout(task: Json): string {
    ToJsString(AboutOf(task))
    + "\n\nEXACT STEPS TESTER MUST FOLLOW:\n- " + StepsListOf(task)
    + "\n\nSPECIFIC REQUIREMENTS:\n- " + RequirementsListOf(task) + "\n"
  }

  const AboutHeading: string := "\n\nABOUT THIS TASK:\n"

  /** The template of the description, before trimming. */
  function DescriptionTemplate(task: Json): string {
    "\n" + TargetHeading + (ToJsString(AppUrlOf(task)) + (AboutHeading + AfterAbout(task)))
  }

  /** The task description: the template, trimmed; it always opens with the target heading. */
  function TaskDescription(task: Json): (r: string)
    ensures StartsWith(r, TargetHeading)
  {
    TemplateOpensWithTarget(ToJsString(AppUrlOf(task)), AfterAbout(task));
    Trim(DescriptionTemplate(task))
  }

  /** Whatever the inserted values, trimming keeps the target heading in front. */
  lemma TemplateOpensWithTarget(app: string, rest: string)
    ensures StartsWith(Trim("\n" + TargetHeading + (app + (AboutHeading + rest))), TargetHeading)
  {
    var tail := app + (AboutHeading + rest);
    var s := "\n" + TargetHeading + tail;
    assert s[1..29] == TargetHeading;
    assert tail[|app| + 2] == 'A' by {
      assert (AboutHeading + rest)[2] == 'A';
    }
    var j := 29 + |app| + 2;
    assert s[j] == 'A';
    assert AllSpace(s[..1]) && !IsSpace(s[1]);
    TrimKeeps(s, 1, j);
    assert s[1..j + 1][..28] == TargetHeading;
  }

  /**
   * The request built for a body whose `videoUrl` is set: without a task
   * id, or when no task row is found, the title is "User Test" and the
   * description empty; with a task row, its title (or "User Test") and its
   * description. The duration is `durationSeconds || 180`.
   */
  function AnalysisRequestOf(body: Json, task: Option<Json>): (r: AnalysisRequest)
    ensures r.videoUrl == Field(body, "videoUrl").OrElse(JNull)
    ensures r.expectedDurationSeconds == JsonOr(Field(body, "durationSeconds"), JNum(180))
    ensures !(Field(body, "taskId").Some? && JsonTruthy(Field(body, "taskId").value)) || task.None? ==>
              r.taskTitle == JStr(DefaultTitle) && r.taskDescription == ""
    ensures Field(body, "taskId").Some? && JsonTruthy(Field(body, "taskId").value) && task.Some? ==>
              r.taskTitle == JsonOr(Field(task.value, "title"), JStr(DefaultTitle))
              && StartsWith(r.taskDescription, TargetHeading)
  {
    var taskId := Field(body, "taskId");
    var found := taskId.Some? && JsonTruthy(taskId.value) && task.Some?;
    var duration := JsonOr(Field(body, "durationSeconds"), JNum(180));
    if found then
      AnalysisRequest(Field(body, "videoUrl").OrElse(JNull), JsonOr(Field(task.value, "title"), JStr(DefaultTitle)),
                      TaskDescription(task.value), duration)
    else
      AnalysisRequest(Field(body, "videoUrl").OrElse(JNull), JStr(DefaultTitle), "", duration)
  }

  /** The message of the TypeError `issues.some` raises when `issues` is not an array. */
  const IssuesNotArray: string := "result.issues.some is not a function"

  /** The JSON object of a successful response. */
  function AnalysisBody(res: AnalysisResult, isValid: bool): Json {
    JObj(map["analysis" := JObj(map[
      "relevanceScore" := res.relevanceScore,
      "requirementsMet" := res.requirementsMet,
      "requirementsMissed" := res.requirementsMissed,
      "effortScore" := res.effortScore,
      "qualityScore" := res.qualityScore,
      "issues" := res.issues,
      "summary" := res.summary,
      "isValid" := JBool(isValid)])])
  }

  /** `determineValidity` on a defaulted analysis, or the TypeError for non-array issues. */
  function ValidityOf(res: AnalysisResult): (r: Result<bool, string>)
    ensures !res.issues.JArr? <==> r == Err(IssuesNotArray)
  {
    match res.issues
    case JArr(items) =>
      Ok(DetermineValidity(
        ToNumber(Some(res.relevanceScore)), ToNumber(Some(res.effortScore)), ToNumber(Some(res.qualityScore)),
        seq(|items|, k requires 0 <= k < |items| => ToJsString(items[k]))))
    case _ => Err(IssuesNotArray)
  }

  /**
   * The handler: a body that cannot be read, or a `null` body, is a 500; a
   * missing `videoUrl` is a 400 before any analysis; a failed analysis is a
   * 500 with its message; otherwise the analysis and its validity.
   * `analyze` stands for `analyzeVideo`, and `task` for the row the task
   * lookup returns.
   */
  function Submit(body: Result<Json, string>, task: Option<Json>, analyze: AnalysisRequest -> Result<AnalysisResult, string>): (r: Response)
    ensures body.Err? ==> r == Error(500, body.error)
    ensures (body.Ok? && !body.value.JNull? && !(Field(body.value, "videoUrl").Some? && JsonTruthy(Field(body.value, "videoUrl").value)))
              ==> r == Error(400, "videoUrl is required")
    ensures body.Ok? && body.value.JNull? ==> r.status == 500
    ensures body.Ok? && Field(body.value, "videoUrl").Some? && JsonTruthy(Field(body.value, "videoUrl").value) ==>
              match analyze(AnalysisRequestOf(body.value, task))
              case Err(message) => r == Error(500, message)
              case Ok(res) =>
                match ValidityOf(res)
                case Err(message) => r == Error(500, message)
                case Ok(isValid) => r == Response(200, AnalysisBody(res, isValid))
    ensures r.status == 200 ==>
              body.Ok? && Field(body.value, "videoUrl").Some? && JsonTruthy(Field(body.value, "videoUrl").value)
              && analyze(AnalysisRequestOf(body.value, task)).Ok?
              && ValidityOf(analyze(AnalysisRequestOf(body.value, task)).value).Ok?
              && r.body == AnalysisBody(analyze(AnalysisRequestOf(body.value, task)).value,
                                        ValidityOf(analyze(AnalysisRequestOf(body.value, task)).value).value)
  {
    match body
    case Err(message) => Error(500, message)
    case Ok(b) =>
      if b.JNull? then Error(500, "Cannot destructure property 'videoUrl' of 'body' as it is null.")
      else
        var videoUrl := Field(b, "videoUrl");
        if !(videoUrl.Some? && JsonTruthy(videoUrl.value)) then Error(400, "videoUrl is required")
        else
          match analyze(AnalysisRequestOf(b, task))
          case Err(message) => Error(500, message)
          case Ok(res) =>
            match ValidityOf(res)
            case Err(message) => Error(500, message)
            case Ok(isValid) => Response(200, AnalysisBody(res, isValid))
  }
}

=== FILE: webhook_route.dfy ===
/**
 * `POST` of `src/app/api/stripe/webhook/route.ts`: a signed Stripe event;
 * only a completed checkout session with a user id and a positive total
 * credits that user's wallet, and the checkout's customer id is stored on
 * a profile that has none. The same session delivered twice is deposited
 * twice.
 */
module WebhookRoute {
  import opened Common
  import opened Js
  import opened Http
  import opened Ledger
  import opened Records
  import opened Db

  const CheckoutCompleted := "checkout.session.completed"

  /** `session.customer`: an id string, or an expanded customer object. */
  datatype Customer = CustomerId(id: string) | CustomerObject

  /** The fields of a checkout session the handler reads. */
  datatype CheckoutSession = CheckoutSession(
    id: string,
    userId: Option<string>,
    amountTotal: Option<int>,
    paymentIntent: Option<string>,
    customer: Option<Customer>)

  datatype StripeEvent = StripeEvent(kind: string, session: CheckoutSession)

  /** Stands for the message of the error the profile lookup throws when the row is missing. */
  const ProfileLookupError := "profile lookup returned no row"

  /** The metadata of the deposit row. */
  function DepositMetadata(s: CheckoutSession): (m: map<string, Json>)
    ensures m.Keys == {"stripe_session_id", "stripe_payment_intent"}
    ensures m["stripe_session_id"] == JStr(s.id)
    ensures m["stripe_payment_intent"] == (if s.paymentIntent.Some? then JStr(s.paymentIntent.value) else JNull)
  {
    map["stripe_session_id" := JStr(s.id),
        "stripe_payment_intent" := if s.paymentIntent.Some? then JStr(s.paymentIntent.value) else JNull]
  }

  /** The session is one the handler deposits: a user id and `amount_total ?? 0` above zero. */
  predicate Depositable(s: CheckoutSession) {
    Truthy(s.userId) && s.amountTotal.OrElse(0) > 0
  }

  /** The request is signed, the secret is configured and the signature verified. */
  predicate Verified(signature: Option<string>, secret: Option<string>, event: Result<StripeEvent, string>) {
    Truthy(signature) && Truthy(secret) && event.Ok?
  }

  /** A verified completed-checkout event. */
  predicate IsCheckout(signature: Option<string>, secret: Option<string>, event: Result<StripeEvent, string>) {
    Verified(signature, secret, event) && event.value.kind == CheckoutCompleted
  }

  /** The checkout names a customer by a non-empty id (a truthy string). */
  predicate NamesCustomer(s: CheckoutSession) {
    s.customer.Some? && s.customer.value.CustomerId? && s.customer.value.id != ""
  }

  /**
   * The handler. `event` is the outcome of signature verification: the
   * event, or the verifier's error message. Responses are 400 for a
   * missing signature or secret, a bad signature, a missing user id or a
   * non-positive total, and `{ received: true }` otherwise; only a
   * depositable completed checkout changes the wallets.
   */
  method HandleWebhook(store: Store, signature: Option<string>, secret: Option<string>,
                       event: Result<StripeEvent, string>, now: int)
    returns (resp: Response)
    requires store.Valid()
    modifies store
    ensures store.Valid()
    ensures !Truthy(signature) || !Truthy(secret) ==> resp == Error(400, "Missing signature or webhook secret")
    ensures Truthy(signature) && Truthy(secret) && event.Err? ==> resp == Error(400, event.error)
    ensures Verified(signature, secret, event) && event.value.kind != CheckoutCompleted ==> resp == OkFlag("received")
    ensures IsCheckout(signature, secret, event) && !Truthy(event.value.session.userId) ==>
              resp == Error(400, "Missing user_id in metadata")
    ensures IsCheckout(signature, secret, event) && Truthy(event.value.session.userId) && event.value.session.amountTotal.OrElse(0) <= 0 ==>
              resp == Error(400, "Invalid amount")
    ensures !(IsCheckout(signature, secret, event) && Depositable(event.value.session)) ==>
              store.txs == old(store.txs) && store.wallets == old(store.wallets) && store.profiles == old(store.profiles)
    ensures IsCheckout(signature, secret, event) && Depositable(event.value.session) ==>
              var s := event.value.session;
              var u := s.userId.value;
              && store.txs == old(store.txs) + [Tx(u, TxType.Deposit, s.amountTotal.value, TxStatus.Completed, DepositMetadata(s), Some(now), now)]
              && store.wallets == old(store.wallets)[u := old(store.Balance(u)) + s.amountTotal.value]
              && (NamesCustomer(s) && u !in old(store.profiles) ==> resp == Error(400, ProfileLookupError))
              && (NamesCustomer(s) && u in old(store.profiles) && !Truthy(old(store.profiles)[u].stripeCustomerId) ==>
                    store.profiles == old(store.profiles)[u := old(store.profiles)[u].(stripeCustomerId := Some(s.customer.value.id), updatedAt := Some(now))])
              && (NamesCustomer(s) && u in old(store.profiles) && Truthy(old(store.profiles)[u].stripeCustomerId) ==>
                    store.profiles == old(store.profiles))
              && (!NamesCustomer(s) ==> store.profiles == old(store.profiles))
              && (!NamesCustomer(s) || u in old(store.profiles) ==> resp == OkFlag("received"))
    ensures old(store.IsSolvent()) ==> store.IsSolvent()
    ensures store.tasks == old(store.tasks) && store.submissions == old(store.submissions)
  {
    if !Truthy(signature) || !Truthy(secret) {
      return Error(400, "Missing signature or webhook secret");
    }
    if event.Err? {
      return Error(400, event.error);
    }
    var e := event.value;
    if e.kind == CheckoutCompleted {
      var s := e.session;
      if !Truthy(s.userId) {
        return Error(400, "Missing user_id in metadata");
      }
      var amountTotal := s.amountTotal.OrElse(0);
      if amountTotal <= 0 {
        return Error(400, "Invalid amount");
      }
      store.Deposit(s.userId.value, amountTotal, DepositMetadata(s), now);
      if NamesCustomer(s) {
        if s.userId.value !in store.profiles {
          return Error(400, ProfileLookupError);
        }
        if !Truthy(store.profiles[s.userId.value].stripeCustomerId) {
          store.UpdateStripeCustomerId(s.userId.value, s.customer.value.id, now);
        }
      }
    }
    resp := OkFlag("received");
  }
}
